=== FILE: README.md ===
# Buildpack release tooling, modelled in Dafny

This project models the core of a command-line tool that helps release a
set of Cloud Native Buildpacks from one repository. The core has five parts:

- **Changelogs.** A buildpack's `CHANGELOG.md` follows the Keep a Changelog
  1.0.0 format. It is read into an unreleased section plus an ordered map of
  release entries (version, date, body). It is written back with a fixed
  preamble.
- **Release link declarations.** These are the `[label]: url` lines written
  under a changelog. They compare each release with the one before it.
- **Prepare release.** This checks that every buildpack has one shared
  version, computes the next version, and turns the unreleased changes plus
  the updated dependencies into the new release entry.
- **Generate changelog.** This collects one section per buildpack into a
  project-wide changelog.
- **Check buildpack registry** and **generate buildpack matrix.** These
  compute where a buildpack sits in the registry index, and whether the
  version is already there. They also compute the packaging and publishing
  matrix: targets, Rust triples, output directories and image tags.

Strings are `seq<char>`. Errors are `Result` values whose error
constructors follow the tool's own error enums. The Markdown parser, TOML
and JSON decoders, the file system and the clock are libraries or I/O. They
become inputs: a Markdown tree, a decoded descriptor, a decoding function,
flags for the files a directory holds, a date.

Modules, one per file:

| file | module | models |
|---|---|---|
| wrappers.dfy | `Wrappers` | `Option`, `Result`, collecting a sequence of results |
| text.dfy | `Text` | trimming, digits and numerals, find/contains, split/join |
| sorting.dfy | `Sorting` | lexicographic order on strings, insertion sort by key, map |
| ordered_map.dfy | `OrderedMap` | the insertion-ordered map (`IndexMap`) of release entries |
| semver.dfy | `SemVer` | versions: parsing `major.minor.patch`, rendering, order |
| calendar.dfy | `Calendar` | proleptic Gregorian dates, `%Y-%m-%d` formatting |
| heading.dfy | `Heading` | the two heading regular expressions, as matchers |
| markdown.dfy | `Markdown` | the top-level nodes of a Markdown tree, with their spans |
| sections.dfy | `Sections` | grouping the top-level nodes into sections |
| changelog.dfy | `Changelogs` | reading and writing a changelog |
| roundtrip.dfy | `ChangelogRoundTrip` | the written changelog's text, and reading it back |
| declarations.dfy | `Declarations` | `generate_release_declarations` |
| prepare_release.dfy | `PrepareRelease` | fixed version, next version, dependency lines, promotion |
| generate_changelog.dfy | `AggregateChangelog` | the project changelog |
| registry.dfy | `Registry` | namespace/name, index path, index parsing, registration |
| matrix.dfy | `BuildpackMatrix` | targets, triples, tags, buildpack type, buildpack info |

Some behaviours of the code are easy to misread, and the model states them
as the code has them:

- **The date in a release heading is the last one on the line.** The
  version pattern puts a greedy `.*` before the date, so the regex engine
  captures the last date on the heading line, not the first. When the patch
  digits could run into the date, the longer patch wins first.
- **Sections with the same heading share their body.** The reader keys the
  body nodes by heading text in a hash map, so repeated headings share one
  list of nodes. Each occurrence's body then runs from the first node of the
  first occurrence to the last node of the last one.
- **Digits of other scripts pass the pattern but not the parsers.** The
  heading pattern's `\d` matches a decimal digit of any script, while the
  integer and version parsers accept ASCII digits only. A heading such as
  `[1.0.0] - ٢٠٢٣-01-01` therefore fails with the year error, and
  `[١.2.3] - 2023-01-01` with a version error.
- **Two error cases cannot arise.** A UTC date is never ambiguous, and
  `get_fixed_version` can never report `NoFixedVersion`. The model keeps
  these constructors and proves they are never produced.
- **Promoting onto an existing version.** The promotion puts the new entry
  first and then re-inserts every earlier entry. If the new version already
  has an entry, that earlier entry's value replaces the new one, in first
  position.
- **`### Changed` merging.** The merge appends the dependency lines to every
  piece of the body that begins with `Changed` after a `### ` split, and
  not only to the first such section.

## Model

| member | source | states |
|---|---|---|
| Wrappers.Collect | src/commands/check_buildpack_registry/command.rs:83-89 | collecting results succeeds exactly when every result succeeds, with the values in order; otherwise it fails with the error of the first failing result, and every result before that one succeeded |
| SemVer.ParseVersion | src/changelog.rs:97-99 | a captured `major.minor.patch`, whose parts may be digits of any script, parses exactly when each number is a canonical ASCII numeral (no leading zero) that fits in 64 bits; the parsed version renders back to the captured text; a failure is the first failing component's error |
| SemVer.NonAsciiDigitsRefused | src/changelog.rs:97-99 | a version part that starts with, or contains, a digit of another script is refused at that character |
| SemVer.ParseToString | src/changelog.rs:114-117 | parsing the rendering of an in-range version gives that version back |
| SemVer.ToStringInjective | src/changelog.rs:114-115 | distinct versions render to distinct keys |
| Calendar.DaysInMonth | src/changelog.rs:109-113 | February has 29 days exactly in leap years and 28 otherwise; April, June, September and November have 30 |
| Calendar.MakeDate | src/changelog.rs:109-113 | a year, month and day give a date exactly when they name a real calendar day |
| Calendar.Format | src/changelog.rs:162 | a date with a year up to 9999 is written as ten characters with dashes at positions 4 and 7; `FormatRoundTrip` reads its digit groups back as the date |
| Calendar.FormatYear | src/changelog.rs:162 | years up to 9999 are written as four zero-padded digits that read back as the year; later years get a `+` sign |
| Calendar.FormatRoundTrip | src/changelog.rs:162 | reading the year, month and day digits of a `%Y-%m-%d` date gives the date back |
| Calendar.FormatInjective | src/changelog.rs:162 | distinct dates are written differently |
| Heading.UnreleasedHeadingMatchesPattern | src/changelog.rs:24-25 | the unreleased matcher accepts exactly `unreleased` up to case, with an optional `[` before it and an optional `]` after it |
| Heading.UnreleasedExamples | src/changelog.rs:24-25 | `[Unreleased]`, `Unreleased` and `UNRELEASED]` match; a dated heading and a doubled bracket do not |
| Heading.MatchVersionHeading | src/changelog.rs:26-28 | what the matcher reports is a match of the pattern: optional bracket, three digit runs with dots, no line break, then a date; `MatchIsFirstByPriority` makes it the first match in backtracking order |
| Heading.MatchIsMatch | src/changelog.rs:26-28 | what the release-heading matcher reports is a match of the pattern: digits, dots, then a date on the same line |
| Heading.MatchIsFirstByPriority | src/changelog.rs:26-28 | whenever the pattern matches, the matcher reports a match; it agrees on the bracket and both dots with every match, and is the first in backtracking order (longest patch, then last date) |
| Heading.EarlierDateNeverCaptured | src/changelog.rs:26-28 | of two dates on the heading line, the earlier is never the captured one |
| Heading.ReleaseHeadingMatches | src/changelog.rs:26-28 | a heading `[major.minor.patch] - year-month-day` built from decimal digits of any script matches, with the bracket, both dots, the end of the version and the date where they were written |
| Heading.ReleaseHeadingCaptured | src/changelog.rs:26-28 | the groups captured from such a heading are exactly the three numbers and the three date parts it was built from |
| Heading.VersionTextParts | src/changelog.rs:96-99 | the captured version text is the three captured numbers joined by dots |
| Sections.Append | src/changelog.rs:50-64 | a node is added to the list of the open section only, and nothing else changes |
| Sections.BodyIndices | src/changelog.rs:38-66 | a node belongs to section `h` exactly when it can be a body node and the last level-1 or level-2 heading before it is a level-2 heading with text `h`; positions stay in document order |
| Sections.ScanAll | src/changelog.rs:38-66 | after the loop, the headers are the level-2 heading texts in document order, and each heading's list holds exactly its section's nodes, in order |
| Sections.ScanBodiesWellFormed | src/changelog.rs:38-66 | every section's node list keeps the document's layout |
| Changelogs.BodyText | src/changelog.rs:75-92 | a section's body is trimmed, and is empty when the section has no nodes |
| Changelogs.ReadVersion | src/changelog.rs:96-99 | reading the captured version succeeds exactly when the captured numbers parse; the version then renders to the captured text |
| Changelogs.ReadDate | src/changelog.rs:100-113 | the year error exactly when the captured year has a non-ASCII digit; the month error exactly when the year is ASCII and the month is not; the day error likewise; the invalid-date error exactly when all are ASCII and do not name a real day; otherwise the date is the year, month and day the captured digits name, whatever the separators, with a four-digit year |
| Changelogs.NonAsciiYearFails | src/changelog.rs:96-102 | the section `[1.0.0] - ٢٠٢٣-01-01` matches the pattern and then fails with the year error |
| Changelogs.NonAsciiVersionFails | src/changelog.rs:96-99 | the section `[١.2.3] - 2023-01-01` matches the pattern and then fails with the version error at its first character |
| Changelogs.ReadRelease | src/changelog.rs:96-121 | the release read from a heading succeeds exactly when both version and date read, and is then the entry of the read version, the read date and the body; its key is the captured text; otherwise the version's error comes before the date's |
| Changelogs.ReadSection | src/changelog.rs:94-122 | an `Unreleased` heading with a non-empty body sets the unreleased changes; a heading matching neither pattern leaves the changelog unchanged; a release heading inserts its entry under the rendering of its version (replacing in place an entry of the same key) or fails with the release's error; a canonical changelog stays canonical and no key is dropped |
| Changelogs.AlternateDateFormat | src/changelog.rs:383-396 | `[1.0.10] 2023/05/10` reads as version 1.0.10 of 10 May 2023 under the key `1.0.10`, the same entry `[1.0.10] - 2023-05-10` gives |
| Changelogs.ReadSections | src/changelog.rs:71-123 | reading the sections in heading order fails only on a version or a date, and gives a canonical changelog |
| Changelogs.ParseChangelog | src/changelog.rs:22-132 | a parser failure and a non-root tree give their errors; any other failure is a version or date error, never the ambiguity error; any changelog read is canonical (trimmed texts, unique keys equal to version renderings, four-digit years) |
| Changelogs.Render | src/changelog.rs:135-170 | the written changelog starts with the preamble and ends with a line break |
| ChangelogRoundTrip.RenderAsParts | src/changelog.rs:135-170 | a canonical changelog is written as the preamble, one `## [name]suffix` section per entry with the unreleased section first, then a line break |
| ChangelogRoundTrip.RenderTrimmedAsParts | src/changelog.rs:135-170 | writing trims every body, so a changelog that is canonical once its bodies are trimmed, and has no body that trimming empties, is written with exactly the layout of its trimmed form |
| ChangelogRoundTrip.CanonicalIsTrimmed | src/changelog.rs:135-170 | a canonical changelog is its own trimmed form, so the trimmed layout extends the canonical one |
| ChangelogRoundTrip.BodyInText | src/changelog.rs:151-166 | each section's non-empty body sits in the written text at the offset just after its heading line and blank line |
| ChangelogRoundTrip.ReleaseSectionRoundTrip | src/changelog.rs:94-122 | the section written for a release entry reads back as that entry, inserted under its version's rendering |
| ChangelogRoundTrip.UnreleasedSectionRoundTrip | src/changelog.rs:94-95 | the `[Unreleased]` section reads back as its changes, or as nothing when it has none |
| ChangelogRoundTrip.ParseRenderRoundTrip | src/changelog.rs:22-170 | reading the written text of a canonical changelog, through any tree laid out in that text's shape, gives the changelog back |
| ChangelogRoundTrip.EmptyChangelogRoundTrip | src/changelog.rs:22-170 | the written text of the empty changelog, with its one `[Unreleased]` heading node, reads back as the empty changelog |
| Declarations.ParticipantsMembers | src/changelog.rs:230-240 | the versions that get links are exactly the releases' versions that the floor admits, in changelog order; without a floor, all of them |
| Declarations.LinksSoFarArePrefix | src/changelog.rs:242-258 | after each version the loop has written the unreleased link and the comparison links of the versions before it |
| Declarations.LinksComplete | src/changelog.rs:242-262 | the loop's links plus the tag link of the oldest version are all the declarations |
| Declarations.ReleaseDeclarations | src/changelog.rs:223-265 | the declarations are, one per line: the unreleased link (comparing the newest version with `HEAD`, or the bare repository), a comparison link per later version, and a tag link for the oldest |
| OrderedMap.Insert | src/changelog.rs:114-121 | inserting a key already present replaces its value in place; a new key goes at the end; other keys keep their values |
| OrderedMap.InsertAllKeys | src/commands/prepare_release/command.rs:360-363 | re-inserting entries into a map keeps its keys and appends the new keys in order |
| OrderedMap.InsertAllGet | src/commands/prepare_release/command.rs:360-363 | after re-inserting entries, each of their keys has the entry's value and every other key is unchanged |
| OrderedMap.InsertAllAfterOne | src/commands/prepare_release/command.rs:360-363 | starting from one entry and inserting a map gives that entry's key first, then the map's other keys in order, with the map's values |
| PrepareRelease.FixedVersion | src/commands/prepare_release/command.rs:228-251 | the fixed version exists exactly when every version reads and all are equal; a read failure is reported with its error; `NoFixedVersion` never occurs |
| PrepareRelease.SingleRendering | src/commands/prepare_release/command.rs:237-244 | the versions render to exactly one text exactly when there is at least one and all are equal |
| PrepareRelease.NextVersion | src/commands/prepare_release/command.rs:253-277 | the next version is greater, and is the least version beyond the current one in the components down to the bumped one |
| PrepareRelease.DependencyLines | src/commands/prepare_release/command.rs:325-333 | one line per updated dependency, sorted, and a permutation of the lines made from the identifiers |
| PrepareRelease.DependencyText | src/commands/prepare_release/command.rs:325-334 | there is dependency text exactly when some dependency was updated |
| PrepareRelease.DependencyTextLines | src/commands/prepare_release/command.rs:325-334 | for identifiers without line breaks, the text's lines are exactly the sorted dependency lines |
| PrepareRelease.DependencyTextOrderFree | src/commands/prepare_release/command.rs:328-333 | the text does not depend on the order the hash set yields the identifiers in |
| PrepareRelease.MergeDependencyChanges | src/commands/prepare_release/command.rs:370-393 | the merged body always contains the dependency lines; with a `### Changed` section (and dependency text free of `### `), cutting it at `### ` gives the original pieces with each piece starting with `Changed` trimmed at its end and followed by the lines, and every other piece unchanged; without one, it is the body trimmed at its end followed by a new `### Changed` section holding the lines |
| PrepareRelease.MergeKeepsDependencies | src/commands/prepare_release/command.rs:374-385 | merging piece by piece a body with a `### Changed` section keeps the dependency lines in it |
| PrepareRelease.MergeSplitsIntoPieces | src/commands/prepare_release/command.rs:374-385 | merging piece by piece keeps the same `### ` sections in the same order, when the dependency text has no `### `: each section starting with `Changed` ends with the dependency lines, and every other section is unchanged |
| PrepareRelease.DependencyTextHasNoMarker | src/commands/prepare_release/command.rs:325-333 | identifiers without `#` give dependency lines with no `### `, so the merge cannot create or split a section |
| PrepareRelease.PromotedBody | src/commands/prepare_release/command.rs:336-346 | with dependencies: `### Changed` plus the lines when nothing was unreleased; the trimmed changes plus a new `### Changed` section when there was no such section; otherwise the section-wise merge. Without dependencies: the unreleased changes, or `- No changes.` |
| PrepareRelease.Promote | src/commands/prepare_release/command.rs:319-368 | after promotion there are no unreleased changes; the new version's key comes first, then the other keys in their order; earlier entries keep their values; for a new version the result is the new entry followed by the old releases |
| PrepareRelease.PromoteWritten | src/commands/prepare_release/command.rs:336-368 | for a canonical changelog and a new in-range version, the promoted changelog has no blank body and is canonical once trimmed, so the text written for it is the section layout of its trimmed form, the new entry first after the empty `Unreleased` section |
| AggregateChangelog.SelectEntry | src/commands/generate_changelog/command.rs:75-92 | for unreleased changes, there are changes exactly when the changelog has some; for a version, it is absent exactly when no release has that key; a present release gives `Empty` exactly when its body is empty, and otherwise `Changes` holding that body |
| AggregateChangelog.Sections | src/commands/generate_changelog/command.rs:115-121 | one section per buildpack that has the version, in order, each `## id` followed by its changes or `- No changes.`; buildpacks without the version are dropped |
| AggregateChangelog.GenerateChangelog | src/commands/generate_changelog/command.rs:109-123 | the project changelog is trimmed text followed by a blank line, and is just the blank line when no buildpack has the version |
| AggregateChangelog.GenerateChangelogSections | src/commands/generate_changelog/command.rs:109-123 | for any arrangement of the buildpacks sorted by id, the project changelog is their sections joined by blank lines, trimmed, followed by a blank line |
| AggregateChangelog.GenerateChangelogOrderFree | src/commands/generate_changelog/command.rs:109-114 | the project changelog does not depend on the order the hash map yields the buildpacks in |
| AggregateChangelog.NotPresentContributesNothing | src/commands/generate_changelog/command.rs:115-119 | a buildpack without the version adds nothing to the project changelog |
| AggregateChangelog.PromotedVersionSelected | src/commands/generate_changelog/command.rs:80-91 | after a release is prepared, there are no unreleased changes, and asking for the new version gives the promoted body (or the entry that already had that version) |
| Registry.NamespaceAndName | src/commands/check_buildpack_registry/command.rs:63-70 | an id splits into namespace and name exactly when it contains `/`; both are free of `/` and are the start of the id; otherwise the error carries the id |
| Registry.NamespaceAndNameOfId | src/commands/check_buildpack_registry/command.rs:63-70 | splitting `namespace/name`, with or without more parts after it, gives the namespace and the name back |
| Registry.ShardDirs | src/commands/check_buildpack_registry/command.rs:74-79 | names of one to three characters go under a directory named by their length (plus the first two characters for length three); longer names go under their first two and next two characters |
| Registry.IndexPath | src/commands/check_buildpack_registry/command.rs:73-81 | the index path is the shard directories followed by `namespace_name` |
| Registry.ParseIndexPath | src/commands/check_buildpack_registry/command.rs:73-81 | reading a path back gives a namespace without `_` and a non-empty name whose index path is that path |
| Registry.IndexPathRoundTrip | src/commands/check_buildpack_registry/command.rs:73-81 | for a namespace without `_`, the index path reads back to the namespace and name |
| Registry.IndexPathInjective | src/commands/check_buildpack_registry/command.rs:73-81 | namespaces without `_` never share an index path |
| Registry.IndexPathShortExamples | src/commands/check_buildpack_registry/command.rs:107-116 | `heroku/z` is at `1/heroku_z` and `heroku/go` at `2/heroku_go` |
| Registry.IndexPathThreeExample | src/commands/check_buildpack_registry/command.rs:117-123 | `heroku/php` is at `3/ph/heroku_php` |
| Registry.IndexPathLongExample | src/commands/check_buildpack_registry/command.rs:125-131 | `heroku/scala` is at `sc/al/heroku_scala` |
| Registry.KeepNonBlankMembers | src/commands/check_buildpack_registry/command.rs:84-86 | the kept lines are exactly the lines that are not blank |
| Registry.ParseRegistryIndex | src/commands/check_buildpack_registry/command.rs:83-89 | parsing the index succeeds exactly when every non-blank line decodes, giving the entries in line order; otherwise it fails with the first failing line's error |
| Registry.EntryLinesOfLines | src/commands/check_buildpack_registry/command.rs:84-86 | the lines of text joined by line breaks are read back as the lines, minus the blank ones |
| Registry.BlankLineIgnored | src/commands/check_buildpack_registry/command.rs:83-89 | a blank line anywhere in the index changes nothing in what is parsed |
| Registry.AnyHasVersion | src/commands/check_buildpack_registry/command.rs:50-52 | true exactly when some entry has the version |
| Registry.IsRegistered | src/commands/check_buildpack_registry/command.rs:45-55 | without an index file the buildpack is not registered; with one, it is registered exactly when every line decodes and some entry has the version's text; a failure is some line's decoding error |
| Registry.RegisteredIgnoresYanked | src/commands/check_buildpack_registry/command.rs:50-52 | whether entries are yanked makes no difference to being registered |
| BuildpackMatrix.ReadBuildpackTargets | src/commands/generate_buildpack_matrix/command.rs:190-206 | the declared targets (for a composite, the ones in its metadata), or the single `linux`/`amd64` target when none are declared |
| BuildpackMatrix.TargetName | src/commands/generate_buildpack_matrix/command.rs:224-231 | `os-arch`, or `os` without an architecture; without an os, `universal-arch`, or `universal` when there is no architecture either |
| BuildpackMatrix.TargetNameRoundTrip | src/commands/generate_buildpack_matrix/command.rs:224-231 | when the os has no `-` and is not `universal`, the name reads back as the os and architecture |
| BuildpackMatrix.TargetNameCollisions | src/commands/generate_buildpack_matrix/command.rs:224-231 | the os `universal` and a missing os get the same name, and so do os `linux-musl` and `linux`/`musl` |
| BuildpackMatrix.RustTriple | src/commands/generate_buildpack_matrix/command.rs:233-239 | there is a Rust triple exactly for `linux` on `amd64` or `arm64`; otherwise the error names the target |
| BuildpackMatrix.RustTripleNamesPlatform | src/commands/generate_buildpack_matrix/command.rs:233-239 | a triple names the target's os and architecture |
| BuildpackMatrix.RustTripleInjective | src/commands/generate_buildpack_matrix/command.rs:233-239 | two targets with the same triple have the same os and architecture |
| BuildpackMatrix.DefaultTargetNamed | src/commands/generate_buildpack_matrix/command.rs:197-204 | the default target is named `linux-amd64` and builds for `x86_64-unknown-linux-musl` |
| BuildpackMatrix.GenerateTag | src/commands/generate_buildpack_matrix/command.rs:208-213 | a tag is `repo:tag`, followed by `_suffix` exactly when there is a suffix |
| BuildpackMatrix.GenerateTagSuffixInjective | src/commands/generate_buildpack_matrix/command.rs:208-213 | different suffixes give different tags |
| BuildpackMatrix.TemporaryTag | src/commands/generate_buildpack_matrix/command.rs:173-177 | a temporary tag has `_` right after `repo:` |
| BuildpackMatrix.StableTag | src/commands/generate_buildpack_matrix/command.rs:172 | a stable tag has a digit right after `repo:` |
| BuildpackMatrix.TemporaryTagIsNotStable | src/commands/generate_buildpack_matrix/command.rs:172-182 | a temporary tag never equals a stable tag |
| BuildpackMatrix.BuildpackTypeOf | src/commands/generate_buildpack_matrix/command.rs:263-283 | composite exactly for a composite descriptor with neither `Cargo.toml` nor `bin` files; libcnb exactly for a component with only `Cargo.toml`; bash exactly for a component with only `bin` files; unknown for a component with neither; otherwise several types |
| BuildpackMatrix.TypedIffOneMarker | src/commands/generate_buildpack_matrix/command.rs:263-283 | a component has a type exactly when it has one marker; a composite exactly when it has none |
| BuildpackMatrix.TargetOutputDir | src/commands/generate_buildpack_matrix/command.rs:246-261 | bash buildpacks use the target name as the directory; the others need a Rust triple, which names the target's platform, and fail with the target otherwise |
| BuildpackMatrix.Suffix | src/commands/generate_buildpack_matrix/command.rs:156-160 | targets get a suffix exactly when there is more than one, and the suffix is the target's name |
| BuildpackMatrix.ReadTargetInfo | src/commands/generate_buildpack_matrix/command.rs:155-179 | a target's entry exists exactly when it has an output directory, and otherwise the error names the target; the entry carries the target's os, architecture, Rust triple when there is one, suffix, stable and temporary tags, and output directory |
| BuildpackMatrix.ReadTargetInfos | src/commands/generate_buildpack_matrix/command.rs:153-180 | the target information succeeds exactly when every target has an output directory; one entry per target, in order; otherwise the first failing target's error |
| BuildpackMatrix.ReadBuildpackInfo | src/commands/generate_buildpack_matrix/command.rs:136-185 | a missing image repository fails first, naming the directory's `buildpack.toml`; then the buildpack type; then the first target without an output directory, with that target's unknown-triple error; on success the info carries the buildpack's id, directory, type, version and tags, and each target its os, architecture, Rust triple, output directory, suffix and tags |
| BuildpackMatrix.DistinctTargetsDistinctTags | src/commands/generate_buildpack_matrix/command.rs:156-177 | targets with different names get different stable and temporary tags |
| BuildpackMatrix.UndeclaredTargetsUseDefault | src/commands/generate_buildpack_matrix/command.rs:190-206 | a buildpack without declared targets is built for `linux`/`amd64` only, for the x86-64 Linux triple; its one target has no suffix, and its stable and temporary tags equal the buildpack's own |

## Left out

- The Markdown parser is a library. The tree it makes of a changelog is an input (`Markdown.Tree`, or the parser's error message). Node spans count characters where the parser counts UTF-8 bytes; the two agree on ASCII text.
- Unicode: `\d` follows the Unicode 15.0 table of decimal digits, so digit blocks added in later versions are missing; trimming uses a fixed set of whitespace characters, and case folding covers ASCII letters plus the long s.
- Release dates carry no time of day and no time zone. The new release's date is an input in place of the clock.
- The floor version of the declarations is compared on `major.minor.patch` only; pre-release and build metadata are not modelled.
- PrepareRelease.NextVersion: does not model 64-bit overflow of the bumped component.
- Reading and writing `buildpack.toml` and `CHANGELOG.md` (TOML editing of versions and dependency versions) is file and format I/O and is not modelled.
- The `execute` drivers of the four commands are not modelled: they read files, call the helpers modelled here, and write GitHub Actions outputs.
- The set of Rust triples that `generate_buildpack_matrix` reports across all buildpacks is not modelled.
- `cnb_file` and the libcnb packaged-directory resolver are libraries; the output directory is modelled as its inputs (`BuildpackMatrix.PackagedDir`).
- `read_metadata_targets` decodes TOML metadata; its result is an input of a composite descriptor.
- JSON decoding of registry entries is a library: it is an input function from a line to an entry or an error.
- Registry.IndexPath: requires a non-empty name. For an id with an empty name, such as `heroku/`, the tool takes `&name[0..2]` of an empty string and panics; the model has no value for that case. Name lengths count characters where the tool counts bytes; the two agree on ASCII names.
- The registry check takes the version already parsed; parsing the command-line version and reading the index file are I/O.
- ChangelogRoundTrip.ParseRenderRoundTrip: the Markdown tree is an input, so the theorem assumes its shape: preamble nodes that open no section, then per section a level-2 heading whose text is the bracketed heading line, followed by nodes spanning exactly the body and holding no level-1 or level-2 heading and no link definition. A body that itself contains such a heading is not covered.
- AggregateChangelog.GenerateChangelog: its own contract states the shape of the text; its contents, the sections in ascending order of id, are stated by `GenerateChangelogSections`.

=== FILE: calendar.dfy ===
/** Calendar dates of release entries: the proleptic Gregorian calendar that
    `chrono` uses, and the `%Y-%m-%d` rendering of a date. */
module Calendar {
  import opened Wrappers
  import opened Text

  /** A day of the proleptic Gregorian calendar (years before the common
      era are not needed: every year here comes from a clock or from four
      decimal digits). */
  datatype Date = Date(year: nat, month: nat, day: nat)

  predicate IsLeapYear(y: nat) {
    y % 4 == 0 && (y % 100 != 0 || y % 400 == 0)
  }

  function DaysInMonth(y: nat, m: nat): (r: nat)
    requires 1 <= m <= 12
    ensures 28 <= r <= 31
    ensures r == 29 <==> m == 2 && IsLeapYear(y)
    ensures r == 28 <==> m == 2 && !IsLeapYear(y)
    ensures r == 30 <==> m in {4, 6, 9, 11}
  {
    if m == 2 then (if IsLeapYear(y) then 29 else 28)
    else if m in {4, 6, 9, 11} then 30
    else 31
  }

  predicate IsValid(d: Date) {
    1 <= d.month <= 12 && 1 <= d.day <= DaysInMonth(d.year, d.month)
  }

  /** A date that exists, as every `chrono` date value does. */
  type ValidDate = d: Date | IsValid(d) witness Date(1970, 1, 1)

  /** The date at midnight UTC for the given numbers, when such a day exists.
      UTC has no gaps and no repeated hours, so there is at most one. */
  function MakeDate(y: nat, m: nat, d: nat): (r: Option<ValidDate>)
    ensures r.Some? <==> IsValid(Date(y, m, d))
    ensures r.Some? ==> r.value == Date(y, m, d)
  {
    var date := Date(y, m, d);
    if IsValid(date) then Some(date) else None
  }

  /** `%Y`: the year zero-padded to four digits, with an explicit sign once it
      needs more than four. */
  function FormatYear(y: nat): (r: string)
    ensures y <= 9999 ==> |r| == 4 && AllDigits(r) && DigitsValue(r) == y
    ensures y > 9999 ==> r == "+" + NatToString(y)
  {
    if y <= 9999 then
      assert Pow10(4) == 10000;
      NatToStringLength(y, 4);
      PadZeros(y, 4)
    else "+" + NatToString(y)
  }

  /** `%Y-%m-%d`. */
  function Format(d: ValidDate): (r: string)
    ensures d.year <= 9999 ==> |r| == 10 && r[4] == '-' && r[7] == '-'
  {
    assert Pow10(2) == 100;
    NatToStringLength(d.month, 2);
    NatToStringLength(d.day, 2);
    FormatYear(d.year) + "-" + PadZeros(d.month, 2) + "-" + PadZeros(d.day, 2)
  }

  /** Reading back the three digit groups of a rendered date gives the date. */
  lemma FormatRoundTrip(d: ValidDate)
    requires d.year <= 9999
    ensures var s := Format(d);
      && AllDigits(s[..4]) && AllDigits(s[5..7]) && AllDigits(s[8..])
      && MakeDate(DigitsValue(s[..4]), DigitsValue(s[5..7]), DigitsValue(s[8..])) == Some(d)
  {
    var s := Format(d);
    var y, m, dd := FormatYear(d.year), PadZeros(d.month, 2), PadZeros(d.day, 2);
    assert s == y + "-" + m + "-" + dd;
    assert s[..4] == y;
    assert s[5..7] == m;
    assert s[8..] == dd;
  }

  /** Distinct valid dates render differently. */
  lemma FormatInjective(a: ValidDate, b: ValidDate)
    requires a.year <= 9999 && b.year <= 9999
    requires Format(a) == Format(b)
    ensures a == b
  {
    FormatRoundTrip(a);
    FormatRoundTrip(b);
  }
}

=== FILE: changelog.dfy ===
/** A changelog in the Keep a Changelog 1.0.0 format: reading one from a
    Markdown tree, and writing one back as text. */
module Changelogs {
  import opened Wrappers
  import opened Text
  import opened SemVer
  import opened Calendar
  import opened Markdown
  import opened Sections
  import opened Heading
  import OrderedMap

  datatype ReleaseEntry = ReleaseEntry(version: Version, date: ValidDate, body: string)

  /** Release entries keyed by the rendering of their version, in order. */
  type Releases = seq<(string, ReleaseEntry)>

  datatype Changelog = Changelog(unreleased: Option<string>, releases: Releases)

  datatype ChangelogError =
    | NoRootNode
    | Parse(message: string)
    | ParseVersion(error: VersionError)
    | ParseReleaseEntryYear
    | ParseReleaseEntryMonth
    | ParseReleaseEntryDay
    | InvalidReleaseDate
    | AmbiguousReleaseDate

  const I32Max: nat := 2147483647
  const U32Max: nat := 4294967295

  /** The shape of every changelog that reading produces: unreleased changes
      present only when non-empty, keys unique and equal to the rendering of
      their version, versions within 64 bits, years of four digits, and no
      whitespace around any text. */
  predicate Canonical(c: Changelog) {
    && (c.unreleased.Some? ==> c.unreleased.value != "" && IsTrimmed(c.unreleased.value))
    && OrderedMap.UniqueKeys(c.releases)
    && forall i :: 0 <= i < |c.releases| ==> CanonicalEntry(c.releases[i].0, c.releases[i].1)
  }

  predicate CanonicalEntry(key: string, e: ReleaseEntry) {
    key == SemVer.ToString(e.version) && InRange(e.version) && e.date.year <= 9999 && IsTrimmed(e.body)
  }

  // ------------------------------------------------------------------ reading

  /** The errors reading a release heading can give. */
  predicate IsReleaseError(e: ChangelogError) {
    || e.ParseVersion? || e.ParseReleaseEntryYear? || e.ParseReleaseEntryMonth?
    || e.ParseReleaseEntryDay? || e.InvalidReleaseDate?
  }

  /** `str::parse` into an integer type whose maximum is `max`, for a text
      without a sign: it needs at least one character, and only ASCII
      digits, whatever other digits the heading pattern let through. */
  function ParseUnsigned(digits: string, max: nat): Option<nat>
  {
    if |digits| >= 1 && AllDigits(digits) && DigitsValue(digits) <= max then Some(DigitsValue(digits)) else None
  }

  /** The text of a section: from the start of its first node to the end of
      its last, trimmed; nothing when it has no nodes. */
  function BodyText(value: string, nodes: seq<Node>): (r: string)
    requires WellFormed(nodes, |value|)
    ensures IsTrimmed(r)
    ensures nodes == [] ==> r == ""
  {
    if nodes == [] then ""
    else
      var first, last := nodes[0], nodes[|nodes| - 1];
      assert first.span.start <= last.span.end <= |value| by {
        if |nodes| > 1 {
          assert first.span.end <= last.span.start;
        }
      }
      Trim(value[first.span.start..last.span.end])
  }

  /** The version captured by a release heading, parsed. */
  function ReadVersion(h: string, m: VersionMatch): (r: Result<Version, ChangelogError>)
    requires MatchVersionHeading(h) == Some(m)
    ensures r.Success? <==> SemVer.ParseVersion(MajorDigits(h, m), MinorDigits(h, m), PatchDigits(h, m)).Success?
    ensures r.Failure? ==> r.error == ParseVersion(SemVer.ParseVersion(MajorDigits(h, m), MinorDigits(h, m), PatchDigits(h, m)).error)
    ensures r.Success? ==> SemVer.ToString(r.value) == VersionText(h, m) && InRange(r.value)
  {
    match SemVer.ParseVersion(MajorDigits(h, m), MinorDigits(h, m), PatchDigits(h, m))
    case Failure(e) => Failure(ChangelogError.ParseVersion(e))
    case Success(version) =>
      VersionTextParts(h, m);
      Success(version)
  }

  /** The date captured by a release heading, at midnight UTC. The year,
      month and day are parsed in that order, and each parse fails exactly
      when its capture holds a digit outside ASCII: a capture of ASCII digits
      has at most four of them and fits the integer type. Then the calendar
      can reject the date; a date in UTC is never ambiguous. */
  function ReadDate(h: string, m: VersionMatch): (r: Result<ValidDate, ChangelogError>)
    requires MatchVersionHeading(h) == Some(m)
    ensures var year, month, day := YearDigits(h, m), MonthDigits(h, m), DayDigits(h, m);
      && (r == Failure(ParseReleaseEntryYear) <==> !AllDigits(year))
      && (r == Failure(ParseReleaseEntryMonth) <==> AllDigits(year) && !AllDigits(month))
      && (r == Failure(ParseReleaseEntryDay) <==> AllDigits(year) && AllDigits(month) && !AllDigits(day))
      && (r == Failure(InvalidReleaseDate) <==>
            AllDigits(year) && AllDigits(month) && AllDigits(day)
            && !IsValid(Date(DigitsValue(year), DigitsValue(month), DigitsValue(day))))
    ensures r.Failure? ==> r.error.ParseReleaseEntryYear? || r.error.ParseReleaseEntryMonth?
                           || r.error.ParseReleaseEntryDay? || r.error.InvalidReleaseDate?
    ensures r.Success? ==> r.value.year <= 9999
    ensures r.Success? ==>
      r.value == Date(DigitsValue(YearDigits(h, m)), DigitsValue(MonthDigits(h, m)), DigitsValue(DayDigits(h, m)))
  {
    var year, month, day := YearDigits(h, m), MonthDigits(h, m), DayDigits(h, m);
    CaptureBound(year);
    CaptureBound(month);
    CaptureBound(day);
    assert Pow10(4) == 10000 && Pow10(2) == 100;
    match (ParseUnsigned(year, I32Max), ParseUnsigned(month, U32Max), ParseUnsigned(day, U32Max))
    case (None, _, _) => Failure(ParseReleaseEntryYear)
    case (_, None, _) => Failure(ParseReleaseEntryMonth)
    case (_, _, None) => Failure(ParseReleaseEntryDay)
    case (Some(y), Some(mo), Some(d)) =>
      match MakeDate(y, mo, d)
      case None => Failure(InvalidReleaseDate)
      case Some(date) => Success(date)
  }

  /** A capture of ASCII digits is below the power of ten of its length. */
  lemma CaptureBound(s: string)
    ensures AllDigits(s) ==> DigitsValue(s) < Pow10(|s|)
  {
    if AllDigits(s) {
      DigitsValueBound(s);
    }
  }

  /** The release entry a matched release heading describes: the version is
      parsed first, then the date. */
  function ReadRelease(h: string, m: VersionMatch, body: string): (r: Result<ReleaseEntry, ChangelogError>)
    requires MatchVersionHeading(h) == Some(m)
    ensures r.Failure? ==> IsReleaseError(r.error)
    ensures r.Success? <==> ReadVersion(h, m).Success? && ReadDate(h, m).Success?
    ensures r.Failure? ==> r.error == if ReadVersion(h, m).Failure? then ReadVersion(h, m).error else ReadDate(h, m).error
    ensures r.Success? ==> r.value == ReleaseEntry(ReadVersion(h, m).value, ReadDate(h, m).value, body)
    ensures r.Success? ==> SemVer.ToString(r.value.version) == VersionText(h, m)
    ensures r.Success? && IsTrimmed(body) ==> CanonicalEntry(VersionText(h, m), r.value)
  {
    var version :- ReadVersion(h, m);
    var date :- ReadDate(h, m);
    Success(ReleaseEntry(version, date, body))
  }

  /** One section of the document, in the order the headings appear: a
      non-empty `Unreleased` section becomes the unreleased changes; a
      release heading adds or replaces the entry keyed by its version;
      anything else is skipped. */
  function ReadSection(acc: Changelog, h: string, body: string): (r: Result<Changelog, ChangelogError>)
    ensures r.Failure? ==> IsReleaseError(r.error)
    ensures Canonical(acc) && IsTrimmed(body) && r.Success? ==> Canonical(r.value)
    ensures r.Success? ==> forall k :: k in OrderedMap.Keys(acc.releases) ==> k in OrderedMap.Keys(r.value.releases)
    ensures IsUnreleasedHeading(h) && body != "" ==> r == Success(acc.(unreleased := Some(body)))
    ensures !(IsUnreleasedHeading(h) && body != "") && MatchVersionHeading(h).None? ==> r == Success(acc)
    ensures !(IsUnreleasedHeading(h) && body != "") && MatchVersionHeading(h).Some? ==>
      var entry := ReadRelease(h, MatchVersionHeading(h).value, body);
      r == if entry.Failure? then Failure(entry.error)
           else Success(acc.(releases := OrderedMap.Insert(acc.releases, SemVer.ToString(entry.value.version), entry.value)))
  {
    if IsUnreleasedHeading(h) && body != "" then Success(acc.(unreleased := Some(body)))
    else
      match MatchVersionHeading(h)
      case None => Success(acc)
      case Some(m) =>
        match ReadRelease(h, m, body)
        case Failure(e) => Failure(e)
        case Success(entry) =>
          var key := SemVer.ToString(entry.version);
          InsertCanonical(acc, key, entry);
          Success(acc.(releases := OrderedMap.Insert(acc.releases, key, entry)))
  }

  /** A year written in Arabic-Indic digits passes the heading pattern, and
      then reading fails on the year. */
  lemma NonAsciiYearFails(acc: Changelog)
    ensures ReadSection(acc, "[1.0.0] - ٢٠٢٣-01-01", "") == Failure(ParseReleaseEntryYear)
  {
    NonAsciiYearRelease();
  }

  lemma NonAsciiYearRelease()
    ensures var h := "[1.0.0] - ٢٠٢٣-01-01"; var m := VersionMatch(1, 2, 4, 6, 10);
      MatchVersionHeading(h) == Some(m) && ReadRelease(h, m, "") == Failure(ParseReleaseEntryYear)
  {
    var h := "[1.0.0] - ٢٠٢٣-01-01";
    var m := VersionMatch(1, 2, 4, 6, 10);
    NonAsciiYearMatches();
    BracketedHeadingMatch(h, 2, 4, 6);
    NonAsciiYearVersion(h, m);
    NonAsciiYearDateFails(h, m);
  }

  lemma NonAsciiYearVersion(h: string, m: VersionMatch)
    requires h == "[1.0.0] - ٢٠٢٣-01-01" && MatchVersionHeading(h) == Some(m) && m == VersionMatch(1, 2, 4, 6, 10)
    ensures ReadVersion(h, m).Success?
  {
    assert MajorDigits(h, m) == "1" && MinorDigits(h, m) == "0" && PatchDigits(h, m) == "0";
    assert SemVer.ParseVersion("1", "0", "0").Success?;
  }

  lemma NonAsciiYearDateFails(h: string, m: VersionMatch)
    requires h == "[1.0.0] - ٢٠٢٣-01-01" && MatchVersionHeading(h) == Some(m) && m == VersionMatch(1, 2, 4, 6, 10)
    ensures ReadDate(h, m) == Failure(ParseReleaseEntryYear)
  {
    assert YearDigits(h, m)[0] == h[10];
    assert !IsDigit(h[10]);
  }

  lemma NonAsciiYearMatches()
    ensures IsMatch("[1.0.0] - ٢٠٢٣-01-01", 1, 2, 4, 6, 10)
  {
    var h := "[1.0.0] - ٢٠٢٣-01-01";
    NonAsciiYearDate();
    assert DigitsIn(h, 1, 2) && DigitsIn(h, 3, 4) && DigitsIn(h, 5, 6);
    assert NoNewlineIn(h, 6, 10);
  }

  lemma NonAsciiYearDate()
    ensures DateAt("[1.0.0] - ٢٠٢٣-01-01", 10)
  {
    var h := "[1.0.0] - ٢٠٢٣-01-01";
    assert DigitsIn(h, 10, 14) by {
      forall k | 10 <= k < 14 ensures IsDecimalDigit(h[k]) {
        assert 0x660 <= h[k] as int <= 0x669;
      }
    }
    assert DigitsIn(h, 15, 17) && DigitsIn(h, 18, 20);
  }

  /** A major version written in Arabic-Indic digits passes the heading
      pattern, and then the version parser refuses its first character. */
  lemma NonAsciiVersionFails(acc: Changelog)
    ensures ReadSection(acc, "[١.2.3] - 2023-01-01", "")
         == Failure(ChangelogError.ParseVersion(UnexpectedChar(Major, '١')))
  {
    NonAsciiVersionRelease();
  }

  lemma NonAsciiVersionRelease()
    ensures var h := "[١.2.3] - 2023-01-01"; var m := VersionMatch(1, 2, 4, 6, 10);
      && MatchVersionHeading(h) == Some(m)
      && ReadRelease(h, m, "") == Failure(ChangelogError.ParseVersion(UnexpectedChar(Major, '١')))
  {
    var h := "[١.2.3] - 2023-01-01";
    var m := VersionMatch(1, 2, 4, 6, 10);
    NonAsciiVersionMatches();
    BracketedHeadingMatch(h, 2, 4, 6);
    NonAsciiVersionRefused(h, m);
  }

  lemma NonAsciiVersionRefused(h: string, m: VersionMatch)
    requires h == "[١.2.3] - 2023-01-01" && MatchVersionHeading(h) == Some(m) && m == VersionMatch(1, 2, 4, 6, 10)
    ensures ReadVersion(h, m) == Failure(ChangelogError.ParseVersion(UnexpectedChar(Major, '١')))
  {
    assert MajorDigits(h, m) == "١" && MinorDigits(h, m) == "2" && PatchDigits(h, m) == "3";
    assert IsDecimalDigit('١');
    assert AsciiDigitRun("١", 0) == 0;
  }

  lemma NonAsciiVersionMatches()
    ensures IsMatch("[١.2.3] - 2023-01-01", 1, 2, 4, 6, 10)
  {
    var h := "[١.2.3] - 2023-01-01";
    NonAsciiVersionDate();
    assert DigitsIn(h, 1, 2) by {
      assert 0x660 <= h[1] as int <= 0x669;
    }
    assert DigitsIn(h, 3, 4) && DigitsIn(h, 5, 6);
    assert NoNewlineIn(h, 6, 10);
  }

  lemma NonAsciiVersionDate()
    ensures DateAt("[١.2.3] - 2023-01-01", 10)
  {
    var h := "[١.2.3] - 2023-01-01";
    assert DigitsIn(h, 10, 14) && DigitsIn(h, 15, 17) && DigitsIn(h, 18, 20);
  }

  /** A release heading with slashes and no dash, `[1.0.10] 2023/05/10`,
      reads as version 1.0.10 of 10 May 2023, the same entry as the heading
      `[1.0.10] - 2023-05-10` gives. */
  lemma AlternateDateFormat(acc: Changelog, body: string)
    ensures var entry := ReleaseEntry(Version(1, 0, 10), Date(2023, 5, 10), body);
      && ReadSection(acc, "[1.0.10] 2023/05/10", body)
         == Success(acc.(releases := OrderedMap.Insert(acc.releases, "1.0.10", entry)))
      && ReadSection(acc, "[1.0.10] - 2023-05-10", body) == ReadSection(acc, "[1.0.10] 2023/05/10", body)
  {
    var entry := ReleaseEntry(Version(1, 0, 10), Date(2023, 5, 10), body);
    var slashed, dashed := "[1.0.10] 2023/05/10", "[1.0.10] - 2023-05-10";
    SlashedShape(slashed);
    DashedShape(dashed);
    ReleaseCaptured(slashed, 9, body, entry);
    ReleaseCaptured(dashed, 11, body, entry);
    VersionOneZeroTen();
  }

  lemma SlashedShape(h: string)
    requires h == "[1.0.10] 2023/05/10"
    ensures IsMatch(h, 1, 2, 4, 7, 9) && |h| == 19 && !IsDecimalDigit(h[7])
    ensures h[..8] == "[1.0.10]" && h[9..] == "2023/05/10" && !IsUnreleasedHeading(h)
  {
    SlashedMatches(h);
  }

  lemma SlashedMatches(h: string)
    requires h == "[1.0.10] 2023/05/10"
    ensures IsMatch(h, 1, 2, 4, 7, 9)
  {
    assert DigitsIn(h, 1, 2) && DigitsIn(h, 3, 4) && DigitsIn(h, 5, 7) && NoNewlineIn(h, 7, 9);
    SlashedDate(h);
  }

  lemma SlashedDate(h: string)
    requires h == "[1.0.10] 2023/05/10"
    ensures DateAt(h, 9)
  {
    assert DigitsIn(h, 9, 13) && DigitsIn(h, 14, 16) && DigitsIn(h, 17, 19);
  }

  lemma DashedShape(h: string)
    requires h == "[1.0.10] - 2023-05-10"
    ensures IsMatch(h, 1, 2, 4, 7, 11) && |h| == 21 && !IsDecimalDigit(h[7])
    ensures h[..8] == "[1.0.10]" && h[11..] == "2023-05-10" && !IsUnreleasedHeading(h)
  {
    DashedMatches(h);
  }

  lemma DashedMatches(h: string)
    requires h == "[1.0.10] - 2023-05-10"
    ensures IsMatch(h, 1, 2, 4, 7, 11)
  {
    assert DigitsIn(h, 1, 2) && DigitsIn(h, 3, 4) && DigitsIn(h, 5, 7) && NoNewlineIn(h, 7, 11);
    DashedDate(h);
  }

  lemma DashedDate(h: string)
    requires h == "[1.0.10] - 2023-05-10"
    ensures DateAt(h, 11)
  {
    assert DigitsIn(h, 11, 15) && DigitsIn(h, 16, 18) && DigitsIn(h, 19, 21);
  }

  /** A heading `[1.0.10]`, then anything, then a date of 10 May 2023 at its
      end, is read as that release. */
  lemma ReleaseCaptured(h: string, q: nat, body: string, entry: ReleaseEntry)
    requires IsMatch(h, 1, 2, 4, 7, q) && q + 10 == |h| && !IsDecimalDigit(h[7])
    requires h[..8] == "[1.0.10]" && (h[q..] == "2023/05/10" || h[q..] == "2023-05-10")
    requires entry == ReleaseEntry(Version(1, 0, 10), Date(2023, 5, 10), body)
    ensures MatchVersionHeading(h) == Some(VersionMatch(1, 2, 4, 7, q))
    ensures ReadRelease(h, VersionMatch(1, 2, 4, 7, q), body) == Success(entry)
  {
    var m := VersionMatch(1, 2, 4, 7, q);
    PinnedHeadingMatch(h, 1, 2, 4, 7, q);
    VersionCaptures(h, m, h[..8]);
    DateCaptures(h, m, h[q..]);
    VersionOneZeroTen();
    DateDigits();
  }

  lemma VersionCaptures(h: string, m: VersionMatch, v: string)
    requires MatchVersionHeading(h) == Some(m) && m.s == 1 && m.d1 == 2 && m.d2 == 4 && m.e == 7
    requires v == h[..8] && v == "[1.0.10]"
    ensures MajorDigits(h, m) == "1" && MinorDigits(h, m) == "0" && PatchDigits(h, m) == "10"
  {
    assert MajorDigits(h, m) == v[1..2];
    assert MinorDigits(h, m) == v[3..4];
    assert PatchDigits(h, m) == v[5..7];
  }

  lemma DateCaptures(h: string, m: VersionMatch, d: string)
    requires MatchVersionHeading(h) == Some(m) && m.q + 10 == |h| && d == h[m.q..]
    requires d == "2023/05/10" || d == "2023-05-10"
    ensures YearDigits(h, m) == "2023" && MonthDigits(h, m) == "05" && DayDigits(h, m) == "10"
  {
    assert YearDigits(h, m) == d[..4];
    assert MonthDigits(h, m) == d[5..7];
    assert DayDigits(h, m) == d[8..];
  }

  lemma VersionOneZeroTen()
    ensures SemVer.ParseVersion("1", "0", "10") == Success(Version(1, 0, 10))
    ensures SemVer.ToString(Version(1, 0, 10)) == "1.0.10"
  {
    assert DigitsValue("10") == 10 by {
      assert "10"[..1] == "1";
    }
    assert AllDigits("10");
  }

  lemma DateDigits()
    ensures DigitsValue("2023") == 2023 && DigitsValue("05") == 5 && DigitsValue("10") == 10
    ensures IsValid(Date(2023, 5, 10))
  {
    assert "2023"[..3] == "202" && "202"[..2] == "20" && "20"[..1] == "2";
    assert "05"[..1] == "0" && "10"[..1] == "1";
  }

  /** Adding or replacing a canonical entry keeps a changelog canonical. */
  lemma InsertCanonical(acc: Changelog, key: string, entry: ReleaseEntry)
    ensures Canonical(acc) && CanonicalEntry(key, entry) ==> Canonical(acc.(releases := OrderedMap.Insert(acc.releases, key, entry)))
  {
    var releases := OrderedMap.Insert(acc.releases, key, entry);
    if Canonical(acc) && CanonicalEntry(key, entry) {
      forall i | 0 <= i < |releases| ensures CanonicalEntry(releases[i].0, releases[i].1) {
        if releases[i] != (key, entry) {
          var j :| 0 <= j < |acc.releases| && acc.releases[j] == releases[i];
          assert CanonicalEntry(acc.releases[j].0, acc.releases[j].1);
        }
      }
    }
  }

  /** All sections, in heading order; the first failure ends the reading. */
  function ReadSections(value: string, st: ScanState, hs: seq<string>, acc: Changelog): (r: Result<Changelog, ChangelogError>)
    requires forall h :: WellFormed(BodyOf(st, h), |value|)
    ensures r.Failure? ==> IsReleaseError(r.error)
    ensures Canonical(acc) && r.Success? ==> Canonical(r.value)
    decreases |hs|
  {
    if hs == [] then Success(acc)
    else
      match ReadSection(acc, hs[0], BodyText(value, BodyOf(st, hs[0])))
      case Failure(e) => Failure(e)
      case Success(acc') => ReadSections(value, st, hs[1..], acc')
  }

  /** `Changelog::try_from`: read the changelog from its text and the tree
      the Markdown parser made of it (or the parser's error message). */
  function ParseChangelog(value: string, tree: Result<Tree, string>): (r: Result<Changelog, ChangelogError>)
    requires tree.Success? && tree.value.Root? ==> WellFormed(tree.value.children, |value|)
    ensures tree.Failure? ==> r == Failure(ChangelogError.Parse(tree.error))
    ensures tree == Success(NotRoot) ==> r == Failure(NoRootNode)
    ensures r.Success? ==> Canonical(r.value)
    ensures tree.Success? && tree.value.Root? && r.Failure? ==> IsReleaseError(r.error)
    ensures r.Failure? ==> !r.error.AmbiguousReleaseDate?
  {
    match tree
    case Failure(message) => Failure(ChangelogError.Parse(message))
    case Success(NotRoot) => Failure(NoRootNode)
    case Success(Root(ns)) =>
      var st := Scan(ns);
      ScanBodiesWellFormed(ns, |value|);
      ReadSections(value, st, st.headers, Changelog(None, []))
  }

  // ------------------------------------------------------------------ writing

  const Preamble: string :=
    "# Changelog\n\nAll notable changes to this project will be documented in this file.\n\n"
    + "The format is based on [Keep a Changelog](https://keepachangelog.com/en/1.0.0/),\n"
    + "and this project adheres to [Semantic Versioning](https://semver.org/spec/v2.0.0.html)."

  /** A section heading after `## `: a name in brackets, then the rest. */
  function HeadingLine(name: string, suffix: string): string {
    "[" + name + "]" + suffix
  }

  /** The heading of a release entry: `[version] - date`. */
  function ReleaseHeading(e: ReleaseEntry): string {
    HeadingLine(SemVer.ToString(e.version), " - " + Format(e.date))
  }

  /** The `Unreleased` section: its heading, then the trimmed changes when
      there are any (even if trimming leaves nothing). */
  function UnreleasedPart(u: Option<string>): string {
    match u
    case Some(text) => "\n\n## " + HeadingLine("Unreleased", "") + "\n\n" + Trim(text)
    case None => "\n\n## " + HeadingLine("Unreleased", "")
  }

  /** A release section: its heading, then the trimmed body unless the body
      is empty. */
  function ReleasePart(e: ReleaseEntry): string {
    "\n\n## " + ReleaseHeading(e) + (if e.body == "" then "" else "\n\n" + Trim(e.body))
  }

  function ReleasesPart(rs: Releases): string {
    Concat(seq(|rs|, i requires 0 <= i < |rs| => ReleasePart(rs[i].1)))
  }

  /** `Display for Changelog`. */
  function Render(c: Changelog): (r: string)
    ensures StartsWith(r, Preamble) && r[|r| - 1] == '\n'
  {
    var body := UnreleasedPart(c.unreleased) + ReleasesPart(c.releases);
    PrefixAndLast(Preamble, body, "\n");
    Preamble + body + "\n"
  }

  lemma PrefixAndLast(a: string, b: string, c: string)
    requires |c| > 0
    ensures StartsWith(a + b + c, a) && (a + b + c)[|a + b + c| - 1] == c[|c| - 1]
  {
    assert (a + b + c)[..|a|] == a;
  }
}

=== FILE: declarations.dfy ===
/** The link reference definitions written after a changelog: an
    `[unreleased]` link comparing the newest release with `HEAD`, then one
    link per release comparing it with the release before it, and a tag link
    for the oldest. Releases older than an optional floor version are left
    out. */
module Declarations {
  import opened Wrappers
  import opened SemVer
  import opened Changelogs

  /** A release takes part when there is no floor or the floor is at most its version. */
  predicate Admits(floor: Option<Version>, v: Version) {
    floor.None? || LessEq(floor.value, v)
  }

  /** The versions of the releases, in changelog order. */
  function Versions(rs: Releases): (vs: seq<Version>)
    ensures |vs| == |rs| && forall i :: 0 <= i < |rs| ==> vs[i] == rs[i].1.version
  {
    seq(|rs|, i requires 0 <= i < |rs| => rs[i].1.version)
  }

  /** The versions that take part, in the order given. */
  function Participants(vs: seq<Version>, floor: Option<Version>): (ps: seq<Version>)
    ensures |ps| <= |vs|
    decreases |vs|
  {
    if vs == [] then []
    else
      var v := vs[|vs| - 1];
      Participants(vs[..|vs| - 1], floor) + (if Admits(floor, v) then [v] else [])
  }

  /** The participants are the versions the floor admits, in their order;
      without a floor they are all the versions. */
  lemma {:induction false} ParticipantsMembers(vs: seq<Version>, floor: Option<Version>)
    ensures forall v :: v in Participants(vs, floor) <==> v in vs && Admits(floor, v)
    ensures floor.None? ==> Participants(vs, floor) == vs
    decreases |vs|
  {
    if vs != [] {
      var init := vs[..|vs| - 1];
      ParticipantsMembers(init, floor);
      assert vs == init + [vs[|vs| - 1]];
    }
  }

  lemma ParticipantsSnoc(vs: seq<Version>, floor: Option<Version>, i: nat)
    requires i < |vs|
    ensures Participants(vs[..i + 1], floor)
         == Participants(vs[..i], floor) + (if Admits(floor, vs[i]) then [vs[i]] else [])
  {
    assert vs[..i + 1][..i] == vs[..i];
  }

  /** One link reference definition, before it is written out. */
  datatype Link =
    | UnreleasedLink(newest: Option<Version>)
    | CompareLink(newer: Version, older: Version)
    | TagLink(version: Version)

  /** A link written as its line `[label]: url`. */
  function LinkText(repository: string, l: Link): string {
    match l
    case UnreleasedLink(None) => "[unreleased]: " + repository
    case UnreleasedLink(Some(v)) => "[unreleased]: " + repository + "/compare/v" + ToString(v) + "...HEAD"
    case CompareLink(newer, older) =>
      "[" + ToString(newer) + "]: " + repository + "/compare/v" + ToString(older) + "...v" + ToString(newer)
    case TagLink(v) => "[" + ToString(v) + "]: " + repository + "/releases/tag/v" + ToString(v)
  }

  function LinkTexts(repository: string, ls: seq<Link>): (r: seq<string>)
    ensures |r| == |ls| && forall i :: 0 <= i < |ls| ==> r[i] == LinkText(repository, ls[i])
  {
    seq(|ls|, i requires 0 <= i < |ls| => LinkText(repository, ls[i]))
  }

  /** The links, stated position by position: the `[unreleased]` link, then
      for the `i`-th version a comparison with the `i+1`-th (the next older),
      and a tag link for the last. */
  function DeclarationLinks(vs: seq<Version>): (r: seq<Link>)
    ensures |r| == |vs| + 1
  {
    seq(|vs| + 1, i requires 0 <= i <= |vs| =>
      if i == 0 then UnreleasedLink(if vs == [] then None else Some(vs[0]))
      else if i < |vs| then CompareLink(vs[i - 1], vs[i])
      else TagLink(vs[i - 1]))
  }

  /** The links made once the versions `ws` have been consumed: all but the
      closing tag link. */
  function LinksSoFar(ws: seq<Version>): (r: seq<Link>)
    requires ws != []
    ensures |r| == |ws|
    decreases |ws|
  {
    if |ws| == 1 then [UnreleasedLink(Some(ws[0]))]
    else
      var init := ws[..|ws| - 1];
      LinksSoFar(init) + [CompareLink(init[|init| - 1], ws[|ws| - 1])]
  }

  lemma LinksSoFarSnoc(ws: seq<Version>, v: Version)
    requires ws != []
    ensures LinksSoFar(ws + [v]) == LinksSoFar(ws) + [CompareLink(ws[|ws| - 1], v)]
  {
    assert (ws + [v])[..|ws|] == ws;
  }

  /** The links made so far are the stated links without the last. */
  lemma {:induction false} LinksSoFarArePrefix(ws: seq<Version>)
    requires ws != []
    ensures LinksSoFar(ws) == DeclarationLinks(ws)[..|ws|]
    decreases |ws|
  {
    if |ws| > 1 {
      var init := ws[..|ws| - 1];
      LinksSoFarArePrefix(init);
      var a := LinksSoFar(ws);
      var b := DeclarationLinks(ws)[..|ws|];
      var c := DeclarationLinks(init)[..|init|];
      forall i | 0 <= i < |ws| ensures a[i] == b[i] {
        if i < |init| {
          assert a[i] == c[i];
        }
      }
    }
  }

  lemma LinksComplete(ws: seq<Version>)
    requires ws != []
    ensures LinksSoFar(ws) + [TagLink(ws[|ws| - 1])] == DeclarationLinks(ws)
  {
    LinksSoFarArePrefix(ws);
    var d := DeclarationLinks(ws);
    assert d[|ws|] == TagLink(ws[|ws| - 1]);
    SplitLast(d);
  }

  lemma SplitLast<T>(d: seq<T>)
    requires d != []
    ensures d[..|d| - 1] + [d[|d| - 1]] == d
  {
  }

  /** `generate_release_declarations`: the filtered versions are consumed
      one by one, the first giving the `[unreleased]` link and each later
      one giving the comparison link of the one before it; the links are
      written one per line. */
  method ReleaseDeclarations(c: Changelog, repository: string, floor: Option<Version>) returns (r: string)
    ensures r == Text.Join(LinkTexts(repository, DeclarationLinks(Participants(Versions(c.releases), floor))), "\n")
  {
    var links := AdmittedLinks(Versions(c.releases), floor);
    r := Text.Join(LinkTexts(repository, links), "\n");
  }

  /** The links for the versions the floor admits. */
  method AdmittedLinks(vs: seq<Version>, floor: Option<Version>) returns (links: seq<Link>)
    ensures links == DeclarationLinks(Participants(vs, floor))
  {
    var i := SkipBelowFloor(vs, floor);
    if i == |vs| {
      assert vs[..i] == vs;
      links := [UnreleasedLink(None)];
      assert links == DeclarationLinks([]);
    } else {
      var last;
      links, last := LinksFrom(vs, floor, i);
      LinksComplete(Participants(vs, floor));
      links := links + [TagLink(last)];
    }
  }

  /** The versions below the floor that come before the first one it admits. */
  method SkipBelowFloor(vs: seq<Version>, floor: Option<Version>) returns (i: nat)
    ensures i <= |vs| && Participants(vs[..i], floor) == []
    ensures i < |vs| ==> Admits(floor, vs[i])
  {
    i := 0;
    while i < |vs| && !Admits(floor, vs[i])
      invariant i <= |vs| && Participants(vs[..i], floor) == []
    {
      ParticipantsSnoc(vs, floor, i);
      i := i + 1;
    }
  }

  /** From the first admitted version on: the links so far, and the last
      admitted version. */
  method LinksFrom(vs: seq<Version>, floor: Option<Version>, start: nat) returns (links: seq<Link>, last: Version)
    requires start < |vs| && Admits(floor, vs[start]) && Participants(vs[..start], floor) == []
    ensures var ws := Participants(vs, floor); ws != [] && links == LinksSoFar(ws) && last == ws[|ws| - 1]
  {
    ParticipantsSnoc(vs, floor, start);
    links := [UnreleasedLink(Some(vs[start]))];
    last := vs[start];
    ghost var ws: seq<Version> := [vs[start]];
    var i := start + 1;
    while i < |vs|
      invariant i <= |vs| && ws == Participants(vs[..i], floor)
      invariant ws != [] && last == ws[|ws| - 1] && links == LinksSoFar(ws)
    {
      var v := vs[i];
      ParticipantsSnoc(vs, floor, i);
      if Admits(floor, v) {
        LinksSoFarSnoc(ws, v);
        links := links + [CompareLink(last, v)];
        last := v;
        ws := ws + [v];
      }
      i := i + 1;
    }
    assert vs[..i] == vs;
  }
}

=== FILE: generate_changelog.dfy ===
/** The changelog of a whole project: one section per buildpack, holding
    that buildpack's unreleased changes or its changes for a given version,
    in order of buildpack id. */
module AggregateChangelog {
  import opened Wrappers
  import opened Text
  import SemVer
  import opened Calendar
  import opened Changelogs
  import opened Sorting
  import OrderedMap
  import PrepareRelease

  /** Which part of each buildpack's changelog to collect. */
  datatype EntryType = UnreleasedEntry | VersionEntry(version: string)

  /** What one buildpack's changelog has for the requested part. */
  datatype ChangelogEntry = VersionNotPresent | Empty | Changes(text: string)

  /** The entry of a parsed changelog: the unreleased changes, or the body of
      the release whose key is the requested version text. */
  function SelectEntry(c: Changelog, t: EntryType): (r: ChangelogEntry)
    ensures t.UnreleasedEntry? ==> (r.Changes? <==> c.unreleased.Some?) && !r.VersionNotPresent?
    ensures t.UnreleasedEntry? && r.Changes? ==> r.text == c.unreleased.value
    ensures t.VersionEntry? ==> (r.VersionNotPresent? <==> t.version !in OrderedMap.Keys(c.releases))
    ensures t.VersionEntry? && r.Changes? ==> exists i :: 0 <= i < |c.releases| && c.releases[i].0 == t.version
                                                     && c.releases[i].1.body == r.text
    ensures t.VersionEntry? && OrderedMap.Get(c.releases, t.version).Some? ==>
      var body := OrderedMap.Get(c.releases, t.version).value.body;
      (r.Empty? <==> body == "") && (r.Changes? <==> body != "") && (r.Changes? ==> r.text == body)
    ensures r.Changes? ==> r.text != "" || (t.UnreleasedEntry? && c.unreleased == Some(""))
  {
    match t
    case UnreleasedEntry =>
      if c.unreleased.Some? then Changes(c.unreleased.value) else Empty
    case VersionEntry(version) =>
      match OrderedMap.Get(c.releases, version)
      case None => VersionNotPresent
      case Some(entry) => if entry.body == "" then Empty else Changes(entry.body)
  }

  /** The section of one buildpack, if it has one. */
  function Section(id: string, e: ChangelogEntry): Option<string> {
    match e
    case Empty => Some("## " + id + "\n\n- No changes.")
    case Changes(value) => Some("## " + id + "\n\n" + value)
    case VersionNotPresent => None
  }

  /** The buildpack has the requested part, possibly with no changes in it. */
  predicate Present(e: (string, ChangelogEntry)) {
    !e.1.VersionNotPresent?
  }

  /** What a present buildpack contributes: a level-2 heading with its id,
      then its changes, or a line saying there are none. */
  function SectionText(e: (string, ChangelogEntry)): string {
    "## " + e.0 + "\n\n" + (if e.1.Changes? then e.1.text else "- No changes.")
  }

  /** The sections of the entries, in their order: one for each entry that
      has the requested part, and nothing for the others. */
  function Sections(es: seq<(string, ChangelogEntry)>): (r: seq<string>)
    ensures var kept := Filter(es, Present);
      |r| == |kept| && forall i :: 0 <= i < |r| ==> r[i] == SectionText(kept[i])
    decreases |es|
  {
    if es == [] then []
    else
      match Section(es[0].0, es[0].1)
      case None => Sections(es[1..])
      case Some(s) => [s] + Sections(es[1..])
  }

  /** The buildpack id of an entry, its sort key. */
  function Id(e: (string, ChangelogEntry)): string {
    e.0
  }

  /** `generate_changelog`: the entries, in whatever order the hash map gives
      them, sorted by id; the sections joined by a blank line, trimmed, and
      closed by a blank line. */
  function GenerateChangelog(entries: seq<(string, ChangelogEntry)>): (r: string)
    ensures |r| >= 2 && r[|r| - 2..] == "\n\n" && IsTrimmed(r[..|r| - 2])
    ensures (forall i :: 0 <= i < |entries| ==> entries[i].1.VersionNotPresent?) ==> r == "\n\n"
  {
    var sorted := SortBy(entries, Id);
    var t := Trim(Join(Sections(sorted), "\n\n"));
    AllAbsent(entries, sorted);
    assert (t + "\n\n")[..|t|] == t;
    t + "\n\n"
  }

  /** The project changelog holds the sections of the buildpacks that have
      the requested part, in ascending order of id, whatever order the hash
      map gives them in. */
  lemma GenerateChangelogSections(entries: seq<(string, ChangelogEntry)>, s: seq<(string, ChangelogEntry)>)
    requires OrderedMap.UniqueKeys(entries)
    requires multiset(s) == multiset(entries) && SortedBy(s, Id)
    ensures GenerateChangelog(entries) == Trim(Join(Sections(s), "\n\n")) + "\n\n"
  {
    IdsSeparate(entries);
    SortByIsTheSortedPermutation(entries, s, Id);
  }

  lemma AllAbsent(entries: seq<(string, ChangelogEntry)>, sorted: seq<(string, ChangelogEntry)>)
    requires multiset(sorted) == multiset(entries)
    ensures (forall i :: 0 <= i < |entries| ==> entries[i].1.VersionNotPresent?) ==> Sections(sorted) == []
  {
    if forall i :: 0 <= i < |entries| ==> entries[i].1.VersionNotPresent? {
      forall i | 0 <= i < |sorted| ensures sorted[i].1.VersionNotPresent? {
        assert sorted[i] in multiset(entries);
      }
      NoSections(sorted);
    }
  }

  lemma {:induction false} NoSections(es: seq<(string, ChangelogEntry)>)
    requires forall i :: 0 <= i < |es| ==> es[i].1.VersionNotPresent?
    ensures Sections(es) == []
    decreases |es|
  {
    if es != [] {
      NoSections(es[1..]);
    }
  }

  /** Hash map keys are unique, so ids tell entries apart. */
  lemma IdsSeparate(entries: seq<(string, ChangelogEntry)>)
    requires OrderedMap.UniqueKeys(entries)
    ensures KeyInjective(entries, Id)
  {
  }

  /** The result does not depend on the order in which the map gives its entries. */
  lemma GenerateChangelogOrderFree(entries: seq<(string, ChangelogEntry)>, entries': seq<(string, ChangelogEntry)>)
    requires multiset(entries) == multiset(entries') && OrderedMap.UniqueKeys(entries)
    ensures GenerateChangelog(entries) == GenerateChangelog(entries')
  {
    IdsSeparate(entries);
    SortByPermutationInvariant(entries, entries', Id);
  }

  /** A buildpack without the requested version contributes nothing. */
  lemma NotPresentContributesNothing(entries: seq<(string, ChangelogEntry)>, id: string)
    requires OrderedMap.UniqueKeys(entries) && id !in OrderedMap.Keys(entries)
    ensures GenerateChangelog(entries + [(id, VersionNotPresent)]) == GenerateChangelog(entries)
  {
    var e := (id, VersionNotPresent);
    var all := entries + [e];
    assert OrderedMap.UniqueKeys(all) by {
      forall i, j | 0 <= i < j < |all| ensures all[i].0 != all[j].0 {
        assert all[i] == entries[i];
        if j < |entries| {
          assert all[j] == entries[j];
        } else {
          assert OrderedMap.Keys(entries)[i] == entries[i].0;
        }
      }
    }
    IdsSeparate(all);
    assert multiset(all) == multiset([e] + entries);
    SortByPermutationInvariant(all, [e] + entries, Id);
    assert ([e] + entries)[1..] == entries;
    InsertAbsentKeepsSections(e, SortBy(entries, Id));
  }

  lemma {:induction false} InsertAbsentKeepsSections(e: (string, ChangelogEntry), sorted: seq<(string, ChangelogEntry)>)
    requires e.1.VersionNotPresent? && SortedBy(sorted, Id)
    ensures Sections(InsertBy(e, sorted, Id)) == Sections(sorted)
    decreases |sorted|
  {
    if sorted != [] && !LexLe(Id(e), Id(sorted[0])) {
      assert SortedBy(sorted[1..], Id);
      InsertAbsentKeepsSections(e, sorted[1..]);
      assert InsertBy(e, sorted, Id)[1..] == InsertBy(e, sorted[1..], Id);
    }
  }

  /** Preparing a release and then collecting the new version finds the
      promoted changes, or the entry that already had that version. */
  lemma PromotedVersionSelected(c: Changelog, version: SemVer.Version, date: ValidDate, ids: seq<string>)
    requires OrderedMap.UniqueKeys(c.releases)
    ensures var key := SemVer.ToString(version);
      var promoted := PrepareRelease.Promote(c, version, date, ids);
      var body := PrepareRelease.PromotedBody(c.unreleased, PrepareRelease.DependencyText(version, ids));
      && SelectEntry(promoted, UnreleasedEntry) == Empty
      && (key !in OrderedMap.Keys(c.releases) ==> SelectEntry(promoted, VersionEntry(key)) == (if body == "" then Empty else Changes(body)))
      && (key in OrderedMap.Keys(c.releases) ==> SelectEntry(promoted, VersionEntry(key)) == SelectEntry(c, VersionEntry(key)))
  {
    var key := SemVer.ToString(version);
    var promoted := PrepareRelease.Promote(c, version, date, ids);
    if key !in OrderedMap.Keys(c.releases) {
      assert promoted.releases[0].0 == key;
      OrderedMap.GetEntry(promoted.releases, 0);
    }
  }
}

=== FILE: heading.dfy ===
/** The two patterns a level-2 changelog heading is tested against: the
    `Unreleased` heading and a release heading `[major.minor.patch] ... date`.
    Both are modelled as what the `regex` crate's leftmost-first matcher
    reports for them. `\d` matches a decimal digit of any script, as in the
    crate's default Unicode mode. */
module Heading {
  import opened Wrappers
  import opened Text

  // ------------------------------------------------------------ (?i)^\[?unreleased]?$

  const Unreleased: string := "unreleased"

  /** `c` equals the lower-case ASCII letter `l` under Unicode simple case
      folding: the letter itself, its capital, and for `s` also the long s. */
  predicate FoldsTo(c: char, l: char)
    requires 'a' <= l <= 'z'
  {
    c == l || c as int == l as int - 32 || (l == 's' && c == 'ſ')
  }

  /** `w` is the word "unreleased" up to case. */
  predicate IsUnreleasedWord(w: string) {
    |w| == |Unreleased| && forall i :: 0 <= i < |w| ==> FoldsTo(w[i], Unreleased[i])
  }

  /** The matcher: drop one optional `[` in front and one optional `]` at the
      end, and compare what remains with the word. */
  predicate IsUnreleasedHeading(h: string) {
    var a := if |h| >= 1 && h[0] == '[' then 1 else 0;
    var rest := h[a..];
    var b := if |rest| >= 1 && rest[|rest| - 1] == ']' then 1 else 0;
    IsUnreleasedWord(rest[..|rest| - b])
  }

  /** The pattern read as the four strings it can stand for. */
  ghost predicate UnreleasedPattern(h: string) {
    || IsUnreleasedWord(h)
    || (|h| >= 1 && h[0] == '[' && IsUnreleasedWord(h[1..]))
    || (|h| >= 1 && h[|h| - 1] == ']' && IsUnreleasedWord(h[..|h| - 1]))
    || (|h| >= 2 && h[0] == '[' && h[|h| - 1] == ']' && IsUnreleasedWord(h[1..|h| - 1]))
  }

  /** Stripping greedily never loses a match: the word has no brackets in it. */
  lemma UnreleasedHeadingMatchesPattern(h: string)
    ensures IsUnreleasedHeading(h) <==> UnreleasedPattern(h)
  {
    if IsUnreleasedWord(h) {
      assert h[0] != '[' && h[|h| - 1] != ']' by {
        assert FoldsTo(h[0], 'u') && FoldsTo(h[|h| - 1], 'd');
      }
      assert h[0..] == h;
    }
    if |h| >= 1 && IsUnreleasedWord(h[1..]) {
      assert FoldsTo(h[1..][9], 'd');
    }
    if |h| >= 1 && IsUnreleasedWord(h[..|h| - 1]) {
      assert FoldsTo(h[..|h| - 1][0], 'u');
    }
    if |h| >= 2 && h[0] == '[' && h[|h| - 1] == ']' {
      InnerSlice(h);
    }
  }

  lemma InnerSlice(h: string)
    requires |h| >= 2
    ensures h[1..][..|h[1..]| - 1] == h[1..|h| - 1]
  {
  }

  lemma UnreleasedExamples()
    ensures IsUnreleasedHeading("[Unreleased]")
    ensures IsUnreleasedHeading("Unreleased")
    ensures IsUnreleasedHeading("UNRELEASED]")
    ensures !IsUnreleasedHeading("[Unreleased] - 2023-01-01")
    ensures !IsUnreleasedHeading("[[Unreleased]")
  {
    assert !IsUnreleasedWord("Unreleased] - 2023-01-01");
    assert !IsUnreleasedWord("[Unreleased");
  }

  // ---------------------------------- ^\[?(\d+\.\d+\.\d+)]?.*(\d{4})[-/](\d{2})[-/](\d{2})

  predicate DigitsIn(h: string, i: nat, j: nat)
    requires i <= j <= |h|
  {
    forall k :: i <= k < j ==> IsDecimalDigit(h[k])
  }

  predicate NoNewlineIn(h: string, i: nat, j: nat)
    requires i <= j <= |h|
  {
    forall k :: i <= k < j ==> h[k] != '\n'
  }

  predicate IsDateSeparator(c: char) {
    c == '-' || c == '/'
  }

  /** `(\d{4})[-/](\d{2})[-/](\d{2})` matches at position `q`. */
  predicate DateAt(h: string, q: nat) {
    && q + 10 <= |h|
    && DigitsIn(h, q, q + 4) && IsDateSeparator(h[q + 4])
    && DigitsIn(h, q + 5, q + 7) && IsDateSeparator(h[q + 7])
    && DigitsIn(h, q + 8, q + 10)
  }

  /** One way the pattern can match `h`: an optional `[` of length `s`, the
      version `h[s..e]` with its dots at `d1` and `d2`, then anything on the
      same line (the optional `]` included) up to a date at `q`. */
  ghost predicate IsMatch(h: string, s: nat, d1: nat, d2: nat, e: nat, q: nat) {
    && (s == 0 || (s == 1 && |h| >= 1 && h[0] == '['))
    && s < d1 && d1 + 1 < d2 && d2 + 1 < e && e <= q && q + 10 <= |h|
    && DigitsIn(h, s, d1) && h[d1] == '.'
    && DigitsIn(h, d1 + 1, d2) && h[d2] == '.'
    && DigitsIn(h, d2 + 1, e)
    && NoNewlineIn(h, e, q) && DateAt(h, q)
  }

  /** Where the matcher found the capture groups. */
  datatype VersionMatch = VersionMatch(s: nat, d1: nat, d2: nat, e: nat, q: nat)

  /** The length of the run of digits starting at `i`. */
  function DigitRun(h: string, i: nat): (n: nat)
    requires i <= |h|
    ensures i + n <= |h| && DigitsIn(h, i, i + n)
    ensures i + n == |h| || !IsDecimalDigit(h[i + n])
    decreases |h| - i
  {
    if i < |h| && IsDecimalDigit(h[i]) then 1 + DigitRun(h, i + 1) else 0
  }

  /** The last position `q >= i` holding a date with no line break between
      `i` and `q`: what a greedy `.*` followed by the date settles on. */
  function LastDateFrom(h: string, i: nat): (r: Option<nat>)
    requires i <= |h|
    ensures r.Some? ==> i <= r.value && DateAt(h, r.value) && NoNewlineIn(h, i, r.value)
    decreases |h| - i
  {
    if i == |h| || h[i] == '\n' then None
    else
      match LastDateFrom(h, i + 1)
      case Some(q) => Some(q)
      case None => if DateAt(h, i) then Some(i) else None
  }

  /** No date on the line lies beyond the one found. */
  lemma {:induction false} LastDateIsLast(h: string, i: nat, q: nat)
    requires i <= q && q + 10 <= |h| && DateAt(h, q) && NoNewlineIn(h, i, q)
    ensures LastDateFrom(h, i).Some? && q <= LastDateFrom(h, i).value
    decreases |h| - i
  {
    if i < q {
      LastDateIsLast(h, i + 1, q);
    }
  }

  /** The matcher: the bracket and the first two numbers are forced; the
      patch number is as long as possible, and after it the date is the last
      one on the line, since `.*` is greedy. When the date's first digits
      overlap the patch digits, the patch gives way. */
  function MatchVersionHeading(h: string): (r: Option<VersionMatch>)
    ensures r.Some? ==> IsMatch(h, r.value.s, r.value.d1, r.value.d2, r.value.e, r.value.q)
  {
    var s := if |h| >= 1 && h[0] == '[' then 1 else 0;
    var d1 := s + DigitRun(h, s);
    if d1 == s || d1 == |h| || h[d1] != '.' then None
    else MatchMinor(h, s, d1)
  }

  /** The matcher once the bracket and the major number with its dot are
      found. */
  function MatchMinor(h: string, s: nat, d1: nat): Option<VersionMatch>
    requires d1 < |h|
  {
    var d2 := d1 + 1 + DigitRun(h, d1 + 1);
    if d2 == d1 + 1 || d2 == |h| || h[d2] != '.' then None
    else MatchPatchAndDate(h, s, d1, d2)
  }

  /** The rest of the matcher, once the bracket and the first two numbers
      with their dots are found. */
  function MatchPatchAndDate(h: string, s: nat, d1: nat, d2: nat): Option<VersionMatch>
    requires d2 < |h|
  {
    var n := DigitRun(h, d2 + 1);
    if n == 0 then None
    else
      match LastDateFrom(h, d2 + 2)
      case None => None
      case Some(q) =>
        var e := if d2 + 1 + n <= q then d2 + 1 + n else q;
        Some(VersionMatch(s, d1, d2, e, q))
  }

  /** A run of digits followed by a non-digit is exactly the digit run. */
  lemma {:induction false} DigitRunExact(h: string, i: nat, j: nat)
    requires i <= j < |h| && DigitsIn(h, i, j) && !IsDecimalDigit(h[j])
    ensures DigitRun(h, i) == j - i
    decreases j - i
  {
    if i < j {
      DigitRunExact(h, i + 1, j);
    }
  }

  lemma {:induction false} DigitRunAtLeast(h: string, i: nat, j: nat)
    requires i <= j <= |h| && DigitsIn(h, i, j)
    ensures DigitRun(h, i) >= j - i
    decreases j - i
  {
    if i < j {
      DigitRunAtLeast(h, i + 1, j);
    }
  }

  /** What the matcher reports is a match. */
  lemma MatchIsMatch(h: string)
    requires MatchVersionHeading(h).Some?
    ensures var m := MatchVersionHeading(h).value; IsMatch(h, m.s, m.d1, m.d2, m.e, m.q)
  {
  }

  /** Every match of the pattern agrees with the reported one on the bracket
      and the dots, and is at most the reported one in the order in which
      backtracking tries them: longer patch first, then later date. In
      particular the matcher reports nothing only when nothing matches. */
  lemma MatchIsFirstByPriority(h: string, s: nat, d1: nat, d2: nat, e: nat, q: nat)
    requires IsMatch(h, s, d1, d2, e, q)
    ensures MatchVersionHeading(h).Some?
    ensures var m := MatchVersionHeading(h).value;
      && m.s == s && m.d1 == d1 && m.d2 == d2
      && (e < m.e || (e == m.e && q <= m.q))
  {
    StepsOfMatch(h, s, d1, d2, e, q);
    MatchFromSteps(h, s, d1, d2, e, q);
  }

  /** What each step of the matcher finds on a heading that matches. */
  lemma StepsOfMatch(h: string, s: nat, d1: nat, d2: nat, e: nat, q: nat)
    requires IsMatch(h, s, d1, d2, e, q)
    ensures DigitRun(h, s) == d1 - s && DigitRun(h, d1 + 1) == d2 - d1 - 1 && DigitRun(h, d2 + 1) >= e - d2 - 1
    ensures LastDateFrom(h, d2 + 2).Some? && q <= LastDateFrom(h, d2 + 2).value
  {
    RunsOfMatch(h, s, d1, d2, e);
    DigitsHaveNoNewline(h, d2 + 2, e, q);
    LastDateIsLast(h, d2 + 2, q);
  }

  lemma RunsOfMatch(h: string, s: nat, d1: nat, d2: nat, e: nat)
    requires s < d1 && d1 + 1 < d2 && d2 + 1 < e <= |h|
    requires DigitsIn(h, s, d1) && h[d1] == '.' && DigitsIn(h, d1 + 1, d2) && h[d2] == '.' && DigitsIn(h, d2 + 1, e)
    ensures DigitRun(h, s) == d1 - s && DigitRun(h, d1 + 1) == d2 - d1 - 1 && DigitRun(h, d2 + 1) >= e - d2 - 1
  {
    DigitRunExact(h, s, d1);
    DigitRunExact(h, d1 + 1, d2);
    DigitRunAtLeast(h, d2 + 1, e);
  }

  /** `MatchIsFirstByPriority` once the runs of digits and the last date on
      the line are known. */
  lemma MatchFromSteps(h: string, s: nat, d1: nat, d2: nat, e: nat, q: nat)
    requires s == (if |h| >= 1 && h[0] == '[' then 1 else 0)
    requires s < d1 < |h| && DigitRun(h, s) == d1 - s && h[d1] == '.'
    requires d1 + 1 < d2 < |h| && DigitRun(h, d1 + 1) == d2 - d1 - 1 && h[d2] == '.'
    requires d2 + 1 < e && DigitRun(h, d2 + 1) >= e - d2 - 1 && e <= q
    requires d2 + 2 <= |h| && LastDateFrom(h, d2 + 2).Some? && q <= LastDateFrom(h, d2 + 2).value
    ensures MatchVersionHeading(h).Some?
    ensures var m := MatchVersionHeading(h).value;
      && m.s == s && m.d1 == d1 && m.d2 == d2
      && (e < m.e || (e == m.e && q <= m.q))
  {
    MatchSpelledOut(h, s, d1, d2, LastDateFrom(h, d2 + 2).value);
  }

  /** The matcher's result once each of its steps is known. */
  lemma MatchSpelledOut(h: string, s: nat, d1: nat, d2: nat, q: nat)
    requires s == (if |h| >= 1 && h[0] == '[' then 1 else 0)
    requires s < d1 < |h| && DigitRun(h, s) == d1 - s && h[d1] == '.'
    requires d1 + 1 < d2 < |h| && DigitRun(h, d1 + 1) == d2 - d1 - 1 && h[d2] == '.'
    requires DigitRun(h, d2 + 1) > 0 && d2 + 2 <= |h| && LastDateFrom(h, d2 + 2) == Some(q)
    ensures var n := DigitRun(h, d2 + 1);
      MatchVersionHeading(h) == Some(VersionMatch(s, d1, d2, if d2 + 1 + n <= q then d2 + 1 + n else q, q))
  {
    MatchReachesPatch(h, s, d1, d2);
    PatchAndDateFound(h, s, d1, d2, q);
  }

  lemma MatchReachesPatch(h: string, s: nat, d1: nat, d2: nat)
    requires s == (if |h| >= 1 && h[0] == '[' then 1 else 0)
    requires s < d1 < |h| && DigitRun(h, s) == d1 - s && h[d1] == '.'
    requires d1 + 1 < d2 < |h| && DigitRun(h, d1 + 1) == d2 - d1 - 1 && h[d2] == '.'
    ensures MatchVersionHeading(h) == MatchPatchAndDate(h, s, d1, d2)
  {
    MatchReachesMinor(h, s, d1);
    MinorReachesPatch(h, s, d1, d2);
  }

  lemma MatchReachesMinor(h: string, s: nat, d1: nat)
    requires s == (if |h| >= 1 && h[0] == '[' then 1 else 0)
    requires s < d1 < |h| && DigitRun(h, s) == d1 - s && h[d1] == '.'
    ensures MatchVersionHeading(h) == MatchMinor(h, s, d1)
  {
  }

  lemma MinorReachesPatch(h: string, s: nat, d1: nat, d2: nat)
    requires d1 + 1 < d2 < |h| && DigitRun(h, d1 + 1) == d2 - d1 - 1 && h[d2] == '.'
    ensures MatchMinor(h, s, d1) == MatchPatchAndDate(h, s, d1, d2)
  {
  }

  lemma PatchAndDateFound(h: string, s: nat, d1: nat, d2: nat, q: nat)
    requires d2 + 2 <= |h| && DigitRun(h, d2 + 1) > 0 && LastDateFrom(h, d2 + 2) == Some(q)
    ensures var n := DigitRun(h, d2 + 1);
      MatchPatchAndDate(h, s, d1, d2) == Some(VersionMatch(s, d1, d2, if d2 + 1 + n <= q then d2 + 1 + n else q, q))
  {
  }

  /** Digits and then no line break: no line break in all. */
  lemma DigitsHaveNoNewline(h: string, i: nat, e: nat, q: nat)
    requires i <= e <= q <= |h| && DigitsIn(h, i, e) && NoNewlineIn(h, e, q)
    ensures NoNewlineIn(h, i, q)
  {
    forall k | i <= k < q ensures h[k] != '\n' {
      if k < e {
        assert IsDecimalDigit(h[k]);
      }
    }
  }

  /** The captured groups of a match. */
  function VersionText(h: string, m: VersionMatch): string
    requires m.s <= m.e <= |h|
  {
    h[m.s..m.e]
  }

  function MajorDigits(h: string, m: VersionMatch): (r: string)
    requires MatchVersionHeading(h) == Some(m)
    ensures |r| >= 1 && AllDecimalDigits(r)
  {
    MatchIsMatch(h);
    h[m.s..m.d1]
  }

  function MinorDigits(h: string, m: VersionMatch): (r: string)
    requires MatchVersionHeading(h) == Some(m)
    ensures |r| >= 1 && AllDecimalDigits(r)
  {
    MatchIsMatch(h);
    h[m.d1 + 1..m.d2]
  }

  function PatchDigits(h: string, m: VersionMatch): (r: string)
    requires MatchVersionHeading(h) == Some(m)
    ensures |r| >= 1 && AllDecimalDigits(r)
  {
    MatchIsMatch(h);
    h[m.d2 + 1..m.e]
  }

  function YearDigits(h: string, m: VersionMatch): (r: string)
    requires MatchVersionHeading(h) == Some(m)
    ensures |r| == 4 && AllDecimalDigits(r)
  {
    MatchIsMatch(h);
    h[m.q..m.q + 4]
  }

  function MonthDigits(h: string, m: VersionMatch): (r: string)
    requires MatchVersionHeading(h) == Some(m)
    ensures |r| == 2 && AllDecimalDigits(r)
  {
    MatchIsMatch(h);
    h[m.q + 5..m.q + 7]
  }

  function DayDigits(h: string, m: VersionMatch): (r: string)
    requires MatchVersionHeading(h) == Some(m)
    ensures |r| == 2 && AllDecimalDigits(r)
  {
    MatchIsMatch(h);
    h[m.q + 8..m.q + 10]
  }

  /** The captured version is the three captured numbers with dots between. */
  lemma VersionTextParts(h: string, m: VersionMatch)
    requires MatchVersionHeading(h) == Some(m)
    ensures VersionText(h, m) == MajorDigits(h, m) + "." + MinorDigits(h, m) + "." + PatchDigits(h, m)
  {
    MatchDots(h, m);
    DottedSlice(h, m.s, m.d1, m.d2, m.e);
    assert MajorDigits(h, m) == h[m.s..m.d1] && MinorDigits(h, m) == h[m.d1 + 1..m.d2];
    assert PatchDigits(h, m) == h[m.d2 + 1..m.e] && VersionText(h, m) == h[m.s..m.e];
  }

  /** Where the dots of a reported match are. */
  lemma MatchDots(h: string, m: VersionMatch)
    requires MatchVersionHeading(h) == Some(m)
    ensures m.s <= m.d1 < m.d2 < m.e <= |h| && h[m.d1] == '.' && h[m.d2] == '.'
  {
    MatchIsMatch(h);
  }

  lemma DottedSlice(h: string, s: nat, d1: nat, d2: nat, e: nat)
    requires s <= d1 < d2 < e <= |h| && h[d1] == '.' && h[d2] == '.'
    ensures h[s..e] == h[s..d1] + "." + h[d1 + 1..d2] + "." + h[d2 + 1..e]
  {
    var a, b, c := h[s..d1], h[d1 + 1..d2], h[d2 + 1..e];
    assert h[d1..d1 + 1] == "." && h[d2..d2 + 1] == ".";
    SliceConcat(h, d2, d2 + 1, e);
    var t1 := h[d2..e];
    assert t1 == "." + c;
    SliceConcat(h, d1 + 1, d2, e);
    var t2 := h[d1 + 1..e];
    assert t2 == b + t1;
    SliceConcat(h, d1, d1 + 1, e);
    var t3 := h[d1..e];
    assert t3 == "." + t2;
    SliceConcat(h, s, d1, e);
    assert h[s..e] == a + t3;
    FiveParts(a, ".", b, ".", c);
  }

  lemma SliceConcat(h: string, i: nat, j: nat, k: nat)
    requires i <= j <= k <= |h|
    ensures h[i..k] == h[i..j] + h[j..k]
  {
  }

  lemma FiveParts(a: string, b: string, c: string, d: string, e: string)
    ensures a + (b + (c + (d + e))) == a + b + c + d + e
  {
  }

  /** A heading `[version] - date` that ends with its date: the matcher
      captures the version up to the `]` and the date at the end. */
  lemma BracketedHeadingMatch(h: string, d1: nat, d2: nat, e: nat)
    requires IsMatch(h, 1, d1, d2, e, e + 4) && |h| == e + 14 && h[e] == ']'
    ensures MatchVersionHeading(h) == Some(VersionMatch(1, d1, d2, e, e + 4))
  {
    MatchIsFirstByPriority(h, 1, d1, d2, e, e + 4);
    MatchIsMatch(h);
  }

  /** A match whose patch is followed by a non-digit and whose date ends
      the heading is the one the matcher reports. */
  lemma PinnedHeadingMatch(h: string, s: nat, d1: nat, d2: nat, e: nat, q: nat)
    requires IsMatch(h, s, d1, d2, e, q) && q + 10 == |h| && !IsDecimalDigit(h[e])
    ensures MatchVersionHeading(h) == Some(VersionMatch(s, d1, d2, e, q))
  {
    MatchIsFirstByPriority(h, s, d1, d2, e, q);
    MatchIsMatch(h);
  }

  /** The text of a release heading, `[major.minor.patch] - year-month-day`. */
  function ReleaseHeadingText(major: string, minor: string, patch: string,
                              year: string, month: string, day: string): string
  {
    BracketedVersion(major, minor, patch) + "] - " + DateText(year, month, day)
  }

  function BracketedVersion(major: string, minor: string, patch: string): string {
    "[" + major + "." + minor + "." + patch
  }

  function DateText(year: string, month: string, day: string): string {
    year + "-" + month + "-" + day
  }

  /** A release heading built from runs of decimal digits (of any script) is
      matched with every group captured where it was put. */
  lemma ReleaseHeadingMatches(major: string, minor: string, patch: string,
                              year: string, month: string, day: string)
    requires |major| >= 1 && |minor| >= 1 && |patch| >= 1
    requires AllDecimalDigits(major) && AllDecimalDigits(minor) && AllDecimalDigits(patch)
    requires |year| == 4 && |month| == 2 && |day| == 2
    requires AllDecimalDigits(year) && AllDecimalDigits(month) && AllDecimalDigits(day)
    ensures var h := ReleaseHeadingText(major, minor, patch, year, month, day);
      var d1, d2 := 1 + |major|, 2 + |major| + |minor|;
      var e := 3 + |major| + |minor| + |patch|;
      MatchVersionHeading(h) == Some(VersionMatch(1, d1, d2, e, e + 4))
  {
    var version := BracketedVersion(major, minor, patch);
    var date := DateText(year, month, day);
    VersionShape(major, minor, patch);
    DateShape(year, month, day);
    var h := ReleaseHeadingText(major, minor, patch, year, month, day);
    LaidOutIsMatch(h, version, date, |major|, |minor|, |patch|);
    BracketedHeadingMatch(h, 1 + |major|, 2 + |major| + |minor|, 3 + |major| + |minor| + |patch|);
  }

  /** `ReleaseHeadingMatches` read through the capture functions. */
  lemma ReleaseHeadingCaptured(h: string, major: string, minor: string, patch: string,
                               year: string, month: string, day: string) returns (m: VersionMatch)
    requires |major| >= 1 && |minor| >= 1 && |patch| >= 1
    requires AllDecimalDigits(major) && AllDecimalDigits(minor) && AllDecimalDigits(patch)
    requires |year| == 4 && |month| == 2 && |day| == 2
    requires AllDecimalDigits(year) && AllDecimalDigits(month) && AllDecimalDigits(day)
    requires h == ReleaseHeadingText(major, minor, patch, year, month, day)
    ensures MatchVersionHeading(h) == Some(m)
    ensures && MajorDigits(h, m) == major && MinorDigits(h, m) == minor && PatchDigits(h, m) == patch
            && YearDigits(h, m) == year && MonthDigits(h, m) == month && DayDigits(h, m) == day
  {
    ReleaseHeadingMatches(major, minor, patch, year, month, day);
    HeadingCaptures(major, minor, patch, year, month, day);
    var e := 3 + |major| + |minor| + |patch|;
    m := VersionMatch(1, 1 + |major|, 2 + |major| + |minor|, e, e + 4);
  }

  /** The version part `[major.minor.patch` of a heading, by position. */
  lemma VersionShape(major: string, minor: string, patch: string)
    requires |major| >= 1 && |minor| >= 1 && |patch| >= 1
    requires AllDecimalDigits(major) && AllDecimalDigits(minor) && AllDecimalDigits(patch)
    ensures var v := BracketedVersion(major, minor, patch);
      var d1, d2 := 1 + |major|, 2 + |major| + |minor|;
      && |v| == 3 + |major| + |minor| + |patch| && v[0] == '[' && v[d1] == '.' && v[d2] == '.'
      && DigitsIn(v, 1, d1) && DigitsIn(v, d1 + 1, d2) && DigitsIn(v, d2 + 1, |v|)
  {
    var v := BracketedVersion(major, minor, patch);
    var d1, d2 := 1 + |major|, 2 + |major| + |minor|;
    VersionLayout(major, minor, patch);
    SliceDigits(v, 1, d1);
    SliceDigits(v, d1 + 1, d2);
    SliceDigits(v, d2 + 1, |v|);
  }

  /** The date part `year-month-day` of a heading is a date at its start. */
  lemma DateShape(year: string, month: string, day: string)
    requires |year| == 4 && |month| == 2 && |day| == 2
    requires AllDecimalDigits(year) && AllDecimalDigits(month) && AllDecimalDigits(day)
    ensures var t := DateText(year, month, day); |t| == 10 && DateAt(t, 0)
  {
    var t := DateText(year, month, day);
    DateLayout(year, month, day);
    SliceDigits(t, 0, 4);
    SliceDigits(t, 5, 7);
    SliceDigits(t, 8, 10);
  }

  /** Where each part of a release heading's text lies. */
  lemma HeadingCaptures(major: string, minor: string, patch: string,
                        year: string, month: string, day: string)
    requires |year| == 4 && |month| == 2 && |day| == 2
    ensures var h := ReleaseHeadingText(major, minor, patch, year, month, day);
      var d1, d2 := 1 + |major|, 2 + |major| + |minor|;
      var e := 3 + |major| + |minor| + |patch|;
      && |h| == e + 14
      && h[1..d1] == major && h[d1 + 1..d2] == minor && h[d2 + 1..e] == patch
      && h[e + 4..e + 8] == year && h[e + 9..e + 11] == month && h[e + 12..e + 14] == day
  {
    var h := ReleaseHeadingText(major, minor, patch, year, month, day);
    var d1, d2 := 1 + |major|, 2 + |major| + |minor|;
    var e := 3 + |major| + |minor| + |patch|;
    var version := BracketedVersion(major, minor, patch);
    var date := DateText(year, month, day);
    VersionLayout(major, minor, patch);
    DateLayout(year, month, day);
    ThreeParts(version, "] - ", date);
    SubSlice(h, e, 1, d1);
    SubSlice(h, e, d1 + 1, d2);
    SubSlice(h, e, d2 + 1, e);
    SuffixSlice(h, e + 4, 0, 4);
    SuffixSlice(h, e + 4, 5, 7);
    SuffixSlice(h, e + 4, 8, 10);
  }

  /** `[version] - date` has the shape of a bracketed release heading once
      the version and the date are known to have the right shape. */
  lemma LaidOutIsMatch(h: string, version: string, date: string, n1: nat, n2: nat, n3: nat)
    requires n1 >= 1 && n2 >= 1 && n3 >= 1 && |version| == 3 + n1 + n2 + n3
    requires version[0] == '[' && version[1 + n1] == '.' && version[2 + n1 + n2] == '.'
    requires DigitsIn(version, 1, 1 + n1) && DigitsIn(version, 2 + n1, 2 + n1 + n2)
    requires DigitsIn(version, 3 + n1 + n2, |version|)
    requires |date| == 10 && DateAt(date, 0)
    requires h == version + "] - " + date
    ensures var e := 3 + n1 + n2 + n3;
      |h| == e + 14 && h[e] == ']' && IsMatch(h, 1, 1 + n1, 2 + n1 + n2, e, e + 4)
  {
    var e := |version|;
    assert forall k :: 0 <= k < e ==> h[k] == version[k];
    assert forall k :: 0 <= k < 10 ==> h[e + 4 + k] == date[k];
    assert h[e] == ']' && h[e + 1] == ' ' && h[e + 2] == '-' && h[e + 3] == ' ';
    assert DateAt(h, e + 4) by {
      assert DigitsIn(h, e + 4, e + 8) by {
        forall k | e + 4 <= k < e + 8 ensures IsDecimalDigit(h[k]) {
          assert h[k] == date[k - e - 4];
        }
      }
      assert DigitsIn(h, e + 9, e + 11) by {
        forall k | e + 9 <= k < e + 11 ensures IsDecimalDigit(h[k]) {
          assert h[k] == date[k - e - 4];
        }
      }
      assert DigitsIn(h, e + 12, e + 14) by {
        forall k | e + 12 <= k < e + 14 ensures IsDecimalDigit(h[k]) {
          assert h[k] == date[k - e - 4];
        }
      }
    }
  }

  lemma VersionLayout(major: string, minor: string, patch: string)
    ensures var v := "[" + major + "." + minor + "." + patch;
      var d1, d2 := 1 + |major|, 2 + |major| + |minor|;
      && |v| == 3 + |major| + |minor| + |patch| && v[0] == '['
      && v[1..d1] == major && v[d1] == '.' && v[d1 + 1..d2] == minor && v[d2] == '.' && v[d2 + 1..] == patch
  {
  }

  lemma DateLayout(year: string, month: string, day: string)
    requires |year| == 4 && |month| == 2 && |day| == 2
    ensures var t := year + "-" + month + "-" + day;
      |t| == 10 && t[..4] == year && t[4] == '-' && t[5..7] == month && t[7] == '-' && t[8..] == day
  {
  }

  lemma ThreeParts(a: string, b: string, c: string)
    ensures var s := a + b + c;
      s[..|a|] == a && s[|a|..|a| + |b|] == b && s[|a| + |b|..] == c
  {
  }

  lemma SubSlice(h: string, n: nat, i: nat, j: nat)
    requires i <= j <= n <= |h|
    ensures h[i..j] == h[..n][i..j]
  {
  }

  lemma SuffixSlice(h: string, n: nat, i: nat, j: nat)
    requires n <= |h| && i <= j <= |h| - n
    ensures h[n + i..n + j] == h[n..][i..j]
  {
  }

  lemma SliceDigits(h: string, i: nat, j: nat)
    requires i <= j <= |h| && AllDecimalDigits(h[i..j])
    ensures DigitsIn(h, i, j)
  {
    forall k | i <= k < j ensures IsDecimalDigit(h[k]) {
      assert h[k] == h[i..j][k - i];
    }
  }

  /** When a line names two dates after the version, the earlier one is
      never the one captured. */
  lemma EarlierDateNeverCaptured(h: string, s: nat, d1: nat, d2: nat, e: nat, q1: nat, q2: nat)
    requires IsMatch(h, s, d1, d2, e, q1)
    requires q1 < q2 && DateAt(h, q2) && NoNewlineIn(h, q1, q2)
    ensures MatchVersionHeading(h).Some? && MatchVersionHeading(h).value.q != q1
  {
    MatchIsFirstByPriority(h, s, d1, d2, e, q1);
    MatchIsMatch(h);
    var m := MatchVersionHeading(h).value;
    assert IsMatch(h, m.s, m.d1, m.d2, m.e, q2) by {
      assert NoNewlineIn(h, m.e, m.q);
      if m.q == q1 {
        assert NoNewlineIn(h, m.e, q2);
      }
    }
    MatchIsFirstByPriority(h, m.s, m.d1, m.d2, m.e, q2);
  }
}

=== FILE: markdown.dfy ===
/** The part of a Markdown syntax tree (`markdown::mdast`) the changelog
    reader looks at. Parsing Markdown is done by a library and is not part of
    this model: a tree is an input, together with the text it was read from. */
module Markdown {

  /** Where a node sits in the document text: offsets, end exclusive. */
  datatype Span = Span(start: nat, end: nat)

  /** A top-level block. A heading carries its depth and its plain text
      (the text of its inline content, as `Node::to_string` gives it). A
      definition is a link reference definition `[label]: url`. Everything
      else (paragraphs, lists, code, thematic breaks, ...) is `Other`. */
  datatype Node =
    | Heading(depth: nat, text: string, span: Span)
    | Definition(span: Span)
    | Other(span: Span)

  /** The parser's result: a document root with its children, or some other
      node at the top. */
  datatype Tree = Root(children: seq<Node>) | NotRoot

  /** Nodes as a parser lays them out between offsets `lo` and `hi`: each
      inside that stretch, and each ending before the next one starts. */
  predicate Within(ns: seq<Node>, lo: nat, hi: nat) {
    && (forall i :: 0 <= i < |ns| ==> lo <= ns[i].span.start <= ns[i].span.end <= hi)
    && (forall i, j :: 0 <= i < j < |ns| ==> ns[i].span.end <= ns[j].span.start)
  }

  /** The layout of a text of length `len`. */
  predicate WellFormed(ns: seq<Node>, len: nat) {
    Within(ns, 0, len)
  }

  /** Two laid-out stretches, one after the other, make one. */
  lemma WithinConcat(a: seq<Node>, b: seq<Node>, lo: nat, mid: nat, hi: nat)
    requires lo <= mid <= hi && Within(a, lo, mid) && Within(b, mid, hi)
    ensures Within(a + b, lo, hi)
  {
    var ab := a + b;
    forall i | 0 <= i < |ab| ensures lo <= ab[i].span.start <= ab[i].span.end <= hi {
      if i < |a| {
        assert ab[i] == a[i];
      } else {
        assert ab[i] == b[i - |a|];
      }
    }
    forall i, j | 0 <= i < j < |ab| ensures ab[i].span.end <= ab[j].span.start {
      if j < |a| {
        assert ab[i] == a[i] && ab[j] == a[j];
      } else if i >= |a| {
        assert ab[i] == b[i - |a|] && ab[j] == b[j - |a|];
      } else {
        assert ab[i] == a[i] && ab[j] == b[j - |a|];
      }
    }
  }

  lemma WithinWiden(a: seq<Node>, lo: nat, hi: nat, lo': nat, hi': nat)
    requires Within(a, lo, hi) && lo' <= lo && hi <= hi'
    ensures Within(a, lo', hi')
  {
  }
}

=== FILE: matrix.dfy ===
/** The buildpack matrix: for each buildpack, its targets, how each target
    is named (in image tags and packaged file names), the Rust triple it
    builds for, the kind of buildpack, and the directory its packaged
    output goes to. Reading `buildpack.toml`, probing the buildpack's
    directory and libcnb's packaging layout are parameters of the model. */
module BuildpackMatrix {
  import opened Wrappers
  import opened Text
  import SemVer
  import Sorting

  // ----------------------------------------------------------------- targets

  /** A target of a buildpack: operating system, architecture, variant and
      distributions (name and version), any of which may be absent. */
  datatype Target = Target(os: Option<string>, arch: Option<string>, variant: Option<string>, distros: seq<(string, string)>)

  /** A buildpack descriptor: a component buildpack with its declared
      targets, or a composite buildpack with the targets read from its
      metadata (`None` when the metadata has none that can be read). */
  datatype Descriptor =
    | ComponentDescriptor(targets: seq<Target>)
    | CompositeDescriptor(metadataTargets: Option<seq<Target>>)

  datatype BuildpackType = Bash | Composite | Libcnb

  datatype MatrixError =
    | MissingImageRepositoryMetadata(descriptorPath: string)
    | UnknownRustTarget(target: Target)
    | MultipleTypes(buildpackDir: string)
    | UnknownType(buildpackDir: string)

  /** The target libcnb assumes when none is declared. */
  const DefaultTarget := Target(Some("linux"), Some("amd64"), None, [])

  /** `read_buildpack_targets`: the declared targets, or the default target
      when there are none. */
  function ReadBuildpackTargets(d: Descriptor): (r: seq<Target>)
    ensures |r| >= 1
    ensures var declared := if d.ComponentDescriptor? then d.targets else d.metadataTargets.GetOr([]);
      (declared != [] ==> r == declared) && (declared == [] ==> r == [DefaultTarget])
  {
    var declared :=
      match d
      case ComponentDescriptor(targets) => targets
      case CompositeDescriptor(metadataTargets) => metadataTargets.GetOr([]);
    if declared == [] then [DefaultTarget] else declared
  }

  // ------------------------------------------------------------- target name

  const Universal := "universal"

  /** `target_name`: the suffix naming a target in tags and file names. */
  function TargetName(t: Target): (r: string)
    ensures t.os.Some? && t.arch.Some? ==> r == t.os.value + "-" + t.arch.value
    ensures t.os.Some? && t.arch.None? ==> r == t.os.value
    ensures t.os.None? ==> r == if t.arch.Some? then Universal + "-" + t.arch.value else Universal
  {
    match (t.os, t.arch)
    case (Some(os), Some(arch)) => os + "-" + arch
    case (Some(os), None) => os
    case (None, Some(arch)) => Universal + "-" + arch
    case (None, None) => Universal
  }

  /** Reading operating system and architecture back from a target name. */
  function ParseTargetName(s: string): (r: (Option<string>, Option<string>))
  {
    if s == Universal then (None, None)
    else
      match Find(s, "-")
      case None => (Some(s), None)
      case Some(i) =>
        var os, arch := s[..i], s[i + 1..];
        if os == Universal then (None, Some(arch)) else (Some(os), Some(arch))
  }

  /** A target whose operating system has no `-` and is not `universal` is
      named unambiguously: its operating system and architecture are read
      back from its name. */
  lemma TargetNameRoundTrip(t: Target)
    requires t.os.Some? ==> '-' !in t.os.value && t.os.value != Universal
    ensures ParseTargetName(TargetName(t)) == (t.os, t.arch)
  {
    var s := TargetName(t);
    assert '-' !in Universal;
    match (t.os, t.arch)
    case (Some(os), Some(arch)) =>
      assert s == os + ['-'] + arch;
      assert s[|os|] == '-';
      FindCharAfterFree(os, '-', arch);
      assert s[..|os|] == os && s[|os| + 1..] == arch;
    case (Some(os), None) =>
      FreeNotContains(os, '-');
    case (None, Some(arch)) =>
      assert s == Universal + ['-'] + arch;
      FindCharAfterFree(Universal, '-', arch);
      assert s[..|Universal|] == Universal && s[|Universal| + 1..] == arch;
    case (None, None) =>
  }

  /** Without that condition two different targets can share a name. */
  lemma TargetNameCollisions()
    ensures TargetName(Target(Some("universal"), None, None, [])) == TargetName(Target(None, None, None, []))
    ensures TargetName(Target(Some("linux-musl"), None, None, [])) == TargetName(Target(Some("linux"), Some("musl"), None, []))
  {
    assert "linux" + "-" + "musl" == "linux-musl";
  }

  // ------------------------------------------------------------- rust triple

  const AmdTriple := "x86_64-unknown-linux-musl"
  const ArmTriple := "aarch64-unknown-linux-musl"

  /** `rust_triple`: only Linux on amd64 and on arm64 have a Rust triple. */
  function RustTriple(t: Target): (r: Result<string, MatrixError>)
    ensures r.Success? <==> t.os == Some("linux") && (t.arch == Some("amd64") || t.arch == Some("arm64"))
    ensures r.Failure? ==> r.error == UnknownRustTarget(t)
  {
    match (t.os, t.arch)
    case (Some("linux"), Some("amd64")) => Success(AmdTriple)
    case (Some("linux"), Some("arm64")) => Success(ArmTriple)
    case (_, _) => Failure(UnknownRustTarget(t))
  }

  /** The operating system and architecture a Rust triple builds for. */
  function TripleTarget(triple: string): (r: Option<(string, string)>)
  {
    if triple == AmdTriple then Some(("linux", "amd64"))
    else if triple == ArmTriple then Some(("linux", "arm64"))
    else None
  }

  /** The triple of a target names the target's platform, so two targets
      with the same triple are for the same platform. */
  lemma RustTripleNamesPlatform(t: Target)
    ensures RustTriple(t).Success? ==> TripleTarget(RustTriple(t).value) == Some((t.os.value, t.arch.value))
  {
    assert AmdTriple[0] != ArmTriple[0];
  }

  lemma RustTripleInjective(t: Target, u: Target)
    requires RustTriple(t).Success? && RustTriple(u).Success?
    requires RustTriple(t).value == RustTriple(u).value
    ensures t.os == u.os && t.arch == u.arch
  {
    RustTripleNamesPlatform(t);
    RustTripleNamesPlatform(u);
  }

  /** The default target has both a name and a Rust triple. */
  lemma DefaultTargetNamed()
    ensures TargetName(DefaultTarget) == "linux-amd64"
    ensures RustTriple(DefaultTarget) == Success(AmdTriple)
  {
    assert "linux" + "-" + "amd64" == "linux-amd64";
  }

  // -------------------------------------------------------------------- tags

  /** `generate_tag`: `repo:tag`, then `_suffix` when there is a suffix. */
  function GenerateTag(repo: string, tag: string, suffix: Option<string>): (r: string)
    ensures StartsWith(r, repo + ":" + tag)
    ensures suffix.None? <==> |r| == |repo| + 1 + |tag|
    ensures suffix.Some? ==> r[|repo| + 1 + |tag|..] == "_" + suffix.value
  {
    match suffix
    case None => repo + ":" + tag
    case Some(s) => repo + ":" + tag + "_" + s
  }

  /** Tags that differ only in their suffix differ. */
  lemma GenerateTagSuffixInjective(repo: string, tag: string, a: Option<string>, b: Option<string>)
    requires GenerateTag(repo, tag, a) == GenerateTag(repo, tag, b)
    ensures a == b
  {
    if a.Some? && b.Some? {
      var prefix := repo + ":" + tag + "_";
      assert GenerateTag(repo, tag, a) == prefix + a.value;
      assert GenerateTag(repo, tag, b) == prefix + b.value;
      assert a.value == (prefix + a.value)[|prefix|..];
      assert b.value == (prefix + b.value)[|prefix|..];
    }
  }

  /** The temporary tag, `_` and the temporary id in the place of the version. */
  function TemporaryTag(repo: string, temporaryId: string, suffix: Option<string>): (r: string)
    ensures r == GenerateTag(repo, "_" + temporaryId, suffix)
    ensures |r| > |repo| + 1 && r[|repo| + 1] == '_'
  {
    GenerateTag(repo, "_" + temporaryId, suffix)
  }

  /** The stable tag, the version in the place of the tag. */
  function StableTag(repo: string, version: SemVer.Version, suffix: Option<string>): (r: string)
    ensures r == GenerateTag(repo, SemVer.ToString(version), suffix)
    ensures |r| > |repo| + 1 && IsDigit(r[|repo| + 1])
  {
    var v := SemVer.ToString(version);
    var major := NatToString(version.major);
    assert v == major + ("." + NatToString(version.minor) + "." + NatToString(version.patch));
    assert v[0] == major[0];
    GenerateTag(repo, v, suffix)
  }

  /** A temporary tag is never a stable tag of the same image repository. */
  lemma TemporaryTagIsNotStable(repo: string, temporaryId: string, version: SemVer.Version, s: Option<string>, s': Option<string>)
    ensures TemporaryTag(repo, temporaryId, s) != StableTag(repo, version, s')
  {
    var t, u := TemporaryTag(repo, temporaryId, s), StableTag(repo, version, s');
    assert t[|repo| + 1] != u[|repo| + 1];
  }

  // ----------------------------------------------------------- buildpack type

  /** `buildpack_type`, given whether the buildpack's directory has a
      `Cargo.toml` and whether it has both `bin/detect` and `bin/build`. */
  function BuildpackTypeOf(d: Descriptor, hasCargoToml: bool, hasBinFiles: bool, buildpackDir: string): (r: Result<BuildpackType, MatrixError>)
    ensures r == Success(Composite) <==> d.CompositeDescriptor? && !hasCargoToml && !hasBinFiles
    ensures r == Success(Libcnb) <==> d.ComponentDescriptor? && hasCargoToml && !hasBinFiles
    ensures r == Success(Bash) <==> d.ComponentDescriptor? && !hasCargoToml && hasBinFiles
    ensures r == Failure(UnknownType(buildpackDir)) <==> d.ComponentDescriptor? && !hasCargoToml && !hasBinFiles
    ensures r.Failure? ==> r == Failure(UnknownType(buildpackDir)) || r == Failure(MultipleTypes(buildpackDir))
  {
    match (d, hasCargoToml, hasBinFiles)
    case (CompositeDescriptor(_), false, false) => Success(Composite)
    case (CompositeDescriptor(_), _, _) => Failure(MultipleTypes(buildpackDir))
    case (ComponentDescriptor(_), true, false) => Success(Libcnb)
    case (ComponentDescriptor(_), false, true) => Success(Bash)
    case (ComponentDescriptor(_), false, false) => Failure(UnknownType(buildpackDir))
    case (_, true, true) => Failure(MultipleTypes(buildpackDir))
  }

  /** The number of kind markers in the buildpack's directory. */
  function Markers(hasCargoToml: bool, hasBinFiles: bool): nat {
    (if hasCargoToml then 1 else 0) + (if hasBinFiles then 1 else 0)
  }

  /** A buildpack has a type exactly when its directory carries no marker
      (composite) or exactly one (component). */
  lemma TypedIffOneMarker(d: Descriptor, hasCargoToml: bool, hasBinFiles: bool, buildpackDir: string)
    ensures var typed := BuildpackTypeOf(d, hasCargoToml, hasBinFiles, buildpackDir).Success?;
      typed <==> Markers(hasCargoToml, hasBinFiles) == if d.CompositeDescriptor? then 0 else 1
  {
    var r := BuildpackTypeOf(d, hasCargoToml, hasBinFiles, buildpackDir);
    if r.Success? {
      assert r.value == Composite || r.value == Libcnb || r.value == Bash;
    }
  }

  // --------------------------------------------------------- output directory

  /** Where libcnb's packaging puts a buildpack: the package directory, the
      target's directory name, the release profile, and the buildpack id
      (turned into a directory name by libcnb). */
  datatype PackagedDir = PackagedDir(packageDir: string, targetDirName: string, buildpackId: string)

  /** `target_output_dir`: Bash buildpacks are put under the target's name,
      the others under its Rust triple, which the target must have. */
  function TargetOutputDir(id: string, btype: BuildpackType, packageDir: string, t: Target): (r: Result<PackagedDir, MatrixError>)
    ensures r.Success? <==> btype == Bash || RustTriple(t).Success?
    ensures r.Failure? ==> r.error == UnknownRustTarget(t)
    ensures r.Success? ==> r.value.packageDir == packageDir && r.value.buildpackId == id
    ensures r.Success? && btype == Bash ==> r.value.targetDirName == TargetName(t)
    ensures r.Success? && btype != Bash ==> TripleTarget(r.value.targetDirName) == Some((t.os.value, t.arch.value))
  {
    var dirName :-
      match btype
      case Bash => Success(TargetName(t))
      case _ => RustTriple(t);
    RustTripleNamesPlatform(t);
    Success(PackagedDir(packageDir, dirName, id))
  }

  // --------------------------------------------------------- buildpack info

  /** `Path::join` with a relative file name: a `/` goes between the two
      unless the directory is empty or already ends in one. */
  function JoinPath(dir: string, file: string): (r: string)
    ensures |r| >= |dir| + |file| && r[..|dir|] == dir && r[|r| - |file|..] == file
    ensures |r| == |dir| + |file| <==> dir == "" || dir[|dir| - 1] == '/'
    ensures |r| == |dir| + |file| + 1 ==> r[|dir|] == '/'
  {
    if dir == "" || dir[|dir| - 1] == '/' then dir + file else dir + "/" + file
  }

  /** A target's entry in the matrix; the packaged `.cnb` file is named by
      libcnb after the buildpack id and `cnbSuffix`. */
  datatype TargetInfo = TargetInfo(
    os: Option<string>,
    arch: Option<string>,
    rustTriple: Option<string>,
    cnbSuffix: Option<string>,
    stableTag: string,
    temporaryTag: string,
    outputDir: PackagedDir)

  /** A buildpack's entry in the matrix. */
  datatype BuildpackInfo = BuildpackInfo(
    buildpackId: string,
    buildpackVersion: string,
    buildpackType: BuildpackType,
    buildpackDir: string,
    targets: seq<TargetInfo>,
    imageRepository: string,
    stableTag: string,
    temporaryTag: string)

  /** The suffix of a target among the buildpack's targets: its name, but
      only when there is more than one target. */
  function Suffix(targets: seq<Target>, t: Target): (r: Option<string>)
    ensures r.Some? <==> |targets| > 1
    ensures r.Some? ==> r.value == TargetName(t)
  {
    if |targets| > 1 then Some(TargetName(t)) else None
  }

  /** The matrix entry of one target. */
  function ReadTargetInfo(id: string, btype: BuildpackType, packageDir: string, repo: string, version: SemVer.Version,
                          temporaryId: string, suffix: Option<string>, t: Target): (r: Result<TargetInfo, MatrixError>)
    ensures r.Success? <==> TargetOutputDir(id, btype, packageDir, t).Success?
    ensures r.Failure? ==> r.error == UnknownRustTarget(t)
    ensures r.Success? ==> && r.value.os == t.os && r.value.arch == t.arch
                           && r.value.rustTriple == (if RustTriple(t).Success? then Some(RustTriple(t).value) else None)
                           && r.value.cnbSuffix == suffix
                           && r.value.stableTag == StableTag(repo, version, suffix)
                           && r.value.temporaryTag == TemporaryTag(repo, temporaryId, suffix)
                           && r.value.outputDir == TargetOutputDir(id, btype, packageDir, t).value
  {
    var outputDir :- TargetOutputDir(id, btype, packageDir, t);
    var triple := match RustTriple(t) case Success(x) => Some(x) case Failure(_) => None;
    Success(TargetInfo(t.os, t.arch, triple, suffix, StableTag(repo, version, suffix),
                       TemporaryTag(repo, temporaryId, suffix), outputDir))
  }

  /** The matrix entries of the targets, in order; the first target that
      fails stops the reading. */
  function ReadTargetInfos(id: string, btype: BuildpackType, packageDir: string, repo: string, version: SemVer.Version,
                           temporaryId: string, all: seq<Target>, targets: seq<Target>): (r: Result<seq<TargetInfo>, MatrixError>)
    ensures r.Success? <==> forall i :: 0 <= i < |targets| ==> TargetOutputDir(id, btype, packageDir, targets[i]).Success?
    ensures r.Success? ==> |r.value| == |targets|
    ensures r.Success? ==> forall i :: 0 <= i < |targets| ==>
      ReadTargetInfo(id, btype, packageDir, repo, version, temporaryId, Suffix(all, targets[i]), targets[i]) == Success(r.value[i])
    ensures r.Failure? ==> exists i :: && 0 <= i < |targets| && r.error == UnknownRustTarget(targets[i])
                                       && TargetOutputDir(id, btype, packageDir, targets[i]).Failure?
                                       && forall j :: 0 <= j < i ==> TargetOutputDir(id, btype, packageDir, targets[j]).Success?
  {
    var results := TargetResults(id, btype, packageDir, repo, version, temporaryId, all, targets);
    var r := Collect(results);
    if r.Failure? then
      var i :| 0 <= i < |results| && results[i] == Failure(r.error) && forall j :: 0 <= j < i ==> results[j].Success?;
      assert ReadTargetInfo(id, btype, packageDir, repo, version, temporaryId, Suffix(all, targets[i]), targets[i]).Failure?;
      assert forall j :: 0 <= j < i ==>
        ReadTargetInfo(id, btype, packageDir, repo, version, temporaryId, Suffix(all, targets[j]), targets[j]).Success?;
      r
    else r
  }

  /** The entry of each target, or its error. */
  function TargetResults(id: string, btype: BuildpackType, packageDir: string, repo: string, version: SemVer.Version,
                         temporaryId: string, all: seq<Target>, targets: seq<Target>): (r: seq<Result<TargetInfo, MatrixError>>)
    ensures |r| == |targets|
    ensures forall i :: 0 <= i < |targets| ==>
      r[i] == ReadTargetInfo(id, btype, packageDir, repo, version, temporaryId, Suffix(all, targets[i]), targets[i])
  {
    seq(|targets|, i requires 0 <= i < |targets| =>
      ReadTargetInfo(id, btype, packageDir, repo, version, temporaryId, Suffix(all, targets[i]), targets[i]))
  }

  /** `read_buildpack_info`: the missing image repository is reported first,
      then a buildpack whose type cannot be told, then the first target
      without an output directory. */
  function ReadBuildpackInfo(d: Descriptor, id: string, version: SemVer.Version, imageRepository: Option<string>,
                             buildpackDir: string, hasCargoToml: bool, hasBinFiles: bool,
                             packageDir: string, temporaryId: string): (r: Result<BuildpackInfo, MatrixError>)
    ensures imageRepository.None? ==> r == Failure(MissingImageRepositoryMetadata(JoinPath(buildpackDir, "buildpack.toml")))
    ensures imageRepository.Some? && BuildpackTypeOf(d, hasCargoToml, hasBinFiles, buildpackDir).Failure? ==>
              r == Failure(BuildpackTypeOf(d, hasCargoToml, hasBinFiles, buildpackDir).error)
    ensures r.Success? <==> && imageRepository.Some?
                            && BuildpackTypeOf(d, hasCargoToml, hasBinFiles, buildpackDir).Success?
                            && (BuildpackTypeOf(d, hasCargoToml, hasBinFiles, buildpackDir).value == Bash
                                || forall t :: t in ReadBuildpackTargets(d) ==> RustTriple(t).Success?)
    ensures imageRepository.Some? && BuildpackTypeOf(d, hasCargoToml, hasBinFiles, buildpackDir).Success? && r.Failure? ==>
      var btype, targets := BuildpackTypeOf(d, hasCargoToml, hasBinFiles, buildpackDir).value, ReadBuildpackTargets(d);
      exists i :: && 0 <= i < |targets| && r.error == UnknownRustTarget(targets[i])
                  && btype != Bash && RustTriple(targets[i]).Failure?
                  && forall j :: 0 <= j < i ==> RustTriple(targets[j]).Success?
    ensures r.Success? ==> var targets := ReadBuildpackTargets(d);
      && r.value.buildpackId == id && r.value.buildpackDir == buildpackDir
      && r.value.buildpackType == BuildpackTypeOf(d, hasCargoToml, hasBinFiles, buildpackDir).value
      && r.value.imageRepository == imageRepository.value
      && r.value.buildpackVersion == SemVer.ToString(version)
      && r.value.stableTag == StableTag(imageRepository.value, version, None)
      && r.value.temporaryTag == TemporaryTag(imageRepository.value, temporaryId, None)
      && |r.value.targets| == |targets|
      && forall i :: 0 <= i < |targets| ==>
           && r.value.targets[i].os == targets[i].os && r.value.targets[i].arch == targets[i].arch
           && r.value.targets[i].cnbSuffix == Suffix(targets, targets[i])
           && r.value.targets[i].stableTag == StableTag(imageRepository.value, version, Suffix(targets, targets[i]))
           && r.value.targets[i].temporaryTag == TemporaryTag(imageRepository.value, temporaryId, Suffix(targets, targets[i]))
           && r.value.targets[i].rustTriple == (if RustTriple(targets[i]).Success? then Some(RustTriple(targets[i]).value) else None)
           && TargetOutputDir(id, r.value.buildpackType, packageDir, targets[i]) == Success(r.value.targets[i].outputDir)
  {
    if imageRepository.None? then Failure(MissingImageRepositoryMetadata(JoinPath(buildpackDir, "buildpack.toml")))
    else
      var repo := imageRepository.value;
      var targets := ReadBuildpackTargets(d);
      var btype :- BuildpackTypeOf(d, hasCargoToml, hasBinFiles, buildpackDir);
      var infos :- ReadTargetInfos(id, btype, packageDir, repo, version, temporaryId, targets, targets);
      Success(BuildpackInfo(id, SemVer.ToString(version), btype, buildpackDir, infos, repo,
                            StableTag(repo, version, None), TemporaryTag(repo, temporaryId, None)))
  }

  /** With a single target, the target's tags are the buildpack's tags. */
  lemma SingleTargetTagsAreBuildpackTags(d: Descriptor, id: string, version: SemVer.Version, imageRepository: Option<string>,
                                         buildpackDir: string, hasCargoToml: bool, hasBinFiles: bool,
                                         packageDir: string, temporaryId: string)
    requires |ReadBuildpackTargets(d)| == 1
    requires ReadBuildpackInfo(d, id, version, imageRepository, buildpackDir, hasCargoToml, hasBinFiles, packageDir, temporaryId).Success?
    ensures var info := ReadBuildpackInfo(d, id, version, imageRepository, buildpackDir, hasCargoToml, hasBinFiles, packageDir, temporaryId).value;
      && |info.targets| == 1
      && info.targets[0].stableTag == info.stableTag
      && info.targets[0].temporaryTag == info.temporaryTag
      && info.targets[0].cnbSuffix.None?
  {
  }

  /** With several targets, targets with different names get different tags. */
  lemma DistinctTargetsDistinctTags(d: Descriptor, id: string, version: SemVer.Version, imageRepository: Option<string>,
                                    buildpackDir: string, hasCargoToml: bool, hasBinFiles: bool,
                                    packageDir: string, temporaryId: string, i: nat, j: nat)
    requires var targets := ReadBuildpackTargets(d);
      i < |targets| && j < |targets| && TargetName(targets[i]) != TargetName(targets[j])
    requires ReadBuildpackInfo(d, id, version, imageRepository, buildpackDir, hasCargoToml, hasBinFiles, packageDir, temporaryId).Success?
    ensures var info := ReadBuildpackInfo(d, id, version, imageRepository, buildpackDir, hasCargoToml, hasBinFiles, packageDir, temporaryId).value;
      && info.targets[i].stableTag != info.targets[j].stableTag
      && info.targets[i].temporaryTag != info.targets[j].temporaryTag
  {
    var targets := ReadBuildpackTargets(d);
    var repo := imageRepository.value;
    var si, sj := Suffix(targets, targets[i]), Suffix(targets, targets[j]);
    assert si != sj;
    if StableTag(repo, version, si) == StableTag(repo, version, sj) {
      GenerateTagSuffixInjective(repo, SemVer.ToString(version), si, sj);
    }
    if TemporaryTag(repo, temporaryId, si) == TemporaryTag(repo, temporaryId, sj) {
      GenerateTagSuffixInjective(repo, "_" + temporaryId, si, sj);
    }
  }

  /** A buildpack that declares no targets is built for the default target
      alone, under any type: with no suffix, for the amd64 Rust triple, and
      with the buildpack's own tags. */
  lemma UndeclaredTargetsUseDefault(d: Descriptor, id: string, version: SemVer.Version, repo: string,
                                    buildpackDir: string, hasCargoToml: bool, hasBinFiles: bool,
                                    packageDir: string, temporaryId: string)
    requires d.ComponentDescriptor? ==> d.targets == []
    requires d.CompositeDescriptor? ==> d.metadataTargets.GetOr([]) == []
    requires BuildpackTypeOf(d, hasCargoToml, hasBinFiles, buildpackDir).Success?
    ensures var r := ReadBuildpackInfo(d, id, version, Some(repo), buildpackDir, hasCargoToml, hasBinFiles, packageDir, temporaryId);
      && r.Success? && |r.value.targets| == 1
      && r.value.targets[0].os == Some("linux") && r.value.targets[0].arch == Some("amd64")
      && r.value.targets[0].cnbSuffix.None?
      && r.value.targets[0].rustTriple == Some(AmdTriple)
      && r.value.targets[0].stableTag == r.value.stableTag == StableTag(repo, version, None)
      && r.value.targets[0].temporaryTag == r.value.temporaryTag == TemporaryTag(repo, temporaryId, None)
  {
    DefaultTargetNamed();
    assert ReadBuildpackTargets(d) == [DefaultTarget];
  }
}

=== FILE: ordered_map.dfy ===
/** An insertion-ordered map with the semantics of `indexmap::IndexMap`:
    entries iterate in the order their keys were first inserted, and
    inserting an existing key replaces its value in place. Keys are strings,
    as in the release map the tooling keeps. */
module OrderedMap {
  import opened Wrappers

  function Keys<V>(m: seq<(string, V)>): (ks: seq<string>)
    ensures |ks| == |m|
    ensures forall i :: 0 <= i < |m| ==> ks[i] == m[i].0
  {
    seq(|m|, i requires 0 <= i < |m| => m[i].0)
  }

  function Values<V>(m: seq<(string, V)>): (vs: seq<V>)
    ensures |vs| == |m|
    ensures forall i :: 0 <= i < |m| ==> vs[i] == m[i].1
  {
    seq(|m|, i requires 0 <= i < |m| => m[i].1)
  }

  /** No key occurs twice. */
  predicate UniqueKeys<V>(m: seq<(string, V)>) {
    forall i, j :: 0 <= i < j < |m| ==> m[i].0 != m[j].0
  }

  /** The position of the entry for `k`, if any. */
  function IndexOf<V>(m: seq<(string, V)>, k: string): (r: Option<nat>)
    ensures r.Some? ==> r.value < |m| && m[r.value].0 == k
    ensures r.Some? ==> forall j :: 0 <= j < r.value ==> m[j].0 != k
    ensures r.None? ==> forall j :: 0 <= j < |m| ==> m[j].0 != k
  {
    if |m| == 0 then None
    else if m[0].0 == k then Some(0)
    else match IndexOf(m[1..], k)
      case None => None
      case Some(i) => Some(i + 1)
  }

  /** `IndexMap::get`. */
  function Get<V>(m: seq<(string, V)>, k: string): (r: Option<V>)
    ensures r.Some? <==> k in Keys(m)
    ensures r.Some? ==> exists i :: 0 <= i < |m| && m[i] == (k, r.value)
  {
    match IndexOf(m, k)
    case None => None
    case Some(i) => Some(m[i].1)
  }

  /** In a map with unique keys, every entry is what `Get` finds for its key. */
  lemma GetEntry<V>(m: seq<(string, V)>, i: nat)
    requires UniqueKeys(m) && i < |m|
    ensures Get(m, m[i].0) == Some(m[i].1)
  {
  }

  /** `IndexMap::insert`: an existing key keeps its position and takes the new
      value; a new key is appended at the end. */
  function Insert<V>(m: seq<(string, V)>, k: string, v: V): (r: seq<(string, V)>)
    ensures UniqueKeys(m) ==> UniqueKeys(r)
    ensures Get(r, k) == Some(v)
    ensures forall k' :: k' != k ==> Get(r, k') == Get(m, k')
    ensures k in Keys(m) ==> Keys(r) == Keys(m)
    ensures k !in Keys(m) ==> Keys(r) == Keys(m) + [k]
    ensures k !in Keys(m) ==> r == m + [(k, v)]
    ensures forall i :: 0 <= i < |r| ==> r[i] == (k, v) || r[i] in m
  {
    match IndexOf(m, k)
    case Some(i) =>
      var r := m[i := (k, v)];
      assert Keys(r) == Keys(m);
      assert IndexOf(r, k) == Some(i) by { IndexOfAfterUpdate(m, i, k, v); }
      assert forall k' :: k' != k ==> Get(r, k') == Get(m, k') by {
        forall k' | k' != k ensures Get(r, k') == Get(m, k') {
          IndexOfOtherKey(m, i, k, v, k');
        }
      }
      r
    case None =>
      var r := m + [(k, v)];
      assert Keys(r) == Keys(m) + [k];
      assert forall k' :: k' != k ==> Get(r, k') == Get(m, k') by {
        forall k' | k' != k ensures Get(r, k') == Get(m, k') {
          IndexOfAppend(m, k, v, k');
        }
      }
      IndexOfAppend(m, k, v, k);
      r
  }

  lemma {:induction false} IndexOfAfterUpdate<V>(m: seq<(string, V)>, i: nat, k: string, v: V)
    requires IndexOf(m, k) == Some(i)
    ensures IndexOf(m[i := (k, v)], k) == Some(i)
  {
    if i > 0 {
      assert m[i := (k, v)][1..] == m[1..][i - 1 := (k, v)];
      IndexOfAfterUpdate(m[1..], i - 1, k, v);
    }
  }

  lemma {:induction false} IndexOfOtherKey<V>(m: seq<(string, V)>, i: nat, k: string, v: V, k': string)
    requires i < |m| && m[i].0 == k && k' != k
    ensures IndexOf(m[i := (k, v)], k') == IndexOf(m, k')
  {
    if m[0].0 != k' && i > 0 {
      assert m[i := (k, v)][1..] == m[1..][i - 1 := (k, v)];
      IndexOfOtherKey(m[1..], i - 1, k, v, k');
    }
  }

  lemma {:induction false} IndexOfAppend<V>(m: seq<(string, V)>, k: string, v: V, k': string)
    requires k !in Keys(m)
    ensures IndexOf(m + [(k, v)], k') == if k' == k then Some(|m|) else IndexOf(m, k')
  {
    if |m| > 0 {
      assert (m + [(k, v)])[1..] == m[1..] + [(k, v)];
      assert k !in Keys(m[1..]);
      IndexOfAppend(m[1..], k, v, k');
    }
  }

  /** Inserting every entry of `entries`, in order, into `m`. */
  function InsertAll<V>(m: seq<(string, V)>, entries: seq<(string, V)>): (r: seq<(string, V)>)
    decreases |entries|
  {
    if |entries| == 0 then m
    else InsertAll(Insert(m, entries[0].0, entries[0].1), entries[1..])
  }

  /** The keys of `ks` that are not among `present`, in order. */
  function KeysNotIn(ks: seq<string>, present: seq<string>): (r: seq<string>)
    ensures forall k :: k in r <==> k in ks && k !in present
    decreases |ks|
  {
    if ks == [] then []
    else (if ks[0] in present then [] else [ks[0]]) + KeysNotIn(ks[1..], present)
  }

  lemma KeysNotInIgnoresAbsent(ks: seq<string>, present: seq<string>, k: string)
    requires k !in ks
    ensures KeysNotIn(ks, present + [k]) == KeysNotIn(ks, present)
    decreases |ks|
  {
    if ks != [] {
      KeysNotInIgnoresAbsent(ks[1..], present, k);
    }
  }

  lemma GetCons<V>(m: seq<(string, V)>, k: string)
    requires |m| > 0
    ensures Get(m, k) == if m[0].0 == k then Some(m[0].1) else Get(m[1..], k)
  {
  }

  lemma {:induction false} InsertAllUnique<V>(m: seq<(string, V)>, entries: seq<(string, V)>)
    requires UniqueKeys(m)
    ensures UniqueKeys(InsertAll(m, entries))
    decreases |entries|
  {
    if |entries| > 0 {
      InsertAllUnique(Insert(m, entries[0].0, entries[0].1), entries[1..]);
    }
  }

  lemma KeysNotInCons<V>(entries: seq<(string, V)>, present: seq<string>)
    requires |entries| > 0
    ensures KeysNotIn(Keys(entries), present)
         == (if entries[0].0 in present then [] else [entries[0].0]) + KeysNotIn(Keys(entries[1..]), present)
  {
    assert Keys(entries)[1..] == Keys(entries[1..]);
  }

  /** Inserting a map with unique keys into another: the keys already
      present keep their positions and the new ones follow in their order. */
  lemma {:induction false} InsertAllKeys<V>(m: seq<(string, V)>, entries: seq<(string, V)>)
    requires UniqueKeys(entries)
    ensures Keys(InsertAll(m, entries)) == Keys(m) + KeysNotIn(Keys(entries), Keys(m))
    decreases |entries|
  {
    if |entries| == 0 {
      assert Keys(m) + [] == Keys(m);
    } else {
      var m' := Insert(m, entries[0].0, entries[0].1);
      assert UniqueKeys(entries[1..]);
      InsertAllKeys(m', entries[1..]);
      InsertAllKeysStep(m, entries);
    }
  }

  /** One insertion, as the induction step of `InsertAllKeys`. */
  lemma InsertAllKeysStep<V>(m: seq<(string, V)>, entries: seq<(string, V)>)
    requires UniqueKeys(entries) && |entries| > 0
    ensures var m' := Insert(m, entries[0].0, entries[0].1);
      Keys(m') + KeysNotIn(Keys(entries[1..]), Keys(m')) == Keys(m) + KeysNotIn(Keys(entries), Keys(m))
  {
    KeysNotInCons(entries, Keys(m));
    HeadKeyNotInTail(entries);
    KeysStep(Keys(m), entries[0].0, Keys(entries[1..]));
  }

  /** `InsertAllKeysStep` over the key sequences alone. */
  lemma KeysStep(present: seq<string>, k: string, rest: seq<string>)
    requires k !in rest
    ensures var present' := if k in present then present else present + [k];
      present' + KeysNotIn(rest, present') == present + ((if k in present then [] else [k]) + KeysNotIn(rest, present))
  {
    if k !in present {
      KeysNotInIgnoresAbsent(rest, present, k);
      AppendRegroup(present, k, KeysNotIn(rest, present));
    }
  }

  /** With unique keys, the first key does not come back later, and the
      later entries have unique keys too. */
  lemma HeadKeyNotInTail<V>(entries: seq<(string, V)>)
    requires UniqueKeys(entries) && |entries| > 0
    ensures entries[0].0 !in Keys(entries[1..]) && UniqueKeys(entries[1..])
  {
    forall j | 0 <= j < |entries| - 1 ensures Keys(entries[1..])[j] != entries[0].0 {
      assert Keys(entries[1..])[j] == entries[j + 1].0;
    }
  }

  lemma AppendRegroup(a: seq<string>, k: string, b: seq<string>)
    ensures (a + [k]) + b == a + ([k] + b)
  {
  }

  /** Every key of `entries` takes its value from `entries`; the other keys
      keep theirs. */
  lemma {:induction false} InsertAllGet<V>(m: seq<(string, V)>, entries: seq<(string, V)>, k: string)
    requires UniqueKeys(entries)
    ensures Get(InsertAll(m, entries), k) == if k in Keys(entries) then Get(entries, k) else Get(m, k)
    decreases |entries|
  {
    if |entries| > 0 {
      HeadKeyNotInTail(entries);
      InsertAllGet(Insert(m, entries[0].0, entries[0].1), entries[1..], k);
      InsertAllGetStep(m, entries, k);
    }
  }

  /** One insertion, as the induction step of `InsertAllGet`. */
  lemma InsertAllGetStep<V>(m: seq<(string, V)>, entries: seq<(string, V)>, k: string)
    requires UniqueKeys(entries) && |entries| > 0
    ensures var m', rest := Insert(m, entries[0].0, entries[0].1), entries[1..];
      (if k in Keys(rest) then Get(rest, k) else Get(m', k)) == (if k in Keys(entries) then Get(entries, k) else Get(m, k))
  {
    var k0, rest := entries[0].0, entries[1..];
    assert Keys(entries) == [k0] + Keys(rest);
    GetCons(entries, k);
    if k in Keys(rest) {
      HeadKeyNotInTail(entries);
    }
  }

  /** Inserting entries whose keys are all new appends them in order. */
  lemma {:induction false} InsertAllFresh<V>(m: seq<(string, V)>, entries: seq<(string, V)>)
    requires UniqueKeys(m + entries)
    ensures InsertAll(m, entries) == m + entries
    decreases |entries|
  {
    if |entries| == 0 {
      assert m + entries == m;
    } else {
      var e := entries[0];
      assert e.0 !in Keys(m) by {
        assert (m + entries)[|m|] == e;
        forall i | 0 <= i < |m| ensures Keys(m)[i] != e.0 {
          assert (m + entries)[i] == m[i];
        }
      }
      assert Insert(m, e.0, e.1) == m + [e];
      assert (m + [e]) + entries[1..] == m + entries;
      InsertAllFresh(m + [e], entries[1..]);
    }
  }

  /** A map inserted after a single first entry: that entry stays first
      (with its value unless the map has its key), the rest follow in order. */
  lemma InsertAllAfterOne<V>(first: seq<(string, V)>, entries: seq<(string, V)>)
    requires |first| == 1 && UniqueKeys(entries)
    ensures var r := InsertAll(first, entries);
      && UniqueKeys(r)
      && Keys(r) == [first[0].0] + KeysNotIn(Keys(entries), [first[0].0])
      && (forall k :: k in Keys(entries) ==> Get(r, k) == Get(entries, k))
      && (first[0].0 !in Keys(entries) ==> r == first + entries)
  {
    var r := InsertAll(first, entries);
    InsertAllUnique(first, entries);
    InsertAllKeys(first, entries);
    assert Keys(first) == [first[0].0];
    forall k | k in Keys(entries) ensures Get(r, k) == Get(entries, k) {
      InsertAllGet(first, entries, k);
    }
    if first[0].0 !in Keys(entries) {
      UniqueAfterOne(first, entries);
      InsertAllFresh(first, entries);
    }
  }

  lemma UniqueAfterOne<V>(first: seq<(string, V)>, entries: seq<(string, V)>)
    requires |first| == 1 && UniqueKeys(entries) && first[0].0 !in Keys(entries)
    ensures UniqueKeys(first + entries)
  {
    var all := first + entries;
    forall i, j | 0 <= i < j < |all| ensures all[i].0 != all[j].0 {
      if i > 0 {
        assert all[i] == entries[i - 1];
      }
      assert all[j] == entries[j - 1];
    }
  }
}

=== FILE: prepare_release.dfy ===
/** Preparing a release: checking that every buildpack has the same
    version, computing the next version, and turning a changelog's
    unreleased changes (plus the updated dependencies) into the entry of the
    new release. */
module PrepareRelease {
  import opened Wrappers
  import opened Text
  import SemVer
  import opened Calendar
  import opened Changelogs
  import opened Sorting
  import OrderedMap
  import ChangelogRoundTrip

  type Version = SemVer.Version

  // ---------------------------------------------------------------- the bump

  /** Which component of the version to increase. */
  datatype BumpCoordinate = Major | Minor | Patch

  /** `w` is beyond `v` in the components down to the bumped one. */
  predicate Beyond(v: Version, w: Version, bump: BumpCoordinate) {
    match bump
    case Major => w.major > v.major
    case Minor => w.major > v.major || (w.major == v.major && w.minor > v.minor)
    case Patch => SemVer.Less(v, w)
  }

  /** `get_next_version`: the bumped component goes up by one and the ones
      below it go back to zero, which makes the result the least version
      beyond the current one in the components down to the bumped one. */
  function NextVersion(v: Version, bump: BumpCoordinate): (r: Version)
    ensures Beyond(v, r, bump) && SemVer.Less(v, r)
    ensures forall w :: Beyond(v, w, bump) ==> SemVer.LessEq(r, w)
  {
    match bump
    case Major => SemVer.Version(v.major + 1, 0, 0)
    case Minor => SemVer.Version(v.major, v.minor + 1, 0)
    case Patch => SemVer.Version(v.major, v.minor, v.patch + 1)
  }

  // ------------------------------------------------------ the fixed version

  /** The errors of `get_fixed_version`: reading a buildpack's version
      failed, or the buildpacks do not share one version (with the versions
      read). The source's `NoFixedVersion` cannot arise. */
  datatype FixedVersionError<E> =
    | ReadFailed(error: E)
    | NotAllVersionsMatch(versions: seq<Version>)
    | NoFixedVersion

  /** The distinct renderings of the versions. */
  function Renderings(vs: seq<Version>): set<string> {
    set i | 0 <= i < |vs| :: SemVer.ToString(vs[i])
  }

  /** `get_fixed_version`, over the results of reading each buildpack's
      version: the version all of them share, provided every read succeeds
      and the versions, as text, form a set of exactly one element. */
  function FixedVersion<E>(results: seq<Result<Version, E>>): (r: Result<Version, FixedVersionError<E>>)
    ensures r.Success? <==> && |results| > 0
                            && (forall i :: 0 <= i < |results| ==> results[i].Success?)
                            && (forall i :: 0 <= i < |results| ==> results[i].value == results[0].value)
    ensures r.Success? ==> forall i :: 0 <= i < |results| ==> results[i] == Success(r.value)
    ensures r.Failure? ==> !r.error.NoFixedVersion?
    ensures r.Failure? && r.error.ReadFailed? ==> exists i :: 0 <= i < |results| && results[i] == Failure(r.error.error)
  {
    match Collect(results)
    case Failure(e) => Failure(ReadFailed(e))
    case Success(vs) =>
      SingleRendering(vs);
      if |Renderings(vs)| != 1 then Failure(NotAllVersionsMatch(vs))
      else Success(vs[0])
  }

  /** The versions render to exactly one text exactly when there is at
      least one and they are all equal. */
  lemma SingleRendering(vs: seq<Version>)
    ensures |Renderings(vs)| == 1 <==> |vs| > 0 && forall i :: 0 <= i < |vs| ==> vs[i] == vs[0]
  {
    var rs := Renderings(vs);
    if |vs| > 0 && forall i :: 0 <= i < |vs| ==> vs[i] == vs[0] {
      assert rs == {SemVer.ToString(vs[0])};
    }
    if |rs| == 1 {
      assert SemVer.ToString(vs[0]) in rs;
      forall i | 0 <= i < |vs| ensures vs[i] == vs[0] {
        assert SemVer.ToString(vs[i]) in rs;
        OneElement(rs, SemVer.ToString(vs[0]), SemVer.ToString(vs[i]));
        SemVer.ToStringInjective(vs[i], vs[0]);
      }
    }
  }

  lemma OneElement(s: set<string>, a: string, b: string)
    requires |s| == 1 && a in s && b in s
    ensures a == b
  {
    assert s - {a} == {} by {
      assert |s - {a}| == |s| - 1 == 0;
    }
    assert b in s - {a} || b == a;
  }

  // ------------------------------------------------ the dependency changes

  /** The line announcing that dependency `id` was updated to `version`. */
  function DependencyLine(version: Version, id: string): string {
    "- Updated `" + id + "` to `" + SemVer.ToString(version) + "`."
  }

  /** The lines for the updated dependencies, sorted. The identifiers come
      from a hash set, so `ids` is in whatever order the set gave them. */
  function DependencyLines(version: Version, ids: seq<string>): (r: seq<string>)
    ensures |r| == |ids|
    ensures SortedBy(r, s => s)
    ensures multiset(r) == multiset(Map(ids, id => DependencyLine(version, id)))
  {
    SortBy(Map(ids, id => DependencyLine(version, id)), s => s)
  }

  /** The text of the updated dependencies, absent when there are none. */
  function DependencyText(version: Version, ids: seq<string>): (r: Option<string>)
    ensures r.None? <==> ids == []
  {
    if ids == [] then None else Some(Join(DependencyLines(version, ids), "\n"))
  }

  /** The order in which the set gives the identifiers does not matter. */
  lemma DependencyTextOrderFree(version: Version, ids: seq<string>, ids': seq<string>)
    requires multiset(ids) == multiset(ids')
    ensures DependencyText(version, ids) == DependencyText(version, ids')
  {
    var f := id => DependencyLine(version, id);
    MapPermutation(ids, ids', f);
    SortByPermutationInvariant(Map(ids, f), Map(ids', f), s => s);
    if ids == [] {
      assert |ids'| == |multiset(ids')| == 0;
    }
  }

  // ------------------------------------------------------------- the merge

  /** A piece of the body after a `### ` that starts with `Changed` gets
      the dependency lines appended; the other pieces are kept. */
  function MergePiece(piece: string, dependencies: string): string {
    if StartsWith(piece, "Changed") then TrimEnd(piece) + "\n" + dependencies + "\n\n" else piece
  }

  function MergePieces(pieces: seq<string>, dependencies: string): (r: seq<string>)
    ensures |r| == |pieces| && forall i :: 0 <= i < |pieces| ==> r[i] == MergePiece(pieces[i], dependencies)
  {
    seq(|pieces|, i requires 0 <= i < |pieces| => MergePiece(pieces[i], dependencies))
  }

  /** `merge_existing_changelog_entries_with_dependency_changes`: with a
      `### Changed` section the dependency lines go at its end; without one
      a new section is added at the end of the body. */
  function MergeDependencyChanges(entries: string, dependencies: string): (r: string)
    ensures Contains(r, dependencies)
    ensures Contains(entries, "### Changed") && !Contains(dependencies, "### ") ==>
      Split(r, "### ") == MergePieces(Split(entries, "### "), dependencies)
    ensures !Contains(entries, "### Changed") ==> r == TrimEnd(entries) + "\n\n### Changed\n\n" + dependencies
  {
    if Contains(entries, "### Changed") then
      MergeKeepsDependencies(entries, dependencies);
      if !Contains(dependencies, "### ") then
        MergeSplitsIntoPieces(entries, dependencies);
        MergeChangedSections(entries, dependencies)
      else
        MergeChangedSections(entries, dependencies)
    else
      ContainsMiddle(TrimEnd(entries) + "\n\n### Changed\n\n", dependencies, "");
      assert TrimEnd(entries) + "\n\n### Changed\n\n" + dependencies + "" == TrimEnd(entries) + "\n\n### Changed\n\n" + dependencies;
      TrimEnd(entries) + "\n\n### Changed\n\n" + dependencies
  }

  /** The body cut at every `### `, each piece merged, joined back. */
  function MergeChangedSections(entries: string, dependencies: string): string {
    Join(MergePieces(Split(entries, "### "), dependencies), "### ")
  }

  lemma HeadingMarkerNoSelfOverlap()
    ensures NoSelfOverlap("### ")
  {
    var sep := "### ";
    forall b | 0 < b < |sep| ensures !OccursAt(sep, sep[b..], 0) {
      assert sep[b..][|sep[b..]| - 1] == ' ';
      assert sep[..|sep| - b][|sep| - b - 1] == '#';
    }
  }

  /** A body with a `### Changed` section, merged piece by piece, holds
      the dependency lines. */
  lemma MergeKeepsDependencies(entries: string, dependencies: string)
    requires Contains(entries, "### Changed")
    ensures Contains(MergeChangedSections(entries, dependencies), dependencies)
  {
    var i := Find(entries, "### Changed").value;
    HeadingMarkerNoSelfOverlap();
    assert "### Changed" == "### " + "Changed";
    var pieces := Split(entries, "### ");
    var k := SplitPieceAfterOccurrence(entries, "### ", "Changed", i);
    var merged := MergePieces(pieces, dependencies);
    JoinContains(merged, "### ", k);
    ContainsMiddle(TrimEnd(pieces[k]) + "\n", dependencies, "\n\n");
    ContainsTransitive(Join(merged, "### "), merged[k], dependencies);
  }

  /** The merged piece of a section holds no `### ` marker when neither the
      piece nor the dependency text does. */
  lemma MergePieceFree(piece: string, dependencies: string)
    requires !Contains(piece, "### ") && !Contains(dependencies, "### ")
    ensures !Contains(MergePiece(piece, dependencies), "### ")
  {
    if StartsWith(piece, "Changed") {
      var x := TrimEnd(piece);
      PrefixFree(piece, |x|, "### ");
      assert !Contains("", "### ") by {
        MissingFirstChar("", "### ");
      }
      CharSeparatesOccurrences(x, '\n', dependencies, "### ");
      CharSeparatesOccurrences(x + "\n" + dependencies, '\n', "", "### ");
      CharSeparatesOccurrences(x + "\n" + dependencies + "\n" + "", '\n', "", "### ");
      assert MergePiece(piece, dependencies) == x + "\n" + dependencies + "\n" + "" + "\n" + "";
    }
  }

  /** With a `### Changed` section, and a dependency text free of `### `,
      the merged body consists of the same `### ` sections as the original,
      in the same order: each one starting with `Changed` now ends with the
      dependency lines, and every other one is unchanged. */
  lemma MergeSplitsIntoPieces(entries: string, dependencies: string)
    requires Contains(entries, "### Changed") && !Contains(dependencies, "### ")
    ensures Split(MergeChangedSections(entries, dependencies), "### ")
         == MergePieces(Split(entries, "### "), dependencies)
  {
    var pieces := Split(entries, "### ");
    var merged := MergePieces(pieces, dependencies);
    SplitPiecesFree(entries, "### ");
    forall k | 0 <= k < |merged| ensures !Contains(merged[k], "### ") {
      MergePieceFree(pieces[k], dependencies);
    }
    HeadingMarkerNoSelfOverlap();
    SplitJoinFree(merged, "### ");
  }

  /** A line for an identifier without `#` (or without a line break) has
      none either: the rest of the line is fixed text, digits and dots. */
  lemma LineLacks(version: Version, id: string, ch: char)
    requires ch !in id && (ch == '#' || ch == '\n')
    ensures ch !in DependencyLine(version, id)
  {
    var a, b, c := NatToString(version.major), NatToString(version.minor), NatToString(version.patch);
    assert AllDigits(a) && AllDigits(b) && AllDigits(c);
    assert ch !in SemVer.ToString(version) by {
      assert SemVer.ToString(version) == a + "." + b + "." + c;
    }
  }

  /** Dependency identifiers without `#` give a dependency text free of
      `### `, which is what `MergeSplitsIntoPieces` needs to keep the
      section structure of the body. */
  lemma DependencyTextHasNoMarker(version: Version, ids: seq<string>)
    requires ids != [] && forall k :: 0 <= k < |ids| ==> '#' !in ids[k]
    ensures !Contains(DependencyText(version, ids).value, "### ")
  {
    var mapped := Map(ids, id => DependencyLine(version, id));
    var lines := DependencyLines(version, ids);
    forall k | 0 <= k < |lines| ensures '#' !in lines[k] {
      assert lines[k] in multiset(mapped);
      var j :| 0 <= j < |mapped| && mapped[j] == lines[k];
      LineLacks(version, ids[j], '#');
    }
    CharNotInJoin(lines, "\n", '#');
    MissingFirstChar(Join(lines, "\n"), "### ");
  }

  /** Identifiers without line breaks give a dependency text whose lines
      are exactly the sorted dependency lines. */
  lemma DependencyTextLines(version: Version, ids: seq<string>)
    requires ids != [] && forall k :: 0 <= k < |ids| ==> '\n' !in ids[k]
    ensures Split(DependencyText(version, ids).value, "\n") == DependencyLines(version, ids)
  {
    var mapped := Map(ids, id => DependencyLine(version, id));
    var lines := DependencyLines(version, ids);
    forall k | 0 <= k < |lines| ensures "\n"[0] !in lines[k] {
      assert lines[k] in multiset(mapped);
      var j :| 0 <= j < |mapped| && mapped[j] == lines[k];
      LineLacks(version, ids[j], '\n');
    }
    SplitJoin(lines, "\n");
  }

  // --------------------------------------------------------- the promotion

  /** The body of the new release entry. */
  function PromotedBody(unreleased: Option<string>, dependencies: Option<string>): (r: string)
    ensures dependencies.Some? ==> Contains(r, dependencies.value)
    ensures dependencies.Some? && unreleased.None? ==> r == "### Changed\n\n" + dependencies.value
    ensures dependencies.Some? && unreleased.Some? && !Contains(unreleased.value, "### Changed") ==>
      r == TrimEnd(unreleased.value) + "\n\n### Changed\n\n" + dependencies.value
    ensures dependencies.Some? && unreleased.Some? && Contains(unreleased.value, "### Changed")
            && !Contains(dependencies.value, "### ") ==>
      Split(r, "### ") == MergePieces(Split(unreleased.value, "### "), dependencies.value)
    ensures dependencies.None? && unreleased.Some? ==> r == unreleased.value
    ensures dependencies.None? && unreleased.None? ==> r == "- No changes."
  {
    match (unreleased, dependencies)
    case (Some(changes), Some(deps)) => MergeDependencyChanges(changes, deps)
    case (Some(changes), None) => changes
    case (None, Some(deps)) =>
      ContainsMiddle("### Changed\n\n", deps, "");
      assert "### Changed\n\n" + deps + "" == "### Changed\n\n" + deps;
      "### Changed\n\n" + deps
    case (None, None) => "- No changes."
  }

  /** `promote_changelog_unreleased_to_version`: the unreleased changes
      become the entry of `version`, which goes first; the earlier releases
      follow in their order. Should `version` already have an entry, the
      earlier entry stays, in first position. */
  function Promote(c: Changelog, version: Version, date: ValidDate, ids: seq<string>): (r: Changelog)
    requires OrderedMap.UniqueKeys(c.releases)
    ensures r.unreleased.None?
    ensures OrderedMap.UniqueKeys(r.releases)
    ensures var key := SemVer.ToString(version);
      OrderedMap.Keys(r.releases) == [key] + OrderedMap.KeysNotIn(OrderedMap.Keys(c.releases), [key])
    ensures forall k :: k in OrderedMap.Keys(c.releases) ==> OrderedMap.Get(r.releases, k) == OrderedMap.Get(c.releases, k)
    ensures var key := SemVer.ToString(version);
      key !in OrderedMap.Keys(c.releases) ==>
        r.releases == [(key, ReleaseEntry(version, date, PromotedBody(c.unreleased, DependencyText(version, ids))))] + c.releases
  {
    var body := PromotedBody(c.unreleased, DependencyText(version, ids));
    var key := SemVer.ToString(version);
    var first := [(key, ReleaseEntry(version, date, body))];
    OrderedMap.InsertAllAfterOne(first, c.releases);
    Changelog(None, OrderedMap.InsertAll(first, c.releases))
  }

  /** What is written for a new version: every body of the promoted
      changelog is non-blank and, once trimmed, canonical, so the text is
      laid out section by section with the trimmed bodies, the new entry
      right after the empty `Unreleased` section. */
  lemma PromoteWritten(c: Changelog, version: Version, date: ValidDate, ids: seq<string>)
    requires Canonical(c) && SemVer.InRange(version) && date.year <= 9999
    requires SemVer.ToString(version) !in OrderedMap.Keys(c.releases)
    ensures ChangelogRoundTrip.CanonicalUpToTrim(Promote(c, version, date, ids))
    ensures var r := Promote(c, version, date, ids);
      Render(r) == Preamble + ChangelogRoundTrip.PartsText(ChangelogRoundTrip.Parts(ChangelogRoundTrip.TrimBodies(r))) + "\n"
  {
    var key := SemVer.ToString(version);
    var body := PromotedBody(c.unreleased, DependencyText(version, ids));
    PromotedBodyNotBlank(c.unreleased, version, ids);
    TrimEmptyIffBlank(body);
    ChangelogRoundTrip.ConsUpToTrim(c, key, ReleaseEntry(version, date, body));
    ChangelogRoundTrip.RenderTrimmedAsParts(Promote(c, version, date, ids));
  }

  lemma PromotedBodyNotBlank(u: Option<string>, version: Version, ids: seq<string>)
    requires u.Some? ==> u.value != "" && IsTrimmed(u.value)
    ensures !IsBlank(PromotedBody(u, DependencyText(version, ids)))
  {
    var body := PromotedBody(u, DependencyText(version, ids));
    if ids != [] {
      DependencyTextNotBlank(version, ids);
      ContainsNonBlank(body, DependencyText(version, ids).value);
    } else if u.Some? {
      assert body[0] == u.value[0];
    } else {
      assert body[0] == '-';
    }
  }

  /** The dependency text is never blank: its lines are list items. */
  lemma DependencyTextNotBlank(version: Version, ids: seq<string>)
    requires ids != []
    ensures !IsBlank(DependencyText(version, ids).value)
  {
    var mapped := Map(ids, id => DependencyLine(version, id));
    var lines := DependencyLines(version, ids);
    assert lines[0] in multiset(mapped);
    var j :| 0 <= j < |mapped| && mapped[j] == lines[0];
    assert lines[0][0] == '-';
    JoinContains(lines, "\n", 0);
    ContainsNonBlank(DependencyText(version, ids).value, lines[0]);
  }
}

=== FILE: registry.dfy ===
/** Checking the buildpack registry: where a buildpack's index file lives in
    the registry's index repository, how the file is read (one JSON entry
    per non-blank line), and whether a version of the buildpack is
    registered. Reading an entry from JSON is a parameter of the model. */
module Registry {
  import opened Wrappers
  import opened Text
  import SemVer
  import Sorting

  /** One line of a registry index file. */
  datatype RegistryEntry = RegistryEntry(ns: string, name: string, version: string, yanked: bool, addr: string)

  // ------------------------------------------------------ namespace and name

  /** `get_namespace_and_name`: the first two `/`-separated parts of a
      buildpack id; an id without `/` is an error carrying the id, and
      parts after the second are ignored. */
  function NamespaceAndName(id: string): (r: Result<(string, string), string>)
    ensures r.Success? <==> '/' in id
    ensures r.Success? ==> '/' !in r.value.0 && '/' !in r.value.1
    ensures r.Success? ==> StartsWith(id, r.value.0 + "/" + r.value.1)
    ensures r.Failure? ==> r.error == id
  {
    SplitIdParts(id);
    var parts := Split(id, "/");
    if |parts| >= 2 then Success((parts[0], parts[1])) else Failure(id)
  }

  /** The pieces of an id split on `/`: free of `/`, and there are two or
      more exactly when the id has a `/`; the text starts with the first two
      joined by `/`. */
  lemma SplitIdParts(id: string)
    ensures var parts := Split(id, "/");
      && (|parts| >= 2 <==> '/' in id)
      && (forall k :: 0 <= k < |parts| ==> '/' !in parts[k])
      && (|parts| >= 2 ==> StartsWith(id, parts[0] + "/" + parts[1]))
  {
    var parts := Split(id, "/");
    SplitPiecesFree(id, "/");
    forall k | 0 <= k < |parts| ensures '/' !in parts[k] {
      ContainsChar(parts[k], '/');
    }
    ContainsChar(id, '/');
    SplitManyPieces(id, "/");
    if |parts| >= 2 {
      JoinSplit(id, "/");
      JoinStartsWithFirstTwo(parts, "/");
    }
  }

  /** An id written as namespace, `/`, name (and possibly more parts) gives
      back its namespace and name. */
  lemma NamespaceAndNameOfId(namespace: string, name: string, more: Option<string>)
    requires '/' !in namespace && '/' !in name
    ensures var id := if more.Some? then namespace + "/" + name + "/" + more.value else namespace + "/" + name;
      NamespaceAndName(id) == Success((namespace, name))
  {
    if more.Some? {
      var rest := name + "/" + more.value;
      assert namespace + "/" + name + "/" + more.value == namespace + "/" + rest;
      SplitAtFirst(namespace, "/", rest);
      SplitAtFirst(name, "/", more.value);
    } else {
      SplitAtFirst(namespace, "/", name);
      FreeNotContains(name, '/');
      SplitWithoutSeparator(name, "/");
    }
  }

  // -------------------------------------------------------------- index path

  /** The directories of the index file: the length for names of one to
      three characters (then, for three, the first two characters), and the
      first two and next two characters for longer names. */
  function ShardDirs(name: string): (r: seq<string>)
    requires |name| >= 1
    ensures |r| == if |name| <= 2 then 1 else 2
    ensures |name| <= 3 ==> r[0] == NatToString(|name|)
    ensures |name| == 3 ==> r[1] == name[..2]
    ensures |name| >= 4 ==> |r[0]| == 2 && r[0] + r[1] == name[..4]
  {
    match |name|
    case 1 => ["1"]
    case 2 => ["2"]
    case 3 => ["3", name[0..2]]
    case _ => [name[0..2], name[2..4]]
  }

  /** `get_index_path`, as its path components: the shard directories, then
      the file named after namespace and name. */
  function IndexPath(namespace: string, name: string): (r: seq<string>)
    requires |name| >= 1
    ensures |r| == if |name| <= 2 then 2 else 3
    ensures r[|r| - 1] == namespace + "_" + name
    ensures r[..|r| - 1] == ShardDirs(name)
  {
    ShardDirs(name) + [namespace + "_" + name]
  }

  /** Reading a namespace and name back from an index path: the file name
      is split at its first `_`, and the directories must be the shards of
      the name found. */
  function ParseIndexPath(path: seq<string>): (r: Option<(string, string)>)
    ensures r.Some? ==> '_' !in r.value.0 && |r.value.1| >= 1 && IndexPath(r.value.0, r.value.1) == path
  {
    if |path| < 2 then None
    else
      var file := path[|path| - 1];
      match Find(file, "_")
      case None => None
      case Some(i) =>
        FreeBeforeFirst(file, '_', i);
        var namespace, name := file[..i], file[i + 1..];
        if |name| >= 1 && path[..|path| - 1] == ShardDirs(name) then
          assert file == namespace + "_" + name;
          assert path == path[..|path| - 1] + [file];
          Some((namespace, name))
        else None
  }

  /** The index path names its buildpack: with a namespace free of `_` (no
      buildpack id has one), the namespace and name are read back from it. */
  lemma IndexPathRoundTrip(namespace: string, name: string)
    requires '_' !in namespace && |name| >= 1
    ensures ParseIndexPath(IndexPath(namespace, name)) == Some((namespace, name))
  {
    var path := IndexPath(namespace, name);
    var file := namespace + "_" + name;
    assert file == namespace + ['_'] + name;
    FindCharAfterFree(namespace, '_', name);
    assert file[..|namespace|] == namespace;
    assert file[|namespace| + 1..] == name;
  }

  /** Two buildpacks never share an index file. */
  lemma IndexPathInjective(ns1: string, name1: string, ns2: string, name2: string)
    requires '_' !in ns1 && '_' !in ns2 && |name1| >= 1 && |name2| >= 1
    requires IndexPath(ns1, name1) == IndexPath(ns2, name2)
    ensures ns1 == ns2 && name1 == name2
  {
    IndexPathRoundTrip(ns1, name1);
    IndexPathRoundTrip(ns2, name2);
  }

  /** The index paths of names of one and two characters, written with `/`. */
  lemma IndexPathShortExamples()
    ensures Join(IndexPath("heroku", "z"), "/") == "1/heroku_z"
    ensures Join(IndexPath("heroku", "go"), "/") == "2/heroku_go"
  {
    assert "heroku" + "_" + "z" == "heroku_z";
    assert "heroku" + "_" + "go" == "heroku_go";
  }

  /** The index path of a name of three characters, written with `/`. */
  lemma IndexPathThreeExample()
    ensures Join(IndexPath("heroku", "php"), "/") == "3/ph/heroku_php"
  {
    var three := "php";
    assert |three| == 3 && three[..2] == "ph";
    var p := IndexPath("heroku", three);
    assert p[0] == "3" && p[1] == three[..2];
    assert p[2] == "heroku" + "_" + three == "heroku_php";
    assert p == ["3", "ph", "heroku_php"];
    JoinThree("3", "ph", "heroku_php", "/");
    assert "3" + "/" + "ph" + "/" + "heroku_php" == "3/ph/heroku_php";
  }

  /** The index path of a longer name, written with `/`. */
  lemma IndexPathLongExample()
    ensures Join(IndexPath("heroku", "scala"), "/") == "sc/al/heroku_scala"
  {
    var five := "scala";
    assert |five| == 5 && five[..2] == "sc" && five[2..4] == "al";
    var p := IndexPath("heroku", five);
    assert p[0] + p[1] == five[..4] && |p[0]| == 2;
    assert p[0] == five[..4][..2] && p[1] == five[..4][2..];
    assert p[2] == "heroku" + "_" + five == "heroku_scala";
    assert p == ["sc", "al", "heroku_scala"];
    JoinThree("sc", "al", "heroku_scala", "/");
    assert "sc" + "/" + "al" + "/" + "heroku_scala" == "sc/al/heroku_scala";
  }

  lemma JoinThree(a: string, b: string, c: string, sep: string)
    ensures Join([a, b, c], sep) == a + sep + b + sep + c
  {
    assert [a, b, c][1..] == [b, c];
    assert [b, c][1..] == [c];
    assert Join([b, c], sep) == b + sep + c;
    assert a + sep + (b + sep + c) == a + sep + b + sep + c;
  }

  // ------------------------------------------------------------- index file

  /** A line that holds something besides whitespace. */
  predicate NonBlankLine(line: string) {
    Trim(line) != ""
  }

  /** The lines that are not blank, in order (`filter(!line.trim().is_empty())`). */
  function KeepNonBlank(lines: seq<string>): (r: seq<string>)
    ensures |r| <= |lines|
  {
    Sorting.Filter(lines, NonBlankLine)
  }

  /** The lines kept are exactly the lines that are not blank. */
  lemma KeepNonBlankMembers(lines: seq<string>)
    ensures forall x :: x in KeepNonBlank(lines) <==> x in lines && !IsBlank(x)
  {
    Sorting.FilterMembers(lines, NonBlankLine);
    forall x | x in lines {
      TrimEmptyIffBlank(x);
    }
  }

  /** The lines of an index file that hold entries. */
  function EntryLines(contents: string): seq<string> {
    KeepNonBlank(Split(contents, "\n"))
  }

  /** `parse_registry_index`: every non-blank line decoded in order, or the
      error of the first line that does not decode. */
  function ParseRegistryIndex<E>(contents: string, decode: string -> Result<RegistryEntry, E>): (r: Result<seq<RegistryEntry>, E>)
    ensures var lines := EntryLines(contents);
      r.Success? <==> forall i :: 0 <= i < |lines| ==> decode(lines[i]).Success?
    ensures var lines := EntryLines(contents);
      r.Success? ==> |r.value| == |lines| && forall i :: 0 <= i < |lines| ==> decode(lines[i]) == Success(r.value[i])
    ensures var lines := EntryLines(contents);
      r.Failure? ==> exists i :: 0 <= i < |lines| && decode(lines[i]) == Failure(r.error)
                                 && forall j :: 0 <= j < i ==> decode(lines[j]).Success?
  {
    DecodeLines(EntryLines(contents), decode)
  }

  /** Decoding lines one by one and collecting the results. */
  function DecodeLines<E>(lines: seq<string>, decode: string -> Result<RegistryEntry, E>): (r: Result<seq<RegistryEntry>, E>)
    ensures r.Success? <==> forall i :: 0 <= i < |lines| ==> decode(lines[i]).Success?
    ensures r.Success? ==> |r.value| == |lines| && forall i :: 0 <= i < |lines| ==> decode(lines[i]) == Success(r.value[i])
    ensures r.Failure? ==> exists i :: 0 <= i < |lines| && decode(lines[i]) == Failure(r.error)
                                       && forall j :: 0 <= j < i ==> decode(lines[j]).Success?
  {
    var decoded := Sorting.Map(lines, decode);
    assert forall i :: 0 <= i < |lines| ==> decoded[i] == decode(lines[i]);
    Collect(decoded)
  }

  /** Lines free of newlines, as a text split into lines gives them. */
  predicate SingleLines(lines: seq<string>) {
    forall k :: 0 <= k < |lines| ==> '\n' !in lines[k]
  }

  /** An index file written as lines joined by newlines has, as entry
      lines, those lines that are not blank. */
  lemma EntryLinesOfLines(lines: seq<string>)
    requires SingleLines(lines)
    ensures EntryLines(Join(lines, "\n")) == KeepNonBlank(lines)
  {
    if lines == [] {
      assert Split("", "\n") == [""];
      TrimEmptyIffBlank("");
      Sorting.FilterSingle("", NonBlankLine);
    } else {
      SplitJoin(lines, "\n");
    }
  }

  /** Dropping a blank line from a list of lines keeps the same non-blank lines. */
  lemma BlankLineSkipped(before: seq<string>, blank: string, after: seq<string>)
    requires IsBlank(blank)
    ensures KeepNonBlank(before + [blank] + after) == KeepNonBlank(before + after)
  {
    TrimEmptyIffBlank(blank);
    Sorting.FilterSkips(before, blank, after, NonBlankLine);
  }

  lemma SingleLinesAround(before: seq<string>, line: string, after: seq<string>)
    requires SingleLines(before) && '\n' !in line && SingleLines(after)
    ensures SingleLines(before + [line] + after) && SingleLines(before + after)
  {
    var with, without := before + [line] + after, before + after;
    forall k | 0 <= k < |with| ensures '\n' !in with[k] {
      if k > |before| {
        assert with[k] == after[k - |before| - 1];
      }
    }
    forall k | 0 <= k < |without| ensures '\n' !in without[k] {
      if k >= |before| {
        assert without[k] == after[k - |before|];
      }
    }
  }

  /** A blank line anywhere in an index file changes nothing. */
  lemma BlankLineIgnored<E>(before: seq<string>, blank: string, after: seq<string>, decode: string -> Result<RegistryEntry, E>)
    requires IsBlank(blank) && '\n' !in blank && SingleLines(before) && SingleLines(after)
    ensures ParseRegistryIndex(Join(before + [blank] + after, "\n"), decode) == ParseRegistryIndex(Join(before + after, "\n"), decode)
  {
    SingleLinesAround(before, blank, after);
    EntryLinesOfLines(before + [blank] + after);
    EntryLinesOfLines(before + after);
    BlankLineSkipped(before, blank, after);
  }

  // ------------------------------------------------------------ registration

  /** Some entry has the version, as text. */
  function AnyHasVersion(entries: seq<RegistryEntry>, version: string): (r: bool)
    ensures r <==> exists i :: 0 <= i < |entries| && entries[i].version == version
  {
    if entries == [] then false
    else entries[0].version == version || AnyHasVersion(entries[1..], version)
  }

  /** Whether the version of the buildpack is registered, given the
      contents of its index file (`None` when the file does not exist): the
      error of the first undecodable line, or whether an entry has the
      version. Yanked entries count. */
  function IsRegistered<E>(index: Option<string>, decode: string -> Result<RegistryEntry, E>, version: SemVer.Version): (r: Result<bool, E>)
    ensures index.None? ==> r == Success(false)
    ensures index.Some? ==> var lines := EntryLines(index.value);
      r == Success(true) <==> && (forall i :: 0 <= i < |lines| ==> decode(lines[i]).Success?)
                               && exists i :: 0 <= i < |lines| && decode(lines[i]).value.version == SemVer.ToString(version)
    ensures r.Failure? ==> index.Some? && exists line :: line in EntryLines(index.value) && decode(line) == Failure(r.error)
  {
    match index
    case None => Success(false)
    case Some(contents) =>
      var entries :- ParseRegistryIndex(contents, decode);
      Success(AnyHasVersion(entries, SemVer.ToString(version)))
  }

  /** Two decoders that agree on every line except, perhaps, the yanked flag
      of an entry. */
  ghost predicate DifferInYankedOnly<E>(decode: string -> Result<RegistryEntry, E>, decode': string -> Result<RegistryEntry, E>) {
    forall line :: || (decode(line).Failure? && decode'(line) == decode(line))
                   || (&& decode(line).Success? && decode'(line).Success?
                       && decode'(line).value == decode(line).value.(yanked := decode'(line).value.yanked))
  }

  /** Decoding the same lines with such decoders fails with the same error
      or gives entries with the same versions. */
  lemma {:induction false} DecodeIgnoringYanked<E>(lines: seq<string>, decode: string -> Result<RegistryEntry, E>,
                                                   decode': string -> Result<RegistryEntry, E>)
    requires DifferInYankedOnly(decode, decode')
    ensures var r, r' := DecodeLines(lines, decode), DecodeLines(lines, decode');
      && (r.Failure? <==> r'.Failure?)
      && (r.Failure? ==> r'.error == r.error)
      && (r.Success? ==> |r.value| == |r'.value| && forall i :: 0 <= i < |r.value| ==> r.value[i].version == r'.value[i].version)
  {
    var m, m' := Sorting.Map(lines, decode), Sorting.Map(lines, decode');
    assert DecodeLines(lines, decode) == Collect(m) && DecodeLines(lines, decode') == Collect(m');
    if lines != [] {
      assert m[1..] == Sorting.Map(lines[1..], decode);
      assert m'[1..] == Sorting.Map(lines[1..], decode');
      DecodeIgnoringYanked(lines[1..], decode, decode');
    }
  }

  /** Entries with the same versions, position by position, have the same versions. */
  lemma SameVersions(es: seq<RegistryEntry>, es': seq<RegistryEntry>, v: string)
    requires |es| == |es'| && forall i :: 0 <= i < |es| ==> es[i].version == es'[i].version
    ensures AnyHasVersion(es, v) == AnyHasVersion(es', v)
  {
    if AnyHasVersion(es, v) {
      var i :| 0 <= i < |es| && es[i].version == v;
      assert es'[i].version == v;
    }
    if AnyHasVersion(es', v) {
      var i :| 0 <= i < |es'| && es'[i].version == v;
      assert es[i].version == v;
    }
  }

  /** Whether a version is registered does not depend on the entries'
      yanked flags. */
  lemma RegisteredIgnoresYanked<E>(index: Option<string>, decode: string -> Result<RegistryEntry, E>,
                                   decode': string -> Result<RegistryEntry, E>, version: SemVer.Version)
    requires DifferInYankedOnly(decode, decode')
    ensures IsRegistered(index, decode, version) == IsRegistered(index, decode', version)
  {
    if index.Some? {
      var lines := EntryLines(index.value);
      DecodeIgnoringYanked(lines, decode, decode');
      var r, r' := DecodeLines(lines, decode), DecodeLines(lines, decode');
      assert ParseRegistryIndex(index.value, decode) == r && ParseRegistryIndex(index.value, decode') == r';
      if r.Success? {
        SameVersions(r.value, r'.value, SemVer.ToString(version));
      }
    }
  }
}

=== FILE: roundtrip.dfy ===
/** Writing a changelog and reading the text back gives the same changelog.
    The Markdown tree of the written text is not computed here (the parser is
    a library); the theorem holds for every tree laid out over the text in
    the shape such a text has: nodes for the preamble that open no section,
    then for each section a level-2 heading whose plain text is the
    bracketed heading line, followed by nodes that reach from the start of
    the section's body to its end and hold neither a level-1 or level-2
    heading nor a link definition. The writer emits no link definitions,
    so the brackets stay literal text. Section by section, the heading read
    back gives the release's version and date and the body gives its
    changes; the document theorem strings these together in the written
    order. */
module ChangelogRoundTrip {
  import opened Wrappers
  import opened Text
  import opened SemVer
  import opened Calendar
  import opened Markdown
  import opened Sections
  import opened Heading
  import opened Changelogs
  import OrderedMap

  // ------------------------------------------------------- the written text

  /** A section as written: `## [name]suffix`, then the body if any. */
  datatype Part = Part(name: string, suffix: string, body: string)

  function PartText(p: Part): string {
    "\n\n## " + HeadingLine(p.name, p.suffix) + (if p.body == "" then "" else "\n\n" + p.body)
  }

  function PartsText(ps: seq<Part>): string {
    Concat(PartTexts(ps))
  }

  function PartTexts(ps: seq<Part>): (ts: seq<string>)
    ensures |ts| == |ps| && forall i :: 0 <= i < |ps| ==> ts[i] == PartText(ps[i])
  {
    seq(|ps|, i requires 0 <= i < |ps| => PartText(ps[i]))
  }

  function UnreleasedAsPart(u: Option<string>): Part {
    Part("Unreleased", "", if u.Some? then u.value else "")
  }

  function ReleaseAsPart(e: ReleaseEntry): Part {
    Part(SemVer.ToString(e.version), " - " + Format(e.date), e.body)
  }

  function ReleaseParts(rs: Releases): (ps: seq<Part>)
    ensures |ps| == |rs| && forall i :: 0 <= i < |rs| ==> ps[i] == ReleaseAsPart(rs[i].1)
  {
    seq(|rs|, i requires 0 <= i < |rs| => ReleaseAsPart(rs[i].1))
  }

  /** The sections of a changelog, unreleased changes first. */
  function Parts(c: Changelog): (ps: seq<Part>)
    ensures |ps| == |c.releases| + 1
  {
    [UnreleasedAsPart(c.unreleased)] + ReleaseParts(c.releases)
  }

  lemma PartsTextConcat(a: seq<Part>, b: seq<Part>)
    ensures PartsText(a + b) == PartsText(a) + PartsText(b)
  {
    assert PartTexts(a + b) == PartTexts(a) + PartTexts(b);
    ConcatAppend(PartTexts(a), PartTexts(b));
  }

  lemma PartsTextSingle(p: Part)
    ensures PartsText([p]) == PartText(p)
  {
    assert PartTexts([p]) == [PartText(p)];
    ConcatSingle(PartText(p));
  }

  /** A written release entry is the section of its part. */
  lemma ReleasesPartText(rs: Releases)
    requires forall i :: 0 <= i < |rs| ==> IsTrimmed(rs[i].1.body)
    ensures ReleasesPart(rs) == PartsText(ReleaseParts(rs))
  {
    forall i | 0 <= i < |rs| ensures ReleasePart(rs[i].1) == PartText(ReleaseAsPart(rs[i].1)) {
      ReleasePartIsPartText(rs[i].1);
    }
    assert seq(|rs|, i requires 0 <= i < |rs| => ReleasePart(rs[i].1)) == PartTexts(ReleaseParts(rs));
  }

  lemma ReleasePartIsPartText(e: ReleaseEntry)
    requires IsTrimmed(e.body)
    ensures ReleasePart(e) == PartText(ReleaseAsPart(e))
  {
    TrimOfTrimmed(e.body);
  }

  lemma UnreleasedPartIsPartText(u: Option<string>)
    requires u.Some? ==> u.value != "" && IsTrimmed(u.value)
    ensures UnreleasedPart(u) == PartText(UnreleasedAsPart(u))
  {
    if u.Some? {
      TrimOfTrimmed(u.value);
    }
  }

  /** The written text is the preamble, the sections, and a line break. */
  lemma RenderAsParts(c: Changelog)
    requires Canonical(c)
    ensures Render(c) == Preamble + PartsText(Parts(c)) + "\n"
  {
    assert forall i :: 0 <= i < |c.releases| ==> IsTrimmed(c.releases[i].1.body) by {
      forall i | 0 <= i < |c.releases| ensures IsTrimmed(c.releases[i].1.body) {
        assert CanonicalEntry(c.releases[i].0, c.releases[i].1);
      }
    }
    var u := UnreleasedAsPart(c.unreleased);
    var rs := ReleaseParts(c.releases);
    ReleasesPartText(c.releases);
    UnreleasedPartIsPartText(c.unreleased);
    PartsTextConcat([u], rs);
    PartsTextSingle(u);
    assert PartsText(Parts(c)) == UnreleasedPart(c.unreleased) + ReleasesPart(c.releases);
  }

  /** The changelog as its text shows it: every body trimmed. */
  function TrimBodies(c: Changelog): (r: Changelog)
    ensures |r.releases| == |c.releases|
  {
    Changelog(if c.unreleased.Some? then Some(Trim(c.unreleased.value)) else None, TrimReleases(c.releases))
  }

  function TrimEntry(p: (string, ReleaseEntry)): (string, ReleaseEntry) {
    (p.0, p.1.(body := Trim(p.1.body)))
  }

  function TrimReleases(rs: Releases): (ts: Releases)
    ensures |ts| == |rs| && forall i :: 0 <= i < |rs| ==> ts[i] == TrimEntry(rs[i])
  {
    if rs == [] then [] else [TrimEntry(rs[0])] + TrimReleases(rs[1..])
  }

  /** Canonical once the bodies are trimmed, with no body that trimming
      empties: a body of whitespace alone is still written with the blank
      line that goes before a body. */
  predicate CanonicalUpToTrim(c: Changelog) {
    && Canonical(TrimBodies(c))
    && forall i :: 0 <= i < |c.releases| ==> EmptyIfTrimmedEmpty(c.releases[i].1.body)
  }

  /** Trimming empties the body only when it is empty already. */
  predicate EmptyIfTrimmedEmpty(body: string) {
    body == "" <==> Trim(body) == ""
  }

  /** Writing trims every body, so a changelog that is canonical up to the
      trimming of its bodies is written exactly as its trimmed form is. */
  lemma RenderTrimmedAsParts(c: Changelog)
    requires CanonicalUpToTrim(c)
    ensures Render(c) == Preamble + PartsText(Parts(TrimBodies(c))) + "\n"
  {
    RenderTrimsBodies(c);
    RenderAsParts(TrimBodies(c));
  }

  lemma RenderTrimsBodies(c: Changelog)
    requires forall i :: 0 <= i < |c.releases| ==> EmptyIfTrimmedEmpty(c.releases[i].1.body)
    ensures Render(TrimBodies(c)) == Render(c)
  {
    var t := TrimBodies(c);
    UnreleasedPartTrimmed(c.unreleased, t.unreleased);
    ReleasesPartTrimmed(c.releases, t.releases);
  }

  lemma UnreleasedPartTrimmed(u: Option<string>, t: Option<string>)
    requires t == if u.Some? then Some(Trim(u.value)) else None
    ensures UnreleasedPart(t) == UnreleasedPart(u)
  {
    if u.Some? {
      TrimIdempotent(u.value);
    }
  }

  lemma ReleasesPartTrimmed(rs: Releases, ts: Releases)
    requires forall i :: 0 <= i < |rs| ==> EmptyIfTrimmedEmpty(rs[i].1.body)
    requires |ts| == |rs| && forall i :: 0 <= i < |rs| ==> ts[i].1 == rs[i].1.(body := Trim(rs[i].1.body))
    ensures ReleasesPart(ts) == ReleasesPart(rs)
  {
    forall i | 0 <= i < |rs| ensures ReleasePart(ts[i].1) == ReleasePart(rs[i].1) {
      ReleasePartTrimmed(rs[i].1);
    }
    assert seq(|ts|, i requires 0 <= i < |ts| => ReleasePart(ts[i].1))
        == seq(|rs|, i requires 0 <= i < |rs| => ReleasePart(rs[i].1));
  }

  lemma ReleasePartTrimmed(e: ReleaseEntry)
    requires EmptyIfTrimmedEmpty(e.body)
    ensures ReleasePart(e.(body := Trim(e.body))) == ReleasePart(e)
  {
    TrimIdempotent(e.body);
  }

  /** A canonical changelog is its own trimmed form. */
  lemma CanonicalIsTrimmed(c: Changelog)
    requires Canonical(c)
    ensures TrimBodies(c) == c && CanonicalUpToTrim(c)
  {
    if c.unreleased.Some? {
      TrimOfTrimmed(c.unreleased.value);
    }
    forall i | 0 <= i < |c.releases| ensures Trim(c.releases[i].1.body) == c.releases[i].1.body {
      assert CanonicalEntry(c.releases[i].0, c.releases[i].1);
      TrimOfTrimmed(c.releases[i].1.body);
    }
    assert TrimReleases(c.releases) == c.releases;
  }

  /** A canonical changelog without unreleased changes, with one more
      entry in front whose body may still need trimming, is canonical up to
      that trimming. */
  lemma ConsUpToTrim(c: Changelog, key: string, e: ReleaseEntry)
    requires Canonical(c) && key !in OrderedMap.Keys(c.releases)
    requires key == SemVer.ToString(e.version) && InRange(e.version) && e.date.year <= 9999
    requires EmptyIfTrimmedEmpty(e.body)
    ensures CanonicalUpToTrim(Changelog(None, [(key, e)] + c.releases))
  {
    var d := Changelog(None, [(key, e)] + c.releases);
    var e' := e.(body := Trim(e.body));
    CanonicalIsTrimmed(c);
    TrimCons(c.releases, key, e);
    assert TrimBodies(d) == Changelog(None, [(key, e')] + c.releases);
    CanonicalCons(c, key, e');
    ConsKeepsNonBlank(c.releases, key, e);
  }

  lemma ConsKeepsNonBlank(rs: Releases, key: string, e: ReleaseEntry)
    requires forall i :: 0 <= i < |rs| ==> EmptyIfTrimmedEmpty(rs[i].1.body)
    requires EmptyIfTrimmedEmpty(e.body)
    ensures var ds := [(key, e)] + rs;
      forall i :: 0 <= i < |ds| ==> EmptyIfTrimmedEmpty(ds[i].1.body)
  {
    var ds := [(key, e)] + rs;
    forall i | 0 <= i < |ds| ensures EmptyIfTrimmedEmpty(ds[i].1.body) {
      if i > 0 {
        assert ds[i] == rs[i - 1];
      }
    }
  }

  lemma TrimCons(rs: Releases, key: string, e: ReleaseEntry)
    ensures TrimReleases([(key, e)] + rs) == [TrimEntry((key, e))] + TrimReleases(rs)
  {
    assert ([(key, e)] + rs)[1..] == rs;
  }

  lemma CanonicalCons(c: Changelog, key: string, e: ReleaseEntry)
    requires Canonical(c) && key !in OrderedMap.Keys(c.releases) && CanonicalEntry(key, e)
    ensures Canonical(Changelog(None, [(key, e)] + c.releases))
  {
    var rs := [(key, e)] + c.releases;
    forall i | 0 <= i < |c.releases| ensures c.releases[i].0 != key {
      assert OrderedMap.Keys(c.releases)[i] == c.releases[i].0;
    }
    assert forall i :: 1 <= i < |rs| ==> rs[i] == c.releases[i - 1];
  }

  /** Where section `k` starts in the written text. */
  function PartStart(ps: seq<Part>, k: nat): nat
    requires k <= |ps|
  {
    |Preamble| + |PartsText(ps[..k])|
  }

  /** Where the body of section `k` starts. */
  function BodyStart(ps: seq<Part>, k: nat): nat
    requires k < |ps|
  {
    PartStart(ps, k) + 9 + |ps[k].name| + |ps[k].suffix|
  }

  lemma PartStartNext(ps: seq<Part>, k: nat)
    requires k < |ps|
    ensures PartStart(ps, k + 1) == PartStart(ps, k) + |PartText(ps[k])|
  {
    assert ps[..k + 1] == ps[..k] + [ps[k]];
    PartsTextConcat(ps[..k], [ps[k]]);
    PartsTextSingle(ps[k]);
  }

  lemma Regroup(a: string, b: string, c: string, d: string, e: string, f: string, g: string)
    ensures a + (b + (c + d) + e) + f + g == (a + b + c) + d + (e + f + g)
  {
  }

  lemma SliceOfConcat(a: string, b: string, c: string)
    ensures (a + b + c)[|a|..|a| + |b|] == b
  {
  }

  /** The body of section `k` sits at its offset in the written text. */
  lemma BodyInText(ps: seq<Part>, value: string, tail: string, k: nat)
    requires k < |ps| && ps[k].body != ""
    requires value == Preamble + PartsText(ps) + "\n" + tail
    ensures BodyStart(ps, k) + |ps[k].body| <= |value|
    ensures value[BodyStart(ps, k)..BodyStart(ps, k) + |ps[k].body|] == ps[k].body
  {
    BodyAfter(Preamble, ps, value, tail, k);
  }

  /** `BodyInText` for any text in front of the sections. */
  lemma BodyAfter(pre: string, ps: seq<Part>, value: string, tail: string, k: nat)
    requires k < |ps| && ps[k].body != ""
    requires value == pre + PartsText(ps) + "\n" + tail
    ensures var at := |pre| + |PartsText(ps[..k])| + 9 + |ps[k].name| + |ps[k].suffix|;
      at + |ps[k].body| <= |value| && value[at..at + |ps[k].body|] == ps[k].body
  {
    var p := ps[k];
    SplitAt(ps, k);
    var head := PartTextShape(p);
    SliceInside(pre, PartsText(ps[..k]), PartText(p), PartsText(ps[k + 1..]), tail, head, p.body);
  }

  /** A section's text is its heading, a blank line, and its body. */
  lemma PartTextShape(p: Part) returns (head: string)
    requires p.body != ""
    ensures PartText(p) == head + ("\n\n" + p.body) && |head| == 7 + |p.name| + |p.suffix|
  {
    head := "\n\n## " + HeadingLine(p.name, p.suffix);
    assert PartText(p) == head + ("\n\n" + p.body);
    assert |head| == 7 + |p.name| + |p.suffix|;
  }

  /** Where the body lies in `pre + (x + part + y) + "\n" + tail`. */
  lemma SliceInside(pre: string, x: string, part: string, y: string, tail: string, head: string, body: string)
    requires part == head + ("\n\n" + body)
    ensures var value := pre + (x + part + y) + "\n" + tail; var at := |pre| + |x| + |head| + 2;
      && at + |body| <= |value| && value[at..at + |body|] == body
  {
    var value := pre + (x + part + y) + "\n" + tail;
    var lead := pre + x + head + "\n\n";
    assert value == lead + body + (y + "\n" + tail);
    SliceOfConcat(lead, body, y + "\n" + tail);
  }

  /** The sections' text around section `k`. */
  lemma SplitAt(ps: seq<Part>, k: nat)
    requires k < |ps|
    ensures PartsText(ps) == PartsText(ps[..k]) + PartText(ps[k]) + PartsText(ps[k + 1..])
  {
    assert ps == ps[..k] + [ps[k]] + ps[k + 1..];
    PartsTextConcat(ps[..k] + [ps[k]], ps[k + 1..]);
    PartsTextConcat(ps[..k], [ps[k]]);
    PartsTextSingle(ps[k]);
  }

  // ------------------------------------------------- one section read back

  /** Reading back the section written for a release entry adds that entry
      under its version: the heading is no `Unreleased` heading, it matches
      the release pattern with its groups where they were written, and the
      version and the date parse back to the entry's own. */
  lemma ReleaseSectionRoundTrip(acc: Changelog, e: ReleaseEntry)
    requires InRange(e.version) && e.date.year <= 9999
    ensures ReadSection(acc, ReleaseHeading(e), e.body)
         == Success(acc.(releases := OrderedMap.Insert(acc.releases, SemVer.ToString(e.version), e)))
  {
    var h := ReleaseHeading(e);
    ReleaseHeadingNotUnreleased(e);
    var m := ReleaseHeadingMatch(e);
    ReleaseVersionReadBack(h, m, e.version);
    ReleaseDateReadBack(h, m, e.date);
  }

  /** Reading back the `Unreleased` section: its changes when there are
      any, and nothing otherwise. */
  lemma UnreleasedSectionRoundTrip(acc: Changelog, body: string)
    ensures ReadSection(acc, HeadingLine("Unreleased", ""), body)
         == Success(if body == "" then acc else acc.(unreleased := Some(body)))
  {
    var h := HeadingLine("Unreleased", "");
    assert h == "[Unreleased]";
    UnreleasedExamples();
    assert DigitRun(h, 1) == 0;
  }

  /** A release heading is longer than any spelling of `Unreleased`. */
  lemma ReleaseHeadingNotUnreleased(e: ReleaseEntry)
    ensures !IsUnreleasedHeading(ReleaseHeading(e))
  {
    var h := ReleaseHeading(e);
    assert |h| >= 20 by {
      assert |SemVer.ToString(e.version)| >= 5;
      assert |Format(e.date)| >= 10;
    }
  }

  /** The written heading matches the release pattern, with the version's
      numbers and the date's digit groups captured. */
  lemma ReleaseHeadingMatch(e: ReleaseEntry) returns (m: VersionMatch)
    requires e.date.year <= 9999
    ensures var h := ReleaseHeading(e);
      && MatchVersionHeading(h) == Some(m)
      && MajorDigits(h, m) == NatToString(e.version.major)
      && MinorDigits(h, m) == NatToString(e.version.minor)
      && PatchDigits(h, m) == NatToString(e.version.patch)
      && YearDigits(h, m) == FormatYear(e.date.year)
      && MonthDigits(h, m) == PadZeros(e.date.month, 2)
      && DayDigits(h, m) == PadZeros(e.date.day, 2)
  {
    var major, minor, patch := NatToString(e.version.major), NatToString(e.version.minor), NatToString(e.version.patch);
    var year, month, day := FormatYear(e.date.year), PadZeros(e.date.month, 2), PadZeros(e.date.day, 2);
    ReleaseHeadingParts(e);
    DecimalDigits(major);
    DecimalDigits(minor);
    DecimalDigits(patch);
    DecimalDigits(year);
    DecimalDigits(month);
    DecimalDigits(day);
    m := ReleaseHeadingCaptured(ReleaseHeading(e), major, minor, patch, year, month, day);
  }

  /** The written heading is the text built from the six digit groups. */
  lemma ReleaseHeadingParts(e: ReleaseEntry)
    requires e.date.year <= 9999
    ensures var year, month, day := FormatYear(e.date.year), PadZeros(e.date.month, 2), PadZeros(e.date.day, 2);
      && ReleaseHeading(e)
         == ReleaseHeadingText(NatToString(e.version.major), NatToString(e.version.minor),
                               NatToString(e.version.patch), year, month, day)
      && |year| == 4 && |month| == 2 && |day| == 2
  {
    var a, b, c := NatToString(e.version.major), NatToString(e.version.minor), NatToString(e.version.patch);
    var year, month, day := FormatYear(e.date.year), PadZeros(e.date.month, 2), PadZeros(e.date.day, 2);
    TwoDigits(e.date.month);
    TwoDigits(e.date.day);
    assert SemVer.ToString(e.version) == a + "." + b + "." + c;
    assert Format(e.date) == year + "-" + month + "-" + day;
    HeadingRegroup(a + "." + b + "." + c, year + "-" + month + "-" + day);
  }

  lemma HeadingRegroup(v: string, d: string)
    ensures HeadingLine(v, " - " + d) == "[" + v + "] - " + d
  {
  }

  /** A month or a day is written with two digits. */
  lemma TwoDigits(n: nat)
    requires n <= 31
    ensures |PadZeros(n, 2)| == 2
  {
    assert Pow10(2) == 100;
    NatToStringLength(n, 2);
  }

  lemma DecimalDigits(s: string)
    requires AllDigits(s)
    ensures AllDecimalDigits(s)
  {
  }

  /** The captured version numbers, the rendering of the entry's version,
      parse back to that version. */
  lemma ReleaseVersionReadBack(h: string, m: VersionMatch, v: Version)
    requires MatchVersionHeading(h) == Some(m) && InRange(v)
    requires MajorDigits(h, m) == NatToString(v.major)
    requires MinorDigits(h, m) == NatToString(v.minor)
    requires PatchDigits(h, m) == NatToString(v.patch)
    ensures ReadVersion(h, m) == Success(v)
  {
    var r := SemVer.ParseVersion(MajorDigits(h, m), MinorDigits(h, m), PatchDigits(h, m));
    assert r.Success?;
    ToStringInjective(r.value, v);
  }

  /** The captured digit groups of the rendered date read back as it. */
  lemma ReleaseDateReadBack(h: string, m: VersionMatch, d: ValidDate)
    requires MatchVersionHeading(h) == Some(m) && d.year <= 9999
    requires YearDigits(h, m) == FormatYear(d.year)
    requires MonthDigits(h, m) == PadZeros(d.month, 2)
    requires DayDigits(h, m) == PadZeros(d.day, 2)
    ensures ReadDate(h, m) == Success(d)
  {
  }

  // -------------------------------------------------- the whole document read back

  /** The heading text of a written section. */
  function PartHeading(p: Part): string {
    HeadingLine(p.name, p.suffix)
  }

  function PartHeadings(ps: seq<Part>): (hs: seq<string>)
    ensures |hs| == |ps| && forall i :: 0 <= i < |ps| ==> hs[i] == PartHeading(ps[i])
  {
    seq(|ps|, i requires 0 <= i < |ps| => PartHeading(ps[i]))
  }

  function Flatten(secs: seq<seq<Node>>): seq<Node>
    decreases |secs|
  {
    if secs == [] then [] else Flatten(secs[..|secs| - 1]) + secs[|secs| - 1]
  }

  /** The nodes of the preamble open no section. */
  predicate PreambleNodes(ns: seq<Node>) {
    forall i :: 0 <= i < |ns| ==> !IsSectionHeading(ns[i])
  }

  /** The nodes of a section named `t`: its level-2 heading, then nodes that
      neither open nor close a section nor define a link. */
  predicate OpensSection(ns: seq<Node>, t: string) {
    && |ns| >= 1 && IsSectionHeading(ns[0]) && ns[0].text == t
    && forall i :: 1 <= i < |ns| ==> IsBody(ns[i])
  }

  /** The nodes of one written section, the body's reaching from the start
      of the body (offset `at`) to its end. */
  predicate SectionNodes(ns: seq<Node>, p: Part, at: nat) {
    && OpensSection(ns, PartHeading(p))
    && if p.body == "" then |ns| == 1
       else |ns| >= 2 && ns[1].span.start == at && ns[|ns| - 1].span.end == at + |p.body|
  }

  /** A tree of the written text of `c`: the preamble's nodes, then each
      section's nodes, in the order they were written. */
  predicate WrittenTree(c: Changelog, pre: seq<Node>, secs: seq<seq<Node>>) {
    var ps := Parts(c);
    && PreambleNodes(pre) && |secs| == |ps|
    && forall k :: 0 <= k < |ps| ==> SectionNodes(secs[k], ps[k], BodyStart(ps, k))
  }

  /** `Changelog::try_from` after `Display`: reading the written text of a
      canonical changelog, through a tree of that text's shape, gives the
      changelog back. */
  lemma ParseRenderRoundTrip(c: Changelog, pre: seq<Node>, secs: seq<seq<Node>>)
    requires Canonical(c) && WrittenTree(c, pre, secs)
    requires WellFormed(pre + Flatten(secs), |Render(c)|)
    ensures ParseChangelog(Render(c), Success(Root(pre + Flatten(secs)))) == Success(c)
  {
    var value := Render(c);
    var ps := Parts(c);
    var ns := pre + Flatten(secs);
    var st := Scan(ns);
    ScanWritten(c, pre, secs);
    ScanBodiesWellFormed(ns, |value|);
    RenderAsParts(c);
    PartsTrimmed(c);
    BodiesReadBack(ps, secs, st, value);
    ReadWrittenSections(c, value, st);
  }

  /** The reader's grouping of a written tree: one section per written
      section, named by its heading and holding the nodes after it. */
  lemma ScanWritten(c: Changelog, pre: seq<Node>, secs: seq<seq<Node>>)
    requires Canonical(c) && WrittenTree(c, pre, secs)
    ensures Scanned(Scan(pre + Flatten(secs)), Parts(c), secs)
  {
    DistinctHeadings(c);
    SectionsOpen(Parts(c), secs);
    ScanParts(Parts(c), pre, secs);
  }

  lemma ScanParts(ps: seq<Part>, pre: seq<Node>, secs: seq<seq<Node>>)
    requires PreambleNodes(pre) && |secs| == |ps|
    requires forall i, j :: 0 <= i < j < |ps| ==> PartHeading(ps[i]) != PartHeading(ps[j])
    requires forall i :: 0 <= i < |ps| ==> OpensSection(secs[i], PartHeading(ps[i]))
    ensures Scanned(Scan(pre + Flatten(secs)), ps, secs)
  {
    ScanFromConcat(pre, Flatten(secs), Initial);
    ScanPreamble(pre);
    ScanSections(ps, secs, |ps|);
    assert ps[..|ps|] == ps && secs[..|secs|] == secs;
  }

  lemma SectionsOpen(ps: seq<Part>, secs: seq<seq<Node>>)
    requires |secs| == |ps| && forall k :: 0 <= k < |ps| ==> SectionNodes(secs[k], ps[k], BodyStart(ps, k))
    ensures forall k :: 0 <= k < |ps| ==> OpensSection(secs[k], PartHeading(ps[k]))
  {
  }

  /** `st` holds the sections `ps`, with the nodes `secs` after their headings. */
  ghost predicate Scanned(st: ScanState, ps: seq<Part>, secs: seq<seq<Node>>) {
    && st.headers == PartHeadings(ps) && |secs| == |ps|
    && (forall j :: 0 <= j < |ps| ==> |secs[j]| >= 1 && BodyOf(st, PartHeading(ps[j])) == secs[j][1..])
    && (forall h :: h !in PartHeadings(ps) ==> BodyOf(st, h) == [])
  }

  /** Nodes that open no section leave the reader where it started. */
  lemma {:induction false} ScanPreamble(pre: seq<Node>)
    requires PreambleNodes(pre)
    ensures ScanFrom(pre, Initial) == Initial
    decreases |pre|
  {
    if pre != [] {
      assert Step(Initial, pre[0]) == Initial;
      ScanPreamble(pre[1..]);
    }
  }

  lemma {:induction false} ScanSections(ps: seq<Part>, secs: seq<seq<Node>>, k: nat)
    requires |secs| == |ps| && k <= |ps|
    requires forall i, j :: 0 <= i < j < |ps| ==> PartHeading(ps[i]) != PartHeading(ps[j])
    requires forall i :: 0 <= i < |ps| ==> OpensSection(secs[i], PartHeading(ps[i]))
    ensures Scanned(ScanFrom(Flatten(secs[..k]), Initial), ps[..k], secs[..k])
  {
    if k > 0 {
      ScanSections(ps, secs, k - 1);
      var t := PartHeading(ps[k - 1]);
      assert ps[..k] == ps[..k - 1] + [ps[k - 1]];
      assert secs[..k] == secs[..k - 1] + [secs[k - 1]];
      assert Flatten(secs[..k]) == Flatten(secs[..k - 1]) + secs[k - 1] by {
        assert secs[..k][..k - 1] == secs[..k - 1];
      }
      ScanFromConcat(Flatten(secs[..k - 1]), secs[k - 1], Initial);
      var hs := PartHeadings(ps[..k - 1]);
      assert t !in hs by {
        forall j | 0 <= j < |hs| ensures hs[j] != t {
          assert hs[j] == PartHeading(ps[j]);
        }
      }
      ScannedSnoc(ScanFrom(Flatten(secs[..k - 1]), Initial), ps[..k - 1], secs[..k - 1], ps[k - 1], secs[k - 1]);
    }
  }

  /** One more section read: a new name, holding the nodes after its heading. */
  lemma ScannedSnoc(st: ScanState, ps: seq<Part>, secs: seq<seq<Node>>, p: Part, sec: seq<Node>)
    requires Scanned(st, ps, secs)
    requires OpensSection(sec, PartHeading(p)) && PartHeading(p) !in PartHeadings(ps)
    ensures Scanned(ScanFrom(sec, st), ps + [p], secs + [sec])
  {
    var t := PartHeading(p);
    var r := ScanFrom(sec, st);
    ScanSection(sec, st, t);
    assert PartHeadings(ps + [p]) == PartHeadings(ps) + [t];
    forall j | 0 <= j < |ps| ensures BodyOf(r, PartHeading(ps[j])) == secs[j][1..] {
      assert PartHeading(ps[j]) in PartHeadings(ps);
    }
    forall h | h !in PartHeadings(ps + [p]) ensures BodyOf(r, h) == [] {
    }
  }

  /** Reading one section's nodes: its heading names a new section, and the
      nodes after it join that section. */
  lemma ScanSection(sec: seq<Node>, st: ScanState, t: string)
    requires OpensSection(sec, t)
    ensures var r := ScanFrom(sec, st);
      && r.headers == st.headers + [t]
      && BodyOf(r, t) == BodyOf(st, t) + sec[1..]
      && forall h :: h != t ==> BodyOf(r, h) == BodyOf(st, h)
  {
    var named := Step(st, sec[0]);
    assert named == st.(headers := st.headers + [t], current := Some(t));
    ScanBodyNodes(sec[1..], named, t);
  }

  lemma {:induction false} ScanBodyNodes(body: seq<Node>, st: ScanState, t: string)
    requires st.current == Some(t) && forall i :: 0 <= i < |body| ==> IsBody(body[i])
    ensures var r := ScanFrom(body, st);
      && r.headers == st.headers && r.current == st.current
      && BodyOf(r, t) == BodyOf(st, t) + body
      && forall h :: h != t ==> BodyOf(r, h) == BodyOf(st, h)
    decreases |body|
  {
    if body != [] {
      var next := Step(st, body[0]);
      StepOfBody(st, body[0], t);
      forall h | h != t ensures BodyOf(next, h) == BodyOf(st, h) {
        StepOfBody(st, body[0], h);
      }
      ScanBodyNodes(body[1..], next, t);
      assert [body[0]] + body[1..] == body;
    }
  }

  /** Each written section carries its own heading. */
  lemma DistinctHeadings(c: Changelog)
    requires Canonical(c)
    ensures var ps := Parts(c);
      forall i, j :: 0 <= i < j < |ps| ==> PartHeading(ps[i]) != PartHeading(ps[j])
  {
    var ps := Parts(c);
    forall i, j | 0 <= i < j < |ps| ensures PartHeading(ps[i]) != PartHeading(ps[j]) {
      TwoHeadings(c, i, j);
    }
  }

  lemma TwoHeadings(c: Changelog, i: nat, j: nat)
    requires Canonical(c) && i < j < |Parts(c)|
    ensures PartHeading(Parts(c)[i]) != PartHeading(Parts(c)[j])
  {
    var b := c.releases[j - 1];
    assert CanonicalEntry(b.0, b.1);
    PartHeadingOf(c, j);
    PartHeadingOf(c, i);
    if i == 0 {
      ReleaseNotUnreleased(b.1);
    } else {
      var a := c.releases[i - 1];
      assert CanonicalEntry(a.0, a.1);
      assert a.0 != b.0;
      ReleaseHeadingsDiffer(a.1, b.1);
    }
  }

  /** The heading of each written section. */
  lemma PartHeadingOf(c: Changelog, k: nat)
    requires k < |Parts(c)|
    ensures k == 0 ==> PartHeading(Parts(c)[k]) == "[Unreleased]"
    ensures k > 0 ==> PartHeading(Parts(c)[k]) == ReleaseHeading(c.releases[k - 1].1)
  {
    PartOf(c, k);
  }

  /** Which part each written section is. */
  lemma PartOf(c: Changelog, k: nat)
    requires k < |Parts(c)|
    ensures Parts(c)[k] == if k == 0 then UnreleasedAsPart(c.unreleased) else ReleaseAsPart(c.releases[k - 1].1)
  {
  }

  lemma ReleaseNotUnreleased(e: ReleaseEntry)
    ensures ReleaseHeading(e) != "[Unreleased]"
  {
    ReleaseHeadingNotUnreleased(e);
    UnreleasedExamples();
  }

  lemma ReleaseHeadingsDiffer(a: ReleaseEntry, b: ReleaseEntry)
    requires a.date.year <= 9999 && b.date.year <= 9999 && a.version != b.version
    ensures ReleaseHeading(a) != ReleaseHeading(b)
  {
    if ReleaseHeading(a) == ReleaseHeading(b) {
      DistinctReleaseHeadings(a, b);
    }
  }

  /** Releases of different versions are written under different headings. */
  lemma DistinctReleaseHeadings(a: ReleaseEntry, b: ReleaseEntry)
    requires a.date.year <= 9999 && b.date.year <= 9999
    requires ReleaseHeading(a) == ReleaseHeading(b)
    ensures a.version == b.version
  {
    var ma := ReleaseHeadingMatch(a);
    var mb := ReleaseHeadingMatch(b);
    NatToStringInjective(a.version.major, b.version.major);
    NatToStringInjective(a.version.minor, b.version.minor);
    NatToStringInjective(a.version.patch, b.version.patch);
  }

  /** The nodes after each written heading read back as that section's body. */
  lemma BodiesReadBack(ps: seq<Part>, secs: seq<seq<Node>>, st: ScanState, value: string)
    requires value == Preamble + PartsText(ps) + "\n"
    requires |secs| == |ps| && forall k :: 0 <= k < |ps| ==> SectionNodes(secs[k], ps[k], BodyStart(ps, k))
    requires Scanned(st, ps, secs) && forall h :: WellFormed(BodyOf(st, h), |value|)
    requires forall k :: 0 <= k < |ps| ==> IsTrimmed(ps[k].body)
    ensures forall k :: 0 <= k < |ps| ==> BodyText(value, BodyOf(st, PartHeading(ps[k]))) == ps[k].body
  {
    forall k | 0 <= k < |ps| ensures BodyText(value, BodyOf(st, PartHeading(ps[k]))) == ps[k].body {
      SectionBodyRead(Preamble, ps, secs[k], value, k);
    }
  }

  /** The nodes after heading `k` reach over exactly its body, which is
      trimmed already. */
  lemma SectionBodyRead(pre: string, ps: seq<Part>, sec: seq<Node>, value: string, k: nat)
    requires value == pre + PartsText(ps) + "\n"
    requires k < |ps| && IsTrimmed(ps[k].body)
    requires SectionNodes(sec, ps[k], |pre| + |PartsText(ps[..k])| + 9 + |ps[k].name| + |ps[k].suffix|)
    requires WellFormed(sec[1..], |value|)
    ensures BodyText(value, sec[1..]) == ps[k].body
  {
    var body := ps[k].body;
    if body == "" {
      assert sec[1..] == [];
    } else {
      var at := |pre| + |PartsText(ps[..k])| + 9 + |ps[k].name| + |ps[k].suffix|;
      assert value == pre + PartsText(ps) + "\n" + "";
      BodyAfter(pre, ps, value, "", k);
      SpanRead(value, sec[1..], at, body);
    }
  }

  /** Nodes reaching over a trimmed text read back as that text. */
  lemma SpanRead(value: string, nodes: seq<Node>, at: nat, body: string)
    requires WellFormed(nodes, |value|) && |nodes| >= 1 && IsTrimmed(body)
    requires nodes[0].span.start == at && nodes[|nodes| - 1].span.end == at + |body|
    requires at + |body| <= |value| && value[at..at + |body|] == body
    ensures BodyText(value, nodes) == body
  {
    BodyTextTrimmed(value, nodes, at, at + |body|);
  }

  /** Nodes reaching over a text with no whitespace at either end read
      back as exactly that text. */
  lemma BodyTextTrimmed(value: string, nodes: seq<Node>, a: nat, b: nat)
    requires WellFormed(nodes, |value|) && |nodes| >= 1
    requires nodes[0].span.start == a && nodes[|nodes| - 1].span.end == b
    requires a <= b <= |value| && IsTrimmed(value[a..b])
    ensures BodyText(value, nodes) == value[a..b]
  {
    BodyTextSpan(value, nodes, a, b);
    TrimOfTrimmed(value[a..b]);
  }

  /** The text of nodes reaching from offset `a` to offset `b`. */
  lemma BodyTextSpan(value: string, nodes: seq<Node>, a: nat, b: nat)
    requires WellFormed(nodes, |value|) && |nodes| >= 1
    requires nodes[0].span.start == a && nodes[|nodes| - 1].span.end == b
    ensures a <= b <= |value| && BodyText(value, nodes) == Trim(value[a..b])
  {
    if |nodes| > 1 {
      assert nodes[0].span.end <= nodes[|nodes| - 1].span.start;
    }
  }

  /** Every written body is trimmed. */
  lemma PartsTrimmed(c: Changelog)
    requires Canonical(c)
    ensures forall k :: 0 <= k < |Parts(c)| ==> IsTrimmed(Parts(c)[k].body)
  {
    forall k | 0 <= k < |Parts(c)| ensures IsTrimmed(Parts(c)[k].body) {
      PartBodyTrimmed(c, k);
    }
  }

  lemma PartBodyTrimmed(c: Changelog, k: nat)
    requires Canonical(c) && k < |Parts(c)|
    ensures IsTrimmed(Parts(c)[k].body)
  {
    if k > 0 {
      assert CanonicalEntry(c.releases[k - 1].0, c.releases[k - 1].1);
    }
  }

  /** Reading the sections in the order they were written rebuilds the
      changelog: the `Unreleased` section first, then each release. */
  lemma ReadWrittenSections(c: Changelog, value: string, st: ScanState)
    requires Canonical(c)
    requires forall h :: WellFormed(BodyOf(st, h), |value|)
    requires forall k :: 0 <= k < |Parts(c)| ==> BodyText(value, BodyOf(st, PartHeading(Parts(c)[k]))) == Parts(c)[k].body
    ensures ReadSections(value, st, PartHeadings(Parts(c)), Changelog(None, [])) == Success(c)
  {
    var ps := Parts(c);
    var hs := PartHeadings(ps);
    var acc := Changelog(None, []);
    assert hs[0] == HeadingLine("Unreleased", "");
    UnreleasedSectionRoundTrip(acc, ps[0].body);
    assert c.releases[..0] == [];
    ReadReleases(c, value, st, 1);
  }

  lemma {:induction false} ReadReleases(c: Changelog, value: string, st: ScanState, k: nat)
    requires Canonical(c) && 1 <= k <= |Parts(c)|
    requires forall h :: WellFormed(BodyOf(st, h), |value|)
    requires forall k :: 0 <= k < |Parts(c)| ==> BodyText(value, BodyOf(st, PartHeading(Parts(c)[k]))) == Parts(c)[k].body
    ensures ReadSections(value, st, PartHeadings(Parts(c))[k..], Changelog(c.unreleased, c.releases[..k - 1])) == Success(c)
    decreases |Parts(c)| - k
  {
    var hs := PartHeadings(Parts(c));
    if k == |Parts(c)| {
      assert hs[k..] == [];
      assert c.releases[..k - 1] == c.releases;
    } else {
      ReleaseStep(c, k, Parts(c)[k]);
      assert hs[k..][0] == PartHeading(Parts(c)[k]);
      ReadSectionsStep(value, st, hs[k..], Changelog(c.unreleased, c.releases[..k - 1]), Changelog(c.unreleased, c.releases[..k]));
      assert hs[k..][1..] == hs[k + 1..];
      ReadReleases(c, value, st, k + 1);
    }
  }

  /** Reading the first of several sections, then the rest. */
  lemma ReadSectionsStep(value: string, st: ScanState, hs: seq<string>, acc: Changelog, next: Changelog)
    requires forall h :: WellFormed(BodyOf(st, h), |value|)
    requires hs != [] && ReadSection(acc, hs[0], BodyText(value, BodyOf(st, hs[0]))) == Success(next)
    ensures ReadSections(value, st, hs, acc) == ReadSections(value, st, hs[1..], next)
  {
  }

  /** Reading the section of release `k` back adds that release after the
      ones before it. */
  lemma ReleaseStep(c: Changelog, k: nat, p: Part)
    requires Canonical(c) && 1 <= k < |Parts(c)| && p == Parts(c)[k]
    ensures ReadSection(Changelog(c.unreleased, c.releases[..k - 1]), PartHeading(p), p.body)
      == Success(Changelog(c.unreleased, c.releases[..k]))
  {
    assert p == ReleaseAsPart(c.releases[k - 1].1) by {
      PartOf(c, k);
    }
    AppendRelease(c, k, p);
  }

  /** Reading the section of entry `k - 1` back appends it to the entries
      before it. */
  lemma AppendRelease(c: Changelog, k: nat, p: Part)
    requires Canonical(c) && 1 <= k <= |c.releases| && p == ReleaseAsPart(c.releases[k - 1].1)
    ensures ReadSection(Changelog(c.unreleased, c.releases[..k - 1]), PartHeading(p), p.body)
      == Success(Changelog(c.unreleased, c.releases[..k]))
  {
    var rs, n := c.releases, k - 1;
    assert CanonicalEntry(rs[n].0, rs[n].1);
    ReleaseSectionRoundTrip(Changelog(c.unreleased, rs[..n]), rs[n].1);
    FreshKeyAt(rs, n);
    PrefixSnoc(rs, n);
  }

  lemma FreshKeyAt<V>(rs: seq<(string, V)>, n: nat)
    requires OrderedMap.UniqueKeys(rs) && n < |rs|
    ensures rs[n].0 !in OrderedMap.Keys(rs[..n])
  {
    assert forall j :: 0 <= j < n ==> rs[..n][j].0 != rs[n].0;
  }

  lemma PrefixSnoc<T>(s: seq<T>, n: nat)
    requires n < |s|
    ensures s[..n] + [s[n]] == s[..n + 1]
  {
  }

  /** The smallest case: a changelog with nothing in it, whose text is the
      preamble and `## [Unreleased]`, reads back as itself. */
  lemma EmptyChangelogRoundTrip()
    ensures var at := |Preamble| + 2;
      ParseChangelog(Render(Changelog(None, [])), Success(Root([Heading(2, "[Unreleased]", Span(at, at + 15))])))
        == Success(Changelog(None, []))
  {
    var c := Changelog(None, []);
    var h := Heading(2, "[Unreleased]", Span(|Preamble| + 2, |Preamble| + 17));
    EmptyWritten(c, h);
    EmptyLaidOut(c, h, Render(c));
    ParseRenderRoundTrip(c, [], [[h]]);
  }

  lemma EmptyWritten(c: Changelog, h: Node)
    requires c == Changelog(None, []) && h.Heading? && h.depth == 2 && h.text == "[Unreleased]"
    ensures WrittenTree(c, [], [[h]]) && [] + Flatten([[h]]) == [h]
  {
    assert Parts(c) == [Part("Unreleased", "", "")];
    assert Flatten([[h]][..0]) == [];
  }

  lemma EmptyLaidOut(c: Changelog, h: Node, value: string)
    requires c == Changelog(None, []) && value == Render(c)
    requires h.span == Span(|Preamble| + 2, |Preamble| + 17)
    ensures WellFormed([h], |value|)
  {
    var p := Part("Unreleased", "", "");
    assert Parts(c) == [p];
    RenderAsParts(c);
    PartsTextSingle(p);
  }
}

=== FILE: sections.dfy ===
/** How the changelog reader groups the top-level nodes of a document into
    sections: every level-2 heading opens a section named by its text, a
    level-1 heading closes the current section, and the other nodes (deeper
    headings included, link definitions excluded) belong to the section
    that is open. Sections that share a name share one list of nodes. */
module Sections {
  import opened Wrappers
  import opened Markdown

  /** The reader's loop state: the section names met so far (repeats kept),
      the open section, and the nodes collected for each name. */
  datatype ScanState = ScanState(headers: seq<string>, current: Option<string>, bodies: map<string, seq<Node>>)

  const Initial: ScanState := ScanState([], None, map[])

  /** The nodes collected under `h`; a name with no nodes has none. */
  function BodyOf(st: ScanState, h: string): seq<Node> {
    if h in st.bodies then st.bodies[h] else []
  }

  /** Add `n` to the open section, if there is one. */
  function Append(st: ScanState, n: Node): (r: ScanState)
    ensures r.headers == st.headers && r.current == st.current
    ensures forall h :: BodyOf(r, h) == if st.current == Some(h) then BodyOf(st, h) + [n] else BodyOf(st, h)
  {
    match st.current
    case None => st
    case Some(h) => st.(bodies := st.bodies[h := BodyOf(st, h) + [n]])
  }

  /** One iteration of the reader's loop over the root's children. */
  function Step(st: ScanState, n: Node): ScanState {
    match n
    case Heading(depth, text, _) =>
      if depth == 2 then st.(headers := st.headers + [text], current := Some(text))
      else if depth < 2 then st.(current := None)
      else Append(st, n)
    case Definition(_) => st
    case Other(_) => Append(st, n)
  }

  function ScanFrom(ns: seq<Node>, st: ScanState): ScanState
    decreases |ns|
  {
    if ns == [] then st else ScanFrom(ns[1..], Step(st, ns[0]))
  }

  function Scan(ns: seq<Node>): ScanState {
    ScanFrom(ns, Initial)
  }

  lemma {:induction false} ScanFromSnoc(ns: seq<Node>, n: Node, st: ScanState)
    ensures ScanFrom(ns + [n], st) == Step(ScanFrom(ns, st), n)
    decreases |ns|
  {
    if ns != [] {
      assert (ns + [n])[1..] == ns[1..] + [n];
      ScanFromSnoc(ns[1..], n, Step(st, ns[0]));
    }
  }

  /** Scanning a concatenation is scanning one part after the other. */
  lemma {:induction false} ScanFromConcat(a: seq<Node>, b: seq<Node>, st: ScanState)
    ensures ScanFrom(a + b, st) == ScanFrom(b, ScanFrom(a, st))
    decreases |a|
  {
    if a == [] {
      assert a + b == b;
    } else {
      assert (a + b)[1..] == a[1..] + b;
      ScanFromConcat(a[1..], b, Step(st, a[0]));
    }
  }

  // -------------------------------------------------- the grouping, stated per node

  /** A heading that ends the open section: level 1 or level 2. */
  predicate Opens(n: Node) {
    n.Heading? && n.depth <= 2
  }

  predicate IsSectionHeading(n: Node) {
    n.Heading? && n.depth == 2
  }

  /** A node that can belong to a section. */
  predicate IsBody(n: Node) {
    !Opens(n) && !n.Definition?
  }

  /** The last heading of level 1 or 2 before position `i`. */
  function LastOpener(ns: seq<Node>, i: nat): (r: Option<nat>)
    requires i <= |ns|
    ensures r.Some? ==> r.value < i && Opens(ns[r.value])
    ensures r.Some? ==> forall k :: r.value < k < i ==> !Opens(ns[k])
    ensures r.None? ==> forall k :: 0 <= k < i ==> !Opens(ns[k])
  {
    if i == 0 then None
    else if Opens(ns[i - 1]) then Some(i - 1)
    else LastOpener(ns, i - 1)
  }

  /** The section open at position `i`: named by the last heading of level
      1 or 2 before it, when that heading is of level 2. */
  function SectionAt(ns: seq<Node>, i: nat): Option<string>
    requires i <= |ns|
  {
    match LastOpener(ns, i)
    case None => None
    case Some(j) => if ns[j].depth == 2 then Some(ns[j].text) else None
  }

  /** The texts of the level-2 headings among the first `k` nodes. */
  function HeadingTexts(ns: seq<Node>, k: nat): (r: seq<string>)
    requires k <= |ns|
    ensures |r| <= k
  {
    if k == 0 then []
    else HeadingTexts(ns, k - 1) + (if IsSectionHeading(ns[k - 1]) then [ns[k - 1].text] else [])
  }

  /** The positions, among the first `k`, of the nodes of section `h`. */
  function BodyIndices(ns: seq<Node>, h: string, k: nat): (r: seq<nat>)
    requires k <= |ns|
    ensures forall p :: 0 <= p < |r| ==> r[p] < k
    ensures forall p, q :: 0 <= p < q < |r| ==> r[p] < r[q]
    ensures forall i :: 0 <= i < k ==> (i in r <==> IsBody(ns[i]) && SectionAt(ns, i) == Some(h))
  {
    if k == 0 then []
    else BodyIndices(ns, h, k - 1) + (if IsBody(ns[k - 1]) && SectionAt(ns, k - 1) == Some(h) then [k - 1] else [])
  }

  function Pick(ns: seq<Node>, idx: seq<nat>): (r: seq<Node>)
    requires forall p :: 0 <= p < |idx| ==> idx[p] < |ns|
    ensures |r| == |idx| && forall p :: 0 <= p < |idx| ==> r[p] == ns[idx[p]]
  {
    seq(|idx|, p requires 0 <= p < |idx| => ns[idx[p]])
  }

  /** The loop computes the grouping: after the first `k` nodes, the names
      are the level-2 heading texts in order, the open section is the one
      at position `k`, and each name holds exactly its nodes, in order. */
  lemma {:induction false} ScanPrefix(ns: seq<Node>, k: nat)
    requires k <= |ns|
    ensures Groups(ns, k, Scan(ns[..k]))
  {
    if k > 0 {
      ScanPrefix(ns, k - 1);
      assert ns[..k] == ns[..k - 1] + [ns[k - 1]];
      ScanFromSnoc(ns[..k - 1], ns[k - 1], Initial);
      StepKeepsGroups(ns, k - 1, Scan(ns[..k - 1]));
    }
  }

  /** `st` is the grouping of the first `k` nodes. */
  ghost predicate Groups(ns: seq<Node>, k: nat, st: ScanState)
    requires k <= |ns|
  {
    && st.headers == HeadingTexts(ns, k)
    && st.current == SectionAt(ns, k)
    && forall h :: BodyOf(st, h) == Pick(ns, BodyIndices(ns, h, k))
  }

  lemma StepKeepsGroups(ns: seq<Node>, k: nat, st: ScanState)
    requires k < |ns| && Groups(ns, k, st)
    ensures Groups(ns, k + 1, Step(st, ns[k]))
  {
    var st' := Step(st, ns[k]);
    assert st'.headers == HeadingTexts(ns, k + 1);
    StepCurrent(ns, k, st);
    forall h ensures BodyOf(st', h) == Pick(ns, BodyIndices(ns, h, k + 1)) {
      StepBody(ns, k, st, h);
    }
  }

  lemma StepCurrent(ns: seq<Node>, k: nat, st: ScanState)
    requires k < |ns| && st.current == SectionAt(ns, k)
    ensures Step(st, ns[k]).current == SectionAt(ns, k + 1)
  {
  }

  lemma StepBody(ns: seq<Node>, k: nat, st: ScanState, h: string)
    requires k < |ns| && st.current == SectionAt(ns, k)
    requires BodyOf(st, h) == Pick(ns, BodyIndices(ns, h, k))
    ensures BodyOf(Step(st, ns[k]), h) == Pick(ns, BodyIndices(ns, h, k + 1))
  {
    var before := BodyIndices(ns, h, k);
    if IsBody(ns[k]) {
      StepOfBody(st, ns[k], h);
      if SectionAt(ns, k) == Some(h) {
        PickSnoc(ns, before, k);
      } else {
        assert BodyIndices(ns, h, k + 1) == before + [];
      }
    } else {
      StepOfNonBody(st, ns[k], h);
      assert BodyIndices(ns, h, k + 1) == before + [];
    }
  }

  /** A body node goes to the open section. */
  lemma StepOfBody(st: ScanState, n: Node, h: string)
    requires IsBody(n)
    ensures BodyOf(Step(st, n), h) == if st.current == Some(h) then BodyOf(st, h) + [n] else BodyOf(st, h)
  {
  }

  /** Headings that open or close a section, and definitions, add no node. */
  lemma StepOfNonBody(st: ScanState, n: Node, h: string)
    requires !IsBody(n)
    ensures BodyOf(Step(st, n), h) == BodyOf(st, h)
  {
  }

  lemma PickSnoc(ns: seq<Node>, idx: seq<nat>, k: nat)
    requires k < |ns| && forall p :: 0 <= p < |idx| ==> idx[p] < |ns|
    ensures Pick(ns, idx + [k]) == Pick(ns, idx) + [ns[k]]
  {
  }

  /** The whole document. */
  lemma ScanAll(ns: seq<Node>)
    ensures Scan(ns).headers == HeadingTexts(ns, |ns|)
    ensures forall h :: BodyOf(Scan(ns), h) == Pick(ns, BodyIndices(ns, h, |ns|))
  {
    ScanPrefix(ns, |ns|);
    assert ns[..|ns|] == ns;
    assert Groups(ns, |ns|, Scan(ns));
  }

  /** Picking positions in increasing order keeps the layout well formed. */
  lemma PickWellFormed(ns: seq<Node>, idx: seq<nat>, len: nat)
    requires WellFormed(ns, len)
    requires forall p :: 0 <= p < |idx| ==> idx[p] < |ns|
    requires forall p, q :: 0 <= p < q < |idx| ==> idx[p] < idx[q]
    ensures WellFormed(Pick(ns, idx), len)
  {
  }

  /** Every section's nodes keep the document layout. */
  lemma ScanBodiesWellFormed(ns: seq<Node>, len: nat)
    requires WellFormed(ns, len)
    ensures forall h :: WellFormed(BodyOf(Scan(ns), h), len)
  {
    ScanAll(ns);
    forall h ensures WellFormed(BodyOf(Scan(ns), h), len) {
      PickWellFormed(ns, BodyIndices(ns, h, |ns|), len);
    }
  }
}

=== FILE: semver.dfy ===
/** Semantic versions as the tooling uses them: a major.minor.patch triple
    with no pre-release or build part (`libcnb_data::BuildpackVersion`, and
    `semver::Version` values read from changelog headings). Components are
    64-bit unsigned integers in the source. */
module SemVer {
  import opened Wrappers
  import opened Text

  const U64Max: nat := 18446744073709551615

  datatype Version = Version(major: nat, minor: nat, patch: nat)

  /** Every component fits in a `u64`. */
  predicate InRange(v: Version) {
    v.major <= U64Max && v.minor <= U64Max && v.patch <= U64Max
  }

  /** `Display` of a version without pre-release or build metadata. */
  function ToString(v: Version): string {
    NatToString(v.major) + "." + NatToString(v.minor) + "." + NatToString(v.patch)
  }

  /** Precedence of section 11 of Semantic Versioning 2.0.0 for versions
      without a pre-release part: lexicographic on (major, minor, patch). */
  predicate LessEq(a: Version, b: Version) {
    || a.major < b.major
    || (a.major == b.major && a.minor < b.minor)
    || (a.major == b.major && a.minor == b.minor && a.patch <= b.patch)
  }

  predicate Less(a: Version, b: Version) {
    LessEq(a, b) && a != b
  }

  /** Which numeric identifier a parse error is about. */
  datatype Component = Major | Minor | Patch

  /** The `semver` crate's errors for the numeric identifiers of a version:
      a leading zero, a value beyond 64 bits, a component that does not
      start with an ASCII digit, and a character other than the expected
      `.` (or the end) after a component's ASCII digits. */
  datatype VersionError =
    | LeadingZero(component: Component)
    | Overflow(component: Component)
    | UnexpectedChar(component: Component, ch: char)
    | UnexpectedCharAfter(component: Component, ch: char)

  /** The crate's numeric identifier, read from the non-empty text `s` of one
      component (which is followed by a `.` or ends the version). The crate
      scans ASCII digits only: a leading zero is refused (section 2 of
      Semantic Versioning 2.0.0) at the second digit, before the value is
      checked against the 64-bit range; a component without an ASCII digit
      at its start fails on that character, and one whose ASCII digits stop
      early fails on the character after them. */
  function ParseNumeric(s: string, c: Component): (r: Result<nat, VersionError>)
    requires |s| >= 1
    ensures r.Success? <==> IsCanonicalNumeral(s) && DigitsValue(s) <= U64Max
    ensures r.Success? ==> r.value == DigitsValue(s) && NatToString(r.value) == s
    ensures r.Failure? ==> r.error.component == c
    ensures AllDigits(s) && r.Failure? ==> r.error.LeadingZero? || r.error.Overflow?
    ensures r.Failure? && r.error.UnexpectedChar? ==> !IsDigit(s[0]) && r.error.ch == s[0]
    ensures r.Failure? && r.error.UnexpectedCharAfter? ==>
      exists n :: 0 < n < |s| && AllDigits(s[..n]) && !IsDigit(s[n]) && r.error.ch == s[n]
  {
    var n := AsciiDigitRun(s, 0);
    var digits := s[..n];
    assert AllDigits(s) ==> n == |s| && digits == s;
    if n > 1 && s[0] == '0' then Failure(LeadingZero(c))
    else if DigitsValue(digits) > U64Max then Failure(Overflow(c))
    else if n == 0 then Failure(UnexpectedChar(c, s[0]))
    else if n < |s| then Failure(UnexpectedCharAfter(c, s[n]))
    else
      assert digits == s;
      CanonicalNumeralRoundTrip(s);
      Success(DigitsValue(s))
  }

  /** Parsing the text `major.minor.patch` captured from a heading, whose
      three parts are runs of decimal digits of any script: the first
      component that fails gives the error. */
  function ParseVersion(major: string, minor: string, patch: string): (r: Result<Version, VersionError>)
    requires |major| >= 1 && AllDecimalDigits(major)
    requires |minor| >= 1 && AllDecimalDigits(minor)
    requires |patch| >= 1 && AllDecimalDigits(patch)
    ensures r.Success? ==> InRange(r.value) && ToString(r.value) == major + "." + minor + "." + patch
    ensures r.Success? <==> && IsCanonicalNumeral(major) && DigitsValue(major) <= U64Max
                            && IsCanonicalNumeral(minor) && DigitsValue(minor) <= U64Max
                            && IsCanonicalNumeral(patch) && DigitsValue(patch) <= U64Max
    ensures r.Failure? && r.error.component == Major ==> ParseNumeric(major, Major) == Failure(r.error)
    ensures r.Failure? && r.error.component == Minor ==>
      ParseNumeric(major, Major).Success? && ParseNumeric(minor, Minor) == Failure(r.error)
    ensures r.Failure? && r.error.component == Patch ==>
      ParseNumeric(major, Major).Success? && ParseNumeric(minor, Minor).Success?
      && ParseNumeric(patch, Patch) == Failure(r.error)
  {
    var a :- ParseNumeric(major, Major);
    var b :- ParseNumeric(minor, Minor);
    var c :- ParseNumeric(patch, Patch);
    Success(Version(a, b, c))
  }

  /** Digits of other scripts are matched by the heading pattern but refused
      by the crate: `١.2.3` fails at the start of the major component, and
      `1.2.3٤` after the ASCII digits of the patch. */
  lemma NonAsciiDigitsRefused()
    ensures ParseVersion("١", "2", "3") == Failure(UnexpectedChar(Major, '١'))
    ensures ParseVersion("1", "2", "3٤") == Failure(UnexpectedCharAfter(Patch, '٤'))
  {
    assert IsDecimalDigit('١') && IsDecimalDigit('٤');
    assert AsciiDigitRun("١", 0) == 0;
    assert AsciiDigitRun("3٤", 0) == 1;
  }

  /** Rendering a version and parsing its parts back gives the version. */
  lemma ParseToString(v: Version)
    requires InRange(v)
    ensures ParseVersion(NatToString(v.major), NatToString(v.minor), NatToString(v.patch)) == Success(v)
  {
  }

  /** A canonical numeral is the rendering of its own value. */
  lemma {:induction false} CanonicalNumeralRoundTrip(s: string)
    requires IsCanonicalNumeral(s)
    ensures NatToString(DigitsValue(s)) == s
    decreases |s|
  {
    if |s| > 1 {
      var init := s[..|s| - 1];
      assert IsCanonicalNumeral(init);
      CanonicalNumeralRoundTrip(init);
      NonZeroLeadValue(init);
      var n := DigitsValue(s);
      assert n / 10 == DigitsValue(init) && n % 10 == DigitValue(s[|s| - 1]);
      assert s == init + [s[|s| - 1]];
    }
  }

  /** A numeral that does not start with zero has a positive value. */
  lemma {:induction false} NonZeroLeadValue(s: string)
    requires |s| >= 1 && AllDigits(s) && s[0] != '0'
    ensures DigitsValue(s) >= 1
    decreases |s|
  {
    if |s| > 1 {
      NonZeroLeadValue(s[..|s| - 1]);
    }
  }

  /** The rendering is injective. */
  lemma ToStringInjective(a: Version, b: Version)
    requires ToString(a) == ToString(b)
    ensures a == b
  {
    var ra := NatToString(a.minor) + "." + NatToString(a.patch);
    var rb := NatToString(b.minor) + "." + NatToString(b.patch);
    assert ToString(a) == NatToString(a.major) + "." + ra;
    assert ToString(b) == NatToString(b.major) + "." + rb;
    DotFreeSplit(NatToString(a.major), ra, NatToString(b.major), rb);
    NatToStringInjective(a.major, b.major);
    DotFreeSplit(NatToString(a.minor), NatToString(a.patch), NatToString(b.minor), NatToString(b.patch));
    NatToStringInjective(a.minor, b.minor);
    NatToStringInjective(a.patch, b.patch);
  }

  /** `x + "." + y == x' + "." + y'` with digit-only `x`, `x'` splits at the same dot. */
  lemma DotFreeSplit(x: string, y: string, x': string, y': string)
    requires AllDigits(x) && AllDigits(x')
    requires x + "." + y == x' + "." + y'
    ensures x == x' && y == y'
  {
    var s := x + "." + y;
    assert s[|x|] == '.' && s[|x'|] == '.';
    assert forall i :: 0 <= i < |x| ==> s[i] == x[i];
    assert forall i :: 0 <= i < |x'| ==> s[i] == x'[i];
    assert |x| == |x'|;
    assert x == s[..|x|] == x';
    assert y == s[|x| + 1..] == y';
  }
}

=== FILE: sorting.dfy ===
/** The ordering of Rust strings and the sorts the tooling applies to them:
    `Vec<String>::sort` and the key order of a `BTreeMap<String, _>`. */
module Sorting {
  import Text

  /** `Ord for str`: lexicographic comparison of the UTF-8 bytes, which is the
      same as lexicographic comparison of the code points. */
  predicate LexLe(a: string, b: string)
    decreases |a|
  {
    |a| == 0 || (|b| > 0 && (a[0] < b[0] || (a[0] == b[0] && LexLe(a[1..], b[1..]))))
  }

  lemma {:induction false} LexLeReflexive(a: string)
    ensures LexLe(a, a)
    decreases |a|
  {
    if |a| > 0 {
      LexLeReflexive(a[1..]);
    }
  }

  lemma {:induction false} LexLeTotal(a: string, b: string)
    ensures LexLe(a, b) || LexLe(b, a)
    decreases |a|
  {
    if |a| > 0 && |b| > 0 && a[0] == b[0] {
      LexLeTotal(a[1..], b[1..]);
    }
  }

  lemma {:induction false} LexLeAntisymmetric(a: string, b: string)
    requires LexLe(a, b) && LexLe(b, a)
    ensures a == b
    decreases |a|
  {
    if |a| > 0 {
      LexLeAntisymmetric(a[1..], b[1..]);
      assert a == [a[0]] + a[1..] && b == [b[0]] + b[1..];
    }
  }

  lemma {:induction false} LexLeTransitive(a: string, b: string, c: string)
    requires LexLe(a, b) && LexLe(b, c)
    ensures LexLe(a, c)
    decreases |a|
  {
    if |a| > 0 && a[0] == b[0] && b[0] == c[0] {
      LexLeTransitive(a[1..], b[1..], c[1..]);
    }
  }

  /** Ordered by key, in ascending order. */
  ghost predicate SortedBy<T>(xs: seq<T>, key: T -> string) {
    forall i, j :: 0 <= i < j < |xs| ==> LexLe(key(xs[i]), key(xs[j]))
  }

  /** Distinct elements have distinct keys. */
  ghost predicate KeyInjective<T>(xs: seq<T>, key: T -> string) {
    forall i, j :: 0 <= i < |xs| && 0 <= j < |xs| && key(xs[i]) == key(xs[j]) ==> xs[i] == xs[j]
  }

  function InsertBy<T>(x: T, xs: seq<T>, key: T -> string): (r: seq<T>)
    requires SortedBy(xs, key)
    ensures SortedBy(r, key)
    ensures multiset(r) == multiset(xs) + multiset{x}
    ensures forall k :: 0 <= k < |r| ==> r[k] == x || r[k] in xs
  {
    if xs == [] then [x]
    else if LexLe(key(x), key(xs[0])) then
      PrependLowest(x, xs, key);
      [x] + xs
    else
      var rest := InsertBy(x, xs[1..], key);
      InsertByCons(x, xs, key, rest);
      [xs[0]] + rest
  }

  /** An element no greater than the first of a sorted sequence can go in front. */
  lemma PrependLowest<T>(x: T, xs: seq<T>, key: T -> string)
    requires xs != [] && SortedBy(xs, key) && LexLe(key(x), key(xs[0]))
    ensures SortedBy([x] + xs, key)
  {
    var r := [x] + xs;
    forall i, j | 0 <= i < j < |r| ensures LexLe(key(r[i]), key(r[j])) {
      if i == 0 && j > 1 {
        LexLeTransitive(key(x), key(xs[0]), key(xs[j - 1]));
      }
    }
  }

  /** The step of `InsertBy` past an element lower than the inserted one. */
  lemma InsertByCons<T>(x: T, xs: seq<T>, key: T -> string, rest: seq<T>)
    requires xs != [] && SortedBy(xs, key) && !LexLe(key(x), key(xs[0]))
    requires SortedBy(rest, key) && multiset(rest) == multiset(xs[1..]) + multiset{x}
    requires forall k :: 0 <= k < |rest| ==> rest[k] == x || rest[k] in xs[1..]
    ensures SortedBy([xs[0]] + rest, key)
    ensures multiset([xs[0]] + rest) == multiset(xs) + multiset{x}
    ensures forall k :: 0 <= k < |[xs[0]] + rest| ==> ([xs[0]] + rest)[k] == x || ([xs[0]] + rest)[k] in xs
  {
    LexLeTotal(key(x), key(xs[0]));
    assert xs == [xs[0]] + xs[1..];
    InsertBySorted(xs[0], rest, key, x, xs);
  }

  /** Putting a lower bound in front of a sorted sequence keeps it sorted. */
  lemma InsertBySorted<T>(h: T, rest: seq<T>, key: T -> string, x: T, xs: seq<T>)
    requires |xs| > 0 && h == xs[0] && SortedBy(xs, key) && SortedBy(rest, key)
    requires LexLe(key(h), key(x))
    requires forall k :: 0 <= k < |rest| ==> rest[k] == x || rest[k] in xs[1..]
    ensures SortedBy([h] + rest, key)
  {
    var r := [h] + rest;
    forall i, j | 0 <= i < j < |r| ensures LexLe(key(r[i]), key(r[j])) {
      if i == 0 {
        assert r[j] == rest[j - 1];
        if rest[j - 1] != x {
          var k :| 0 <= k < |xs[1..]| && xs[1..][k] == rest[j - 1];
          assert xs[k + 1] == rest[j - 1];
        }
      } else {
        assert r[i] == rest[i - 1] && r[j] == rest[j - 1];
      }
    }
  }

  /** Insertion sort by key: a sorted permutation of the input. */
  function SortBy<T>(xs: seq<T>, key: T -> string): (r: seq<T>)
    ensures SortedBy(r, key)
    ensures multiset(r) == multiset(xs)
  {
    if xs == [] then []
    else
      assert xs == [xs[0]] + xs[1..];
      InsertBy(xs[0], SortBy(xs[1..], key), key)
  }

  /** The first elements of two sorted arrangements of the same elements agree. */
  lemma SortedHeadsAgree<T>(a: seq<T>, b: seq<T>, key: T -> string)
    requires SortedBy(a, key) && SortedBy(b, key)
    requires multiset(a) == multiset(b) && |a| > 0
    requires KeyInjective(a, key)
    ensures |b| > 0 && a[0] == b[0]
  {
    assert a[0] in multiset(b);
    var j :| 0 <= j < |b| && b[j] == a[0];
    assert b[0] in multiset(a);
    var i :| 0 <= i < |a| && a[i] == b[0];
    assert LexLe(key(a[0]), key(a[i])) by {
      if i == 0 { LexLeReflexive(key(a[0])); }
    }
    assert LexLe(key(b[0]), key(b[j])) by {
      if j == 0 { LexLeReflexive(key(b[0])); }
    }
    LexLeAntisymmetric(key(a[0]), key(b[0]));
  }

  /** Removing equal first elements leaves equal multisets. */
  lemma TailsSameElements<T>(a: seq<T>, b: seq<T>)
    requires |a| > 0 && |b| > 0 && a[0] == b[0] && multiset(a) == multiset(b)
    ensures multiset(a[1..]) == multiset(b[1..])
  {
    assert a == [a[0]] + a[1..] && b == [b[0]] + b[1..];
    assert multiset(a[1..]) == multiset(a) - multiset{a[0]};
    assert multiset(b[1..]) == multiset(b) - multiset{b[0]};
  }

  /** Two sorted arrangements of the same elements agree, provided equal keys
      mean equal elements: the result of a sort does not depend on the order of
      its input. */
  lemma {:induction false} SortedUnique<T>(a: seq<T>, b: seq<T>, key: T -> string)
    requires SortedBy(a, key) && SortedBy(b, key)
    requires multiset(a) == multiset(b)
    requires KeyInjective(a, key)
    ensures a == b
    decreases |a|
  {
    if |a| == 0 {
      assert |b| == |multiset(b)| == 0;
    } else {
      SortedHeadsAgree(a, b, key);
      TailsSameElements(a, b);
      assert KeyInjective(a[1..], key) by {
        forall p, q | 0 <= p < |a[1..]| && 0 <= q < |a[1..]| && key(a[1..][p]) == key(a[1..][q])
          ensures a[1..][p] == a[1..][q]
        {
          assert a[1..][p] == a[p + 1] && a[1..][q] == a[q + 1];
        }
      }
      SortedUnique(a[1..], b[1..], key);
      assert a == [a[0]] + a[1..] && b == [b[0]] + b[1..];
    }
  }

  /** Sorting two arrangements of the same elements gives the same result. */
  lemma SortByPermutationInvariant<T>(xs: seq<T>, ys: seq<T>, key: T -> string)
    requires multiset(xs) == multiset(ys)
    requires KeyInjective(xs, key)
    ensures SortBy(xs, key) == SortBy(ys, key)
  {
    var a := SortBy(xs, key);
    var b := SortBy(ys, key);
    KeyInjectivePermutation(xs, a, key);
    SortedUnique(a, b, key);
  }

  /** With distinct keys, the sort gives the one sorted arrangement. */
  lemma SortByIsTheSortedPermutation<T>(xs: seq<T>, s: seq<T>, key: T -> string)
    requires multiset(xs) == multiset(s) && SortedBy(s, key)
    requires KeyInjective(xs, key)
    ensures SortBy(xs, key) == s
  {
    var a := SortBy(xs, key);
    KeyInjectivePermutation(xs, a, key);
    SortedUnique(a, s, key);
  }

  /** Distinct keys stay distinct under rearrangement. */
  lemma KeyInjectivePermutation<T>(xs: seq<T>, a: seq<T>, key: T -> string)
    requires multiset(xs) == multiset(a) && KeyInjective(xs, key)
    ensures KeyInjective(a, key)
  {
    forall p, q | 0 <= p < |a| && 0 <= q < |a| && key(a[p]) == key(a[q]) ensures a[p] == a[q] {
      assert a[p] in multiset(xs) && a[q] in multiset(xs);
      var p' :| 0 <= p' < |xs| && xs[p'] == a[p];
      var q' :| 0 <= q' < |xs| && xs[q'] == a[q];
    }
  }

  /** `f` applied to every element, in order. */
  function Map<T, U>(xs: seq<T>, f: T -> U): (r: seq<U>)
    ensures |r| == |xs| && forall i :: 0 <= i < |xs| ==> r[i] == f(xs[i])
  {
    seq(|xs|, i requires 0 <= i < |xs| => f(xs[i]))
  }

  /** The elements that `keep` accepts, in order. */
  function Filter<T>(xs: seq<T>, keep: T -> bool): (r: seq<T>)
    ensures |r| <= |xs|
  {
    if xs == [] then []
    else (if keep(xs[0]) then [xs[0]] else []) + Filter(xs[1..], keep)
  }

  /** The elements kept are exactly the accepted ones. */
  lemma {:induction false} FilterMembers<T>(xs: seq<T>, keep: T -> bool)
    ensures forall x :: x in Filter(xs, keep) <==> x in xs && keep(x)
  {
    if xs != [] {
      assert xs == [xs[0]] + xs[1..];
      FilterMembers(xs[1..], keep);
    }
  }

  /** Filtering distributes over concatenation. */
  lemma {:induction false} FilterAppend<T>(a: seq<T>, b: seq<T>, keep: T -> bool)
    ensures Filter(a + b, keep) == Filter(a, keep) + Filter(b, keep)
  {
    if a == [] {
      assert a + b == b;
    } else {
      var ab, rest := a + b, a[1..] + b;
      assert ab[0] == a[0];
      assert ab[1..] == rest;
      var head := if keep(a[0]) then [a[0]] else [];
      assert Filter(ab, keep) == head + Filter(rest, keep);
      FilterAppend(a[1..], b, keep);
      assert Filter(a, keep) == head + Filter(a[1..], keep);
      Text.ConcatAssoc(head, Filter(a[1..], keep), Filter(b, keep));
    }
  }

  lemma FilterSingle<T>(x: T, keep: T -> bool)
    ensures Filter([x], keep) == if keep(x) then [x] else []
  {
    assert [x][1..] == [];
  }

  /** A rejected element in the middle leaves no trace. */
  lemma FilterSkips<T>(before: seq<T>, x: T, after: seq<T>, keep: T -> bool)
    requires !keep(x)
    ensures Filter(before + [x] + after, keep) == Filter(before + after, keep)
  {
    assert before + [x] + after == before + ([x] + after);
    assert ([x] + after)[1..] == after;
    FilterAppend(before, [x] + after, keep);
    FilterAppend(before, after, keep);
  }

  /** Mapping two arrangements of the same elements gives two arrangements
      of the same images. */
  lemma {:induction false} MapPermutation<T, U>(xs: seq<T>, ys: seq<T>, f: T -> U)
    requires multiset(xs) == multiset(ys)
    ensures multiset(Map(xs, f)) == multiset(Map(ys, f))
    decreases |xs|
  {
    if |xs| == 0 {
      assert |ys| == |multiset(ys)| == 0;
    } else {
      var j := MatchHead(xs, ys);
      MapPermutation(xs[1..], ys[..j] + ys[j + 1..], f);
      MapReinsert(xs, ys, j, f);
    }
  }

  /** The first element of `xs` occurs in its permutation `ys`; removing
      both occurrences leaves permutations of each other. */
  lemma MatchHead<T>(xs: seq<T>, ys: seq<T>) returns (j: nat)
    requires |xs| > 0 && multiset(xs) == multiset(ys)
    ensures j < |ys| && ys[j] == xs[0]
    ensures multiset(xs[1..]) == multiset(ys[..j] + ys[j + 1..])
  {
    var x := xs[0];
    assert x in multiset(ys);
    j :| 0 <= j < |ys| && ys[j] == x;
    var xs', ys' := xs[1..], ys[..j] + ys[j + 1..];
    assert xs' == xs[..0] + xs[0 + 1..];
    RemoveAt(xs, 0, xs');
    RemoveAt(ys, j, ys');
    assert multiset(xs') == multiset(xs) - multiset{x} == multiset(ys) - multiset{x} == multiset(ys');
  }

  /** Putting back the matched element after mapping. */
  lemma MapReinsert<T, U>(xs: seq<T>, ys: seq<T>, j: nat, f: T -> U)
    requires |xs| > 0 && j < |ys| && ys[j] == xs[0]
    requires multiset(Map(xs[1..], f)) == multiset(Map(ys[..j] + ys[j + 1..], f))
    ensures multiset(Map(xs, f)) == multiset(Map(ys, f))
  {
    assert xs[1..] == xs[..0] + xs[0 + 1..];
    MapRemove(xs, 0, xs[1..], f);
    MapRemove(ys, j, ys[..j] + ys[j + 1..], f);
  }

  /** Mapping, then counting: the element at `j` contributes its image once. */
  lemma MapRemove<T, U>(ys: seq<T>, j: nat, rest: seq<T>, f: T -> U)
    requires j < |ys| && rest == ys[..j] + ys[j + 1..]
    ensures multiset(Map(ys, f)) == multiset(Map(rest, f)) + multiset{f(ys[j])}
  {
    var my := Map(ys, f);
    MapRemoveAt(ys, j, f);
    RemoveAt(my, j, Map(rest, f));
  }

  /** Removing the element at `j` removes one occurrence of it. */
  lemma RemoveAt<T>(ys: seq<T>, j: nat, rest: seq<T>)
    requires j < |ys| && rest == ys[..j] + ys[j + 1..]
    ensures multiset(ys) == multiset(rest) + multiset{ys[j]}
  {
    assert ys == ys[..j] + [ys[j]] + ys[j + 1..];
  }

  lemma MapRemoveAt<T, U>(ys: seq<T>, j: nat, f: T -> U)
    requires j < |ys|
    ensures Map(ys, f)[..j] + Map(ys, f)[j + 1..] == Map(ys[..j] + ys[j + 1..], f)
  {
  }
}

=== FILE: text.dfy ===
/** String primitives with the semantics of the Rust standard library
    operations the release tooling relies on: `str::trim`, `str::trim_end`,
    `str::split`, `str::contains`, `str::starts_with`, `[T]::join`, and the
    decimal rendering of unsigned integers. Strings are sequences of Unicode
    scalar values. */
module Text {
  import opened Wrappers

  /** The Unicode White_Space property, which is what `char::is_whitespace`
      (and therefore `str::trim`) tests. */
  predicate IsWhitespace(c: char) {
    || ('\t' <= c <= '\r')
    || c == ' '
    || c == '\U{0085}'
    || c == '\U{00A0}'
    || c == '\U{1680}'
    || ('\U{2000}' <= c <= '\U{200A}')
    || c == '\U{2028}'
    || c == '\U{2029}'
    || c == '\U{202F}'
    || c == '\U{205F}'
    || c == '\U{3000}'
  }

  predicate IsBlank(s: string) {
    forall i :: 0 <= i < |s| ==> IsWhitespace(s[i])
  }

  /** The number of whitespace characters at the start of `s`. */
  function LeadingBlanks(s: string): (n: nat)
    ensures n <= |s| && IsBlank(s[..n]) && (n == |s| || !IsWhitespace(s[n]))
  {
    if s == [] || !IsWhitespace(s[0]) then 0
    else
      var n := LeadingBlanks(s[1..]);
      assert s[..1 + n] == [s[0]] + s[1..][..n];
      1 + n
  }

  /** The number of whitespace characters at the end of `s`. */
  function TrailingBlanks(s: string): (n: nat)
    ensures n <= |s| && IsBlank(s[|s| - n..]) && (n == |s| || !IsWhitespace(s[|s| - n - 1]))
  {
    if s == [] || !IsWhitespace(s[|s| - 1]) then 0
    else
      var init := s[..|s| - 1];
      var n := TrailingBlanks(init);
      assert s[|s| - (1 + n)..] == init[|init| - n..] + [s[|s| - 1]];
      1 + n
  }

  /** `str::trim_start`: drops the leading whitespace. */
  function TrimStart(s: string): (r: string)
    ensures |r| <= |s| && r == s[|s| - |r|..]
    ensures r == [] || !IsWhitespace(r[0])
    ensures IsBlank(s[..|s| - |r|])
  {
    s[LeadingBlanks(s)..]
  }

  /** `str::trim_end`: drops the trailing whitespace. */
  function TrimEnd(s: string): (r: string)
    ensures |r| <= |s| && r == s[..|r|]
    ensures r == [] || !IsWhitespace(r[|r| - 1])
    ensures IsBlank(s[|r|..])
  {
    s[..|s| - TrailingBlanks(s)]
  }

  /** No whitespace at either end. */
  predicate IsTrimmed(s: string) {
    s == [] || (!IsWhitespace(s[0]) && !IsWhitespace(s[|s| - 1]))
  }

  /** `str::trim`: drops whitespace at both ends. */
  function Trim(s: string): (r: string)
    ensures IsTrimmed(r)
    ensures exists i :: 0 <= i <= |s| - |r| && IsBlank(s[..i]) && r == s[i..i + |r|] && IsBlank(s[i + |r|..])
  {
    TrimFacts(s);
    TrimEnd(TrimStart(s))
  }

  lemma TrimFacts(s: string)
    ensures var r := TrimEnd(TrimStart(s));
      && IsTrimmed(r)
      && exists i :: 0 <= i <= |s| - |r| && IsBlank(s[..i]) && r == s[i..i + |r|] && IsBlank(s[i + |r|..])
  {
    var t := TrimStart(s);
    var r := TrimEnd(t);
    var i := |s| - |t|;
    SliceOfSuffix(s, t, i, r);
    assert IsBlank(s[..i]) && r == s[i..i + |r|] && IsBlank(s[i + |r|..]);
    if r != [] {
      assert r[0] == t[0];
    }
  }

  lemma SliceOfSuffix(s: string, t: string, i: nat, r: string)
    requires i <= |s| && t == s[i..] && |r| <= |t| && r == t[..|r|] && IsBlank(t[|r|..])
    ensures i + |r| <= |s| && r == s[i..i + |r|] && IsBlank(s[i + |r|..])
  {
    assert s[i + |r|..] == t[|r|..];
  }

  /** The trimmed text is empty exactly when the text is all whitespace. */
  lemma TrimEmptyIffBlank(s: string)
    ensures Trim(s) == [] <==> IsBlank(s)
  {
    var t := TrimStart(s);
    if Trim(s) == [] {
      assert IsBlank(t[0..]);
      assert s == s[..|s| - |t|] + t;
    }
  }

  /** A text with no whitespace at either end is its own trimming. */
  lemma TrimOfTrimmed(s: string)
    requires IsTrimmed(s)
    ensures Trim(s) == s
  {
  }

  /** Trimming is idempotent. */
  lemma TrimIdempotent(s: string)
    ensures Trim(Trim(s)) == Trim(s)
  {
    TrimOfTrimmed(Trim(s));
  }

  /** Trimming the end of a text that has no trailing whitespace leaves it unchanged. */
  lemma TrimEndOfTrimmed(s: string)
    requires s == [] || !IsWhitespace(s[|s| - 1])
    ensures TrimEnd(s) == s
  {
  }

  // ---------------------------------------------------------------- digits

  predicate IsDigit(c: char) {
    '0' <= c <= '9'
  }

  predicate AllDigits(s: string) {
    forall i :: 0 <= i < |s| ==> IsDigit(s[i])
  }

  /** Ranges of code points, from first to last, in increasing order. */
  datatype CodeRuns = NoRuns | Run(first: int, last: int, rest: CodeRuns)

  predicate InRuns(x: int, runs: CodeRuns) {
    runs.Run? && (runs.first <= x <= runs.last || InRuns(x, runs.rest))
  }

  /** The code points of Unicode general category Nd (decimal digit,
      Unicode 15.0) outside ASCII: runs of ten digits, one per script, and
      the fifty mathematical digits. */
  const NonAsciiDigits: CodeRuns :=
    Run(0x660, 0x669, Run(0x6F0, 0x6F9, Run(0x7C0, 0x7C9, Run(0x966, 0x96F,
    Run(0x9E6, 0x9EF, Run(0xA66, 0xA6F, Run(0xAE6, 0xAEF, Run(0xB66, 0xB6F,
    Run(0xBE6, 0xBEF, Run(0xC66, 0xC6F, Run(0xCE6, 0xCEF, Run(0xD66, 0xD6F,
    Run(0xDE6, 0xDEF, Run(0xE50, 0xE59, Run(0xED0, 0xED9, Run(0xF20, 0xF29,
    Run(0x1040, 0x1049, Run(0x1090, 0x1099, Run(0x17E0, 0x17E9, Run(0x1810, 0x1819,
    Run(0x1946, 0x194F, Run(0x19D0, 0x19D9, Run(0x1A80, 0x1A89, Run(0x1A90, 0x1A99,
    Run(0x1B50, 0x1B59, Run(0x1BB0, 0x1BB9, Run(0x1C40, 0x1C49, Run(0x1C50, 0x1C59,
    Run(0xA620, 0xA629, Run(0xA8D0, 0xA8D9, Run(0xA900, 0xA909, Run(0xA9D0, 0xA9D9,
    Run(0xA9F0, 0xA9F9, Run(0xAA50, 0xAA59, Run(0xABF0, 0xABF9, Run(0xFF10, 0xFF19,
    Run(0x104A0, 0x104A9, Run(0x10D30, 0x10D39, Run(0x11066, 0x1106F, Run(0x110F0, 0x110F9,
    Run(0x11136, 0x1113F, Run(0x111D0, 0x111D9, Run(0x112F0, 0x112F9, Run(0x11450, 0x11459,
    Run(0x114D0, 0x114D9, Run(0x11650, 0x11659, Run(0x116C0, 0x116C9, Run(0x11730, 0x11739,
    Run(0x118E0, 0x118E9, Run(0x11950, 0x11959, Run(0x11C50, 0x11C59, Run(0x11D50, 0x11D59,
    Run(0x11DA0, 0x11DA9, Run(0x11F50, 0x11F59, Run(0x16A60, 0x16A69, Run(0x16AC0, 0x16AC9,
    Run(0x16B50, 0x16B59, Run(0x1D7CE, 0x1D7FF, Run(0x1E140, 0x1E149, Run(0x1E2F0, 0x1E2F9,
    Run(0x1E4F0, 0x1E4F9, Run(0x1E950, 0x1E959, Run(0x1FBF0, 0x1FBF9,
    NoRuns)))))))))))))))))))))))))))))))))))))))))))))))))))))))))))))))

  /** A decimal digit in any script: what `\d` matches in a Unicode-aware
      regular expression. All of them outside ASCII lie above U+065F. */
  predicate IsDecimalDigit(c: char) {
    IsDigit(c) || (c as int >= 0x660 && InRuns(c as int, NonAsciiDigits))
  }

  predicate AllDecimalDigits(s: string) {
    forall i :: 0 <= i < |s| ==> IsDecimalDigit(s[i])
  }

  /** The length of the run of ASCII digits starting at `i`. */
  function AsciiDigitRun(s: string, i: nat): (n: nat)
    requires i <= |s|
    ensures i + n <= |s| && forall k :: i <= k < i + n ==> IsDigit(s[k])
    ensures i + n == |s| || !IsDigit(s[i + n])
    decreases |s| - i
  {
    if i < |s| && IsDigit(s[i]) then 1 + AsciiDigitRun(s, i + 1) else 0
  }

  function DigitValue(c: char): nat
    requires IsDigit(c)
  {
    c as int - '0' as int
  }

  function DigitChar(d: nat): (c: char)
    requires d < 10
    ensures IsDigit(c) && DigitValue(c) == d
  {
    ('0' as int + d) as char
  }

  /** The value of a string of decimal digits, most significant first. */
  function DigitsValue(s: string): nat
    requires AllDigits(s)
  {
    if s == [] then 0 else DigitsValue(s[..|s| - 1]) * 10 + DigitValue(s[|s| - 1])
  }

  /** A canonical decimal numeral: non-empty, and no leading zero unless it is "0". */
  predicate IsCanonicalNumeral(s: string) {
    |s| >= 1 && AllDigits(s) && (s[0] != '0' || |s| == 1)
  }

  /** The decimal rendering of an unsigned integer (`u64::to_string`). */
  function NatToString(n: nat): (r: string)
    ensures IsCanonicalNumeral(r)
    ensures DigitsValue(r) == n
  {
    if n < 10 then [DigitChar(n)]
    else
      var prefix := NatToString(n / 10);
      var r := prefix + [DigitChar(n % 10)];
      assert r[..|r| - 1] == prefix;
      r
  }

  /** The rendering is injective: the numeral determines the number. */
  lemma NatToStringInjective(a: nat, b: nat)
    requires NatToString(a) == NatToString(b)
    ensures a == b
  {
    assert DigitsValue(NatToString(a)) == a;
  }

  /** Leading zeros do not change the value of a numeral. */
  lemma {:induction false} LeadingZerosValue(k: nat, s: string)
    requires AllDigits(s)
    ensures AllDigits(Zeros(k) + s) && DigitsValue(Zeros(k) + s) == DigitsValue(s)
  {
    var t := Zeros(k) + s;
    assert AllDigits(t) by {
      forall i | 0 <= i < |t| ensures IsDigit(t[i]) {
        if i < k { assert t[i] == '0'; } else { assert t[i] == s[i - k]; }
      }
    }
    if s == [] {
      assert t == Zeros(k);
      ZerosValue(k);
    } else {
      assert t[..|t| - 1] == Zeros(k) + s[..|s| - 1];
      LeadingZerosValue(k, s[..|s| - 1]);
    }
  }

  function Zeros(k: nat): (r: string)
    ensures |r| == k && forall i :: 0 <= i < k ==> r[i] == '0'
  {
    if k == 0 then "" else Zeros(k - 1) + "0"
  }

  lemma {:induction false} ZerosValue(k: nat)
    ensures AllDigits(Zeros(k)) && DigitsValue(Zeros(k)) == 0
  {
    if k > 0 {
      assert Zeros(k)[..k - 1] == Zeros(k - 1);
      ZerosValue(k - 1);
    }
  }

  /** Decimal rendering left-padded with zeros to at least `width` digits,
      as `format!("{:0width$}")` does for an unsigned value. */
  function PadZeros(n: nat, width: nat): (r: string)
    ensures AllDigits(r) && DigitsValue(r) == n
    ensures |r| == if |NatToString(n)| < width then width else |NatToString(n)|
  {
    var digits := NatToString(n);
    var pad := if |digits| < width then width - |digits| else 0;
    LeadingZerosValue(pad, digits);
    Zeros(pad) + digits
  }

  function Pow10(w: nat): (r: nat)
    ensures r >= 1
  {
    if w == 0 then 1 else 10 * Pow10(w - 1)
  }

  /** `w` digits hold a value below `10^w`. */
  lemma {:induction false} DigitsValueBound(s: string)
    requires AllDigits(s)
    ensures DigitsValue(s) < Pow10(|s|)
  {
    if s != [] {
      DigitsValueBound(s[..|s| - 1]);
    }
  }

  /** A number below `10^w` renders in at most `w` digits. */
  lemma {:induction false} NatToStringLength(n: nat, w: nat)
    requires w >= 1 && n < Pow10(w)
    ensures |NatToString(n)| <= w
  {
    if n >= 10 {
      assert Pow10(1) == 10;
      NatToStringLength(n / 10, w - 1);
    }
  }

  // ------------------------------------------------------ searching and splitting

  predicate OccursAt(s: string, t: string, i: nat) {
    i + |t| <= |s| && s[i..i + |t|] == t
  }

  /** `str::find`: the first position at or after `from` where `t` occurs. */
  function FindFrom(s: string, t: string, from: nat): (r: Option<nat>)
    requires from <= |s|
    ensures r.Some? ==> from <= r.value && OccursAt(s, t, r.value)
    ensures r.Some? ==> forall j: nat :: from <= j < r.value ==> !OccursAt(s, t, j)
    ensures r.None? ==> forall j: nat :: from <= j ==> !OccursAt(s, t, j)
    decreases |s| - from
  {
    if OccursAt(s, t, from) then Some(from)
    else if from == |s| then None
    else FindFrom(s, t, from + 1)
  }

  function Find(s: string, t: string): (r: Option<nat>)
    ensures r.Some? ==> OccursAt(s, t, r.value) && forall j: nat :: j < r.value ==> !OccursAt(s, t, j)
    ensures r.None? ==> forall j: nat :: !OccursAt(s, t, j)
  {
    FindFrom(s, t, 0)
  }

  /** `str::contains`. */
  predicate Contains(s: string, t: string) {
    Find(s, t).Some?
  }

  lemma ContainsIff(s: string, t: string)
    ensures Contains(s, t) <==> exists i: nat :: OccursAt(s, t, i)
  {
  }

  /** A text contains each of the pieces it is written from. */
  lemma ContainsMiddle(a: string, b: string, c: string)
    ensures Contains(a + b + c, b)
  {
    assert OccursAt(a + b + c, b, |a|) by {
      assert (a + b + c)[|a|..|a| + |b|] == b;
    }
    ContainsIff(a + b + c, b);
  }

  /** A text that contains a non-blank text is not blank. */
  lemma ContainsNonBlank(s: string, t: string)
    requires Contains(s, t) && !IsBlank(t)
    ensures !IsBlank(s)
  {
    var i := Find(s, t).value;
    var j :| 0 <= j < |t| && !IsWhitespace(t[j]);
    assert s[i + j] == s[i..i + |t|][j];
  }

  lemma ContainsTransitive(s: string, t: string, u: string)
    requires Contains(s, t) && Contains(t, u)
    ensures Contains(s, u)
  {
    var i := Find(s, t).value;
    var j := Find(t, u).value;
    assert s[i + j..i + j + |u|] == t[j..j + |u|];
    assert OccursAt(s, u, i + j);
    ContainsIff(s, u);
  }

  /** A joined text contains every part. */
  lemma {:induction false} JoinContains(parts: seq<string>, sep: string, k: nat)
    requires k < |parts|
    ensures Contains(Join(parts, sep), parts[k])
    decreases |parts|
  {
    if |parts| == 1 {
      ContainsMiddle("", parts[0], "");
      assert "" + parts[0] + "" == parts[0];
    } else if k == 0 {
      ContainsMiddle("", parts[0], sep + Join(parts[1..], sep));
      assert "" + parts[0] + (sep + Join(parts[1..], sep)) == Join(parts, sep);
    } else {
      JoinContains(parts[1..], sep, k - 1);
      var rest := Join(parts[1..], sep);
      ContainsMiddle(parts[0] + sep, rest, "");
      assert parts[0] + sep + rest + "" == Join(parts, sep);
      ContainsTransitive(Join(parts, sep), rest, parts[k]);
    }
  }

  /** `str::starts_with`. */
  predicate StartsWith(s: string, p: string) {
    |p| <= |s| && s[..|p|] == p
  }

  /** `[String]::join`. */
  function Join(parts: seq<string>, sep: string): string
  {
    if |parts| == 0 then ""
    else if |parts| == 1 then parts[0]
    else parts[0] + sep + Join(parts[1..], sep)
  }

  /** The pieces written one after another. */
  function Concat(ss: seq<string>): string
    decreases |ss|
  {
    if ss == [] then "" else Concat(ss[..|ss| - 1]) + ss[|ss| - 1]
  }

  lemma ConcatSingle(x: string)
    ensures Concat([x]) == x
  {
    assert [x][..0] == [];
  }

  lemma {:induction false} ConcatAppend(a: seq<string>, b: seq<string>)
    ensures Concat(a + b) == Concat(a) + Concat(b)
    decreases |b|
  {
    if b == [] {
      assert a + b == a;
    } else {
      var n := |b|;
      assert (a + b)[..|a + b| - 1] == a + b[..n - 1];
      assert (a + b)[|a + b| - 1] == b[n - 1];
      ConcatAppend(a, b[..n - 1]);
      assert Concat(b) == Concat(b[..n - 1]) + b[n - 1];
    }
  }

  /** `str::split` with a non-empty separator: the pieces between the
      non-overlapping occurrences of `sep`, found left to right. */
  function Split(s: string, sep: string): (r: seq<string>)
    requires |sep| > 0
    ensures |r| >= 1
    decreases |s|
  {
    match Find(s, sep)
    case None => [s]
    case Some(i) => [s[..i]] + Split(s[i + |sep|..], sep)
  }

  /** No piece of a split contains the separator. */
  lemma {:induction false} SplitPiecesFree(s: string, sep: string)
    requires |sep| > 0
    ensures forall k :: 0 <= k < |Split(s, sep)| ==> !Contains(Split(s, sep)[k], sep)
    decreases |s|
  {
    match Find(s, sep)
    case None =>
    case Some(i) =>
      FirstPieceFree(s, sep, i);
      SplitPiecesFree(s[i + |sep|..], sep);
      SplitStep(s, sep, i);
  }

  /** The text before the first occurrence of `sep` does not contain it. */
  lemma FirstPieceFree(s: string, sep: string, i: nat)
    requires |sep| > 0 && Find(s, sep) == Some(i)
    ensures i <= |s| && !Contains(s[..i], sep)
  {
    var head := s[..i];
    forall j: nat ensures !OccursAt(head, sep, j) {
      if OccursAt(head, sep, j) {
        OccursInPrefix(s, sep, i, j);
      }
    }
    ContainsIff(head, sep);
  }

  /** An occurrence in a prefix is an occurrence in the text. */
  lemma OccursInPrefix(s: string, t: string, n: nat, j: nat)
    requires n <= |s| && OccursAt(s[..n], t, j)
    ensures OccursAt(s, t, j)
  {
    assert s[j..j + |t|] == s[..n][j..j + |t|];
  }

  /** The first piece, then the pieces of the rest. */
  lemma SplitStep(s: string, sep: string, i: nat)
    requires |sep| > 0 && Find(s, sep) == Some(i)
    ensures i + |sep| <= |s| && Split(s, sep) == [s[..i]] + Split(s[i + |sep|..], sep)
  {
  }

  /** A text without the separator splits into itself alone. */
  lemma SplitWithoutSeparator(s: string, sep: string)
    requires |sep| > 0 && !Contains(s, sep)
    ensures Split(s, sep) == [s]
  {
  }

  /** The first occurrence of a character is right after a prefix free of it. */
  lemma FindCharAfterFree(a: string, c: char, b: string)
    requires c !in a
    ensures Find(a + [c] + b, [c]) == Some(|a|)
  {
    var s := a + [c] + b;
    assert OccursAt(s, [c], |a|);
    forall j: nat | j < |a| ensures !OccursAt(s, [c], j) {
      assert s[j] == a[j];
    }
  }

  /** The text before the first occurrence of a character is free of it. */
  lemma FreeBeforeFirst(s: string, c: char, i: nat)
    requires Find(s, [c]) == Some(i)
    ensures i < |s| && c !in s[..i]
  {
    if c in s[..i] {
      var k :| 0 <= k < i && s[..i][k] == c;
      assert OccursAt(s, [c], k);
    }
  }

  /** A text free of a character does not contain it. */
  lemma FreeNotContains(s: string, c: char)
    requires c !in s
    ensures !Contains(s, [c])
  {
    forall j: nat ensures !OccursAt(s, [c], j) {
      if j < |s| {
        assert s[j] in s;
      }
    }
  }

  /** Containing a one-character text is containing the character. */
  lemma ContainsChar(s: string, c: char)
    ensures Contains(s, [c]) <==> c in s
  {
    if c in s {
      var j :| 0 <= j < |s| && s[j] == c;
      assert OccursAt(s, [c], j);
    } else {
      FreeNotContains(s, c);
    }
  }

  /** A split has more than one piece exactly when the separator occurs. */
  lemma SplitManyPieces(s: string, sep: string)
    requires |sep| > 0
    ensures |Split(s, sep)| >= 2 <==> Contains(s, sep)
  {
  }

  /** A join of two or more parts starts with the first two and the separator
      between them. */
  lemma JoinStartsWithFirstTwo(parts: seq<string>, sep: string)
    requires |parts| >= 2
    ensures StartsWith(Join(parts, sep), parts[0] + sep + parts[1])
  {
    if |parts| > 2 {
      var rest := Join(parts[2..], sep);
      assert parts[1..][1..] == parts[2..];
      assert Join(parts[1..], sep) == parts[1] + sep + rest;
      assert Join(parts, sep) == (parts[0] + sep + parts[1]) + (sep + rest);
    } else {
      assert parts[1..] == [parts[1]];
    }
  }

  /** Splitting on a one-character separator peels off the text before its
      first occurrence. */
  lemma SplitAtFirst(a: string, sep: string, b: string)
    requires |sep| == 1 && sep[0] !in a
    ensures Split(a + sep + b, sep) == [a] + Split(b, sep)
  {
    var s := a + sep + b;
    assert sep == [sep[0]];
    FindCharAfterFree(a, sep[0], b);
    assert s[..|a|] == a;
    assert s[|a| + 1..] == b;
  }

  /** Splitting pieces joined by a one-character separator they are free of
      gives the pieces back. */
  lemma {:induction false} SplitJoin(parts: seq<string>, sep: string)
    requires |sep| == 1 && |parts| >= 1
    requires forall k :: 0 <= k < |parts| ==> sep[0] !in parts[k]
    ensures Split(Join(parts, sep), sep) == parts
    decreases |parts|
  {
    assert sep == [sep[0]];
    if |parts| == 1 {
      FreeNotContains(parts[0], sep[0]);
      SplitWithoutSeparator(parts[0], sep);
    } else {
      SplitAtFirst(parts[0], sep, Join(parts[1..], sep));
      SplitJoin(parts[1..], sep);
      assert parts == [parts[0]] + parts[1..];
    }
  }

  /** Joining the pieces of a split with the same separator gives back the text. */
  lemma {:induction false} JoinSplit(s: string, sep: string)
    requires |sep| > 0
    ensures Join(Split(s, sep), sep) == s
    decreases |s|
  {
    match Find(s, sep)
    case None =>
    case Some(i) =>
      var rest := s[i + |sep|..];
      var pieces := Split(rest, sep);
      JoinSplit(rest, sep);
      assert Split(s, sep) == [s[..i]] + pieces;
      assert Join([s[..i]] + pieces, sep) == s[..i] + sep + Join(pieces, sep) by {
        assert ([s[..i]] + pieces)[1..] == pieces;
      }
      assert s == s[..i] + sep + rest by {
        assert s[i..i + |sep|] == sep;
      }
  }

  /** No proper suffix of `sep` is also a prefix of it, so occurrences of
      `sep` never overlap one another. */
  predicate NoSelfOverlap(sep: string) {
    forall b :: 0 < b < |sep| ==> !OccursAt(sep, sep[b..], 0)
  }

  /** A text that starts with `p`, where `p` cannot hold the start of a
      separator, has a first split piece that starts with `p`. */
  lemma SplitFirstPiecePrefix(s: string, sep: string, p: string)
    requires |sep| > 0 && StartsWith(s, p)
    requires forall k :: 0 <= k < |p| ==> p[k] != sep[0]
    ensures StartsWith(Split(s, sep)[0], p)
  {
    match Find(s, sep)
    case None =>
    case Some(j) =>
      assert s[j..j + |sep|] == sep;
      assert s[j] == sep[0];
      assert forall k :: 0 <= k < |p| ==> s[k] == s[..|p|][k] == p[k];
  }

  /** Two occurrences of a non-self-overlapping separator are either the same
      or at least a separator apart. */
  lemma OccurrencesDoNotOverlap(s: string, sep: string, a: nat, b: nat)
    requires NoSelfOverlap(sep) && OccursAt(s, sep, a) && OccursAt(s, sep, b) && a < b
    ensures a + |sep| <= b
  {
    OverlapIsBorder(s, sep, a, b);
  }

  /** Two overlapping occurrences exhibit a proper suffix of the separator
      that is also a prefix of it. */
  lemma OverlapIsBorder(s: string, sep: string, a: nat, b: nat)
    requires OccursAt(s, sep, a) && OccursAt(s, sep, b) && a < b
    ensures b < a + |sep| ==> OccursAt(sep, sep[b - a..], 0)
  {
    if b < a + |sep| {
      var d := b - a;
      assert sep[d..] == s[b..a + |sep|];
      assert s[b..a + |sep|] == sep[..|sep| - d];
    }
  }

  /** The split of a text whose first separator is followed by `p` has a
      second piece that starts with `p`. */
  lemma SplitSecondPiecePrefix(s: string, sep: string, p: string, i: nat)
    requires |sep| > 0 && Find(s, sep) == Some(i)
    requires forall k :: 0 <= k < |p| ==> p[k] != sep[0]
    requires OccursAt(s, sep + p, i)
    ensures |Split(s, sep)| >= 2 && StartsWith(Split(s, sep)[1], p)
  {
    var rest := s[i + |sep|..];
    SplitStep(s, sep, i);
    assert StartsWith(rest, p) by {
      assert rest[..|p|] == s[i + |sep|..i + |sep| + |p|];
      assert s[i..i + |sep| + |p|] == sep + p;
    }
    SplitFirstPiecePrefix(rest, sep, p);
  }

  /** An occurrence after the first separator is an occurrence in the rest of the text. */
  lemma OccurrenceInRest(s: string, t: string, first: nat, sepLen: nat, i: nat)
    requires first + sepLen <= i && OccursAt(s, t, i)
    ensures first + sepLen <= |s| && OccursAt(s[first + sepLen..], t, i - (first + sepLen))
  {
    var i' := i - (first + sepLen);
    assert s[first + sepLen..][i'..i' + |t|] == s[i..i + |t|];
  }

  /** Every occurrence of a non-self-overlapping `sep` is a split point: a text
      containing `sep + p` has a piece after the first that starts with `p`. */
  lemma {:induction false} SplitPieceAfterOccurrence(s: string, sep: string, p: string, i: nat)
    returns (k: nat)
    requires |sep| > 0 && NoSelfOverlap(sep)
    requires forall j :: 0 <= j < |p| ==> p[j] != sep[0]
    requires OccursAt(s, sep + p, i)
    ensures 1 <= k < |Split(s, sep)| && StartsWith(Split(s, sep)[k], p)
    decreases |s|
  {
    SeparatorOccurs(s, sep, p, i);
    if Find(s, sep) == Some(i) {
      SplitSecondPiecePrefix(s, sep, p, i);
      k := 1;
    } else {
      var first := LaterOccurrence(s, sep, p, i);
      var rest := s[first + |sep|..];
      var k' := SplitPieceAfterOccurrence(rest, sep, p, i - (first + |sep|));
      k := k' + 1;
      assert Split(s, sep)[k] == Split(rest, sep)[k'];
    }
  }

  lemma SeparatorOccurs(s: string, sep: string, p: string, i: nat)
    requires OccursAt(s, sep + p, i)
    ensures OccursAt(s, sep, i)
  {
    assert s[i..i + |sep|] == (sep + p)[..|sep|];
  }

  /** When `sep + p` occurs after the first separator, the split goes on
      past the first separator and the occurrence is in the rest. */
  lemma LaterOccurrence(s: string, sep: string, p: string, i: nat) returns (first: nat)
    requires |sep| > 0 && NoSelfOverlap(sep) && OccursAt(s, sep + p, i)
    requires Find(s, sep) != Some(i)
    ensures first + |sep| <= i && first + |sep| <= |s|
    ensures Split(s, sep) == [s[..first]] + Split(s[first + |sep|..], sep)
    ensures OccursAt(s[first + |sep|..], sep + p, i - (first + |sep|))
  {
    SeparatorOccurs(s, sep, p, i);
    first := Find(s, sep).value;
    OccurrencesDoNotOverlap(s, sep, first, i);
    SplitStep(s, sep, first);
    OccurrenceInRest(s, sep + p, first, |sep|, i);
  }

  /** A separator that does not overlap itself and does not occur in `a` is
      first found right after `a`. */
  lemma FindAfterFree(a: string, sep: string, b: string)
    requires |sep| > 0 && NoSelfOverlap(sep) && !Contains(a, sep)
    ensures Find(a + sep + b, sep) == Some(|a|)
  {
    var s := a + sep + b;
    assert OccursAt(s, sep, |a|) by {
      assert s[|a|..|a| + |sep|] == sep;
    }
    forall j: nat | j < |a| ensures !OccursAt(s, sep, j) {
      if OccursAt(s, sep, j) {
        if j + |sep| <= |a| {
          assert a[j..j + |sep|] == s[j..j + |sep|];
          assert OccursAt(a, sep, j);
          ContainsIff(a, sep);
        } else {
          OverlapIsBorder(s, sep, j, |a|);
        }
      }
    }
  }

  /** Splitting peels off a first piece that is free of the separator. */
  lemma SplitAfterFree(a: string, sep: string, b: string)
    requires |sep| > 0 && NoSelfOverlap(sep) && !Contains(a, sep)
    ensures Split(a + sep + b, sep) == [a] + Split(b, sep)
  {
    var s := a + sep + b;
    FindAfterFree(a, sep, b);
    SplitStep(s, sep, |a|);
    assert s[..|a|] == a;
    assert s[|a| + |sep|..] == b;
  }

  /** Splitting pieces joined by a separator that none of them contains, and
      that does not overlap itself, gives the pieces back. */
  lemma {:induction false} SplitJoinFree(parts: seq<string>, sep: string)
    requires |sep| > 0 && NoSelfOverlap(sep) && |parts| >= 1
    requires forall k :: 0 <= k < |parts| ==> !Contains(parts[k], sep)
    ensures Split(Join(parts, sep), sep) == parts
    decreases |parts|
  {
    if |parts| == 1 {
      SplitWithoutSeparator(parts[0], sep);
    } else {
      SplitAfterFree(parts[0], sep, Join(parts[1..], sep));
      SplitJoinFree(parts[1..], sep);
      assert parts == [parts[0]] + parts[1..];
    }
  }

  /** A prefix of a text that does not contain `t` does not contain it either. */
  lemma PrefixFree(s: string, n: nat, t: string)
    requires n <= |s| && !Contains(s, t)
    ensures !Contains(s[..n], t)
  {
    forall j: nat ensures !OccursAt(s[..n], t, j) {
      if OccursAt(s[..n], t, j) {
        OccursInPrefix(s, t, n, j);
        ContainsIff(s, t);
      }
    }
    ContainsIff(s[..n], t);
  }

  /** A character that `t` does not have cuts every occurrence of `t`. */
  lemma CharSeparatesOccurrences(x: string, c: char, y: string, t: string)
    requires c !in t && !Contains(x, t) && !Contains(y, t)
    ensures !Contains(x + [c] + y, t)
  {
    var s := x + [c] + y;
    forall j: nat | j + |t| <= |s| ensures !OccursAt(s, t, j) {
      if j + |t| <= |x| {
        assert x[j..j + |t|] == s[j..j + |t|];
        ContainsIff(x, t);
        assert !OccursAt(x, t, j);
      } else if j > |x| {
        assert y[j - |x| - 1..j - |x| - 1 + |t|] == s[j..j + |t|];
        ContainsIff(y, t);
        assert !OccursAt(y, t, j - |x| - 1);
      } else {
        assert s[j..j + |t|][|x| - j] == c;
      }
    }
    ContainsIff(s, t);
  }

  /** A text lacking the first character of `t` does not contain `t`. */
  lemma MissingFirstChar(s: string, t: string)
    requires |t| > 0 && t[0] !in s
    ensures !Contains(s, t)
  {
    forall j: nat | j < |s| ensures !OccursAt(s, t, j) {
      assert s[j] != t[0];
    }
    ContainsIff(s, t);
  }

  /** A character in neither the parts nor the separator is not in their join. */
  lemma {:induction false} CharNotInJoin(parts: seq<string>, sep: string, c: char)
    requires c !in sep && forall k :: 0 <= k < |parts| ==> c !in parts[k]
    ensures c !in Join(parts, sep)
    decreases |parts|
  {
    if |parts| > 1 {
      CharNotInJoin(parts[1..], sep, c);
    }
  }

  lemma ConcatAssoc<T>(x: seq<T>, y: seq<T>, z: seq<T>)
    ensures x + (y + z) == (x + y) + z
  {
  }
}

=== FILE: wrappers.dfy ===
/** Failure-compatible wrappers used across the model: an optional value and
    a value-or-error result, both usable with `:-`. */
module Wrappers {

  datatype Option<+T> = None | Some(value: T) {
    predicate IsFailure() {
      None?
    }

    function PropagateFailure<U>(): Option<U>
      requires None?
    {
      None
    }

    function Extract(): T
      requires Some?
    {
      value
    }

    function GetOr(default: T): T {
      match this
      case Some(v) => v
      case None => default
    }
  }

  datatype Result<+R, +E> = Success(value: R) | Failure(error: E) {
    predicate IsFailure() {
      Failure?
    }

    function PropagateFailure<U>(): Result<U, E>
      requires Failure?
    {
      Failure(error)
    }

    function Extract(): R
      requires Success?
    {
      value
    }
  }

  /** Collecting results into one (Rust's `collect` into a `Result`): every
      value in order, or the first failure. */
  function Collect<T, E>(results: seq<Result<T, E>>): (r: Result<seq<T>, E>)
    ensures r.Success? <==> forall i :: 0 <= i < |results| ==> results[i].Success?
    ensures r.Success? ==> |r.value| == |results| && forall i :: 0 <= i < |results| ==> results[i] == Success(r.value[i])
    ensures r.Failure? ==> exists i :: 0 <= i < |results| && results[i] == Failure(r.error)
                                       && forall j :: 0 <= j < i ==> results[j].Success?
    decreases |results|
  {
    if results == [] then Success([])
    else
      match results[0]
      case Failure(e) => Failure(e)
      case Success(v) =>
        match Collect(results[1..])
        case Failure(e) =>
          assert forall i :: 0 <= i < |results| - 1 ==> results[1..][i] == results[i + 1];
          Failure(e)
        case Success(vs) => Success([v] + vs)
  }
}
